=== FILE: README.md ===
# MCP server marketplace — a Dafny model

This project models the marketplace of shareable MCP server configurations in the consomnius desktop application. It covers the whole path of a marketplace entry:

- **Repository** (`MarketplaceService.ts`). MongoDB is modelled as a sequence of documents. It covers the connection flags, `docToServer`, the public listing with its fallback, the owner's list and lookup by id. It also covers create with its defaults, update with the ownership check and the patch that drops undefined fields, delete, and the install counter.
- **HTTP routes** (`routes/marketplace.ts`). Each handler is a function from the identity headers and the repository outcome to a status code and a `{ success, data, error }` envelope. This includes the substring-based 403/404/500 classification and the route table's registration order.
- **Client** (`AuthenticatedApiClient.ts`). It covers the cache-busting URL, the header selection, and the mapping from a `fetch` outcome to an `ApiResponse`: 401, 403, 429, the 304 retry, other failures, then the envelope unwrap.
- **Client state.** The sign-in service (`AuthService.ts`) covers session loading with the expiry check, the user transform, subscribers, `setState`, sign-out and the ownership rules. The marketplace store (`MarketplaceContext.tsx`) covers the two lists with their loading and error fields, create/update/delete with their refetches and optimistic delete, `isOwner` and `canEdit`.
- **Screens.**
  - The install matcher (`utils.ts`).
  - The install handler, `resolveArg`, argument padding, the simple editor's payload and the edit/delete guards (`MCPMarketplace/index.tsx`).
  - The enhanced form's populate and submit mapping (`EnhancedServerForm.tsx`).
  - On the details page (`ServerDetailsPage.tsx`): ownership, review eligibility, the rating rows, the review list and the `marketplaceId` backfill.

`EndToEnd` connects the layers. Each client call reaches the route it is meant for. The identity the client sends is the one the routes see. The routes' envelopes reach the store as stated.

JavaScript values are the `Json` datatype: `undefined`, `null`, booleans, integers, strings, arrays and objects. An object is a list of fields in insertion order. The model follows JavaScript's truthiness, `||` and `??`, and property reads on objects. Where it departs from JavaScript (integer-like keys, indexing into arrays and strings, `$` patterns in `String.replace`, spreading non-objects), "## Left out" says so. Time, the home directory, generated ids, the environment and everything the MongoDB driver decides are parameters.

Modules, one per file: `Basics`, `Text` and `Json` hold the shared vocabulary. `Connection` and `Repository` model the service, `Routes` the HTTP layer, `Auth`, `ApiClient` and `Store` the client. `Matcher`, `MarketplacePage`, `ServerForm` and `DetailsPage` model the screens, and `EndToEnd` composes the layers.

## Model

| member | source | states |
|---|---|---|
| Connection.FirstSet | src/main/services/MarketplaceService.ts:18-23 | The value of the first variable in the list that is set and non-empty; there is none exactly when every variable in the list is unset or empty. |
| Connection.ConnectionString | src/main/services/MarketplaceService.ts:16-31 | `null` exactly when none of the five connection variables is set and non-empty; otherwise a non-empty string. |
| Connection.MarketplaceUriFirst | src/main/services/MarketplaceService.ts:18-19 | A set `MARKETPLACE_MONGODB_URI` wins over every other variable. |
| Connection.EmptyVariableSkipped | src/main/services/MarketplaceService.ts:18-20 | An empty `MARKETPLACE_MONGODB_URI` counts as unset, so `MONGODB_URI` is used. |
| Connection.Connect | src/main/services/MarketplaceService.ts:43-75 | A no-op when connected with a client. Without a connection string it fails with the not-configured message and leaves the flags alone. It succeeds exactly when a string is configured and the driver connects, and then every flag is set. A driver failure clears `isConnected` and wraps the driver's message. |
| Connection.Disconnect | src/main/services/MarketplaceService.ts:80-89 | With a client, every flag is cleared (back to the initial state); without one, nothing changes; afterwards there is never a client. |
| Connection.EnsureConnection | src/main/services/MarketplaceService.ts:94-98 | Nothing happens when connected with a collection; otherwise it behaves exactly as `connect`. |
| Connection.Ready | src/main/services/MarketplaceService.ts:135-138 | The operation prologue succeeds exactly when `ensureConnection` succeeds and leaves a collection. Otherwise it reports the connection error or `Database not initialized`, never with an empty message. |
| Connection.CoherentPreserved | src/main/services/MarketplaceService.ts:43-98 | `connect`, `disconnect` and the prologue all keep the invariant "connected implies a client and a collection". |
| Connection.ReadyOutcome | src/main/services/MarketplaceService.ts:94-98 | From a coherent state the prologue succeeds exactly when already connected, or when a string is configured and the driver connects. It then leaves the service connected with a collection; it fails only with the not-configured or the wrapped driver message. |
| Connection.ReadyIdempotent | src/main/services/MarketplaceService.ts:94-98 | Once the prologue has succeeded it succeeds again with no change, whatever the environment. |
| Connection.NotInitializedOnlyWhenIncoherent | src/main/services/MarketplaceService.ts:135-138 | `Database not initialized` is reported only from a state the service never reaches on its own. |
| Repository.Find | src/main/services/MarketplaceService.ts:221 | The position of the document whose id is the lower-cased `serverId`, and no earlier one has it; none exactly when no document has it. |
| Repository.FindOwnId | src/main/services/MarketplaceService.ts:221 | In a collection with unique ids, each document is found by its own id, in either letter case. |
| Repository.SortNewest | src/main/services/MarketplaceService.ts:147-150 | A permutation of the documents in which none is newer than one before it, by MongoDB's `createdAt` order of type, then number or string value. Objects are not ordered by content, and neither are arrays. |
| Repository.DocToServer | src/main/services/MarketplaceService.ts:103-129 | The id is the text of `_id`, or empty without one. `isPublic` defaults to true and `installCount` to 0 (neither is ever nullish afterwards). Every other known field (`name`, `description`, `version`, `author`, `config`, both times, the three owner fields, `videoUrl`, `instructions`, `category`, `website`, `supportEmail`, `developerInfo`, `rating`, `repository`, `tags`, `readme`) is copied unchanged. |
| Repository.ExtraFieldsHidden | src/main/services/MarketplaceService.ts:103-129 | Fields the service does not know never reach a client. |
| Repository.ToServers | src/main/services/MarketplaceService.ts:182 | One server per document, in order, so a newest-first list stays newest first. |
| Repository.PublicDocs | src/main/services/MarketplaceService.ts:142-159 | Newest first. When some document is listed, a permutation of exactly the listed documents (`isPublic` not `false`); when none is, a permutation of all of them. |
| Repository.GetAllServers | src/main/services/MarketplaceService.ts:134-187 | Fails exactly when the prologue fails and leaves the documents untouched; on success, the public documents as servers, newest first. |
| Repository.OwnedDocs | src/main/services/MarketplaceService.ts:199-202 | Newest first, and each document occurs as often as in the collection when its `ownerId` is the argument, and not at all otherwise. |
| Repository.GetMyServers | src/main/services/MarketplaceService.ts:192-209 | Fails exactly when the prologue fails; on success, exactly the owner's documents as servers, newest first. |
| Repository.GetServerById | src/main/services/MarketplaceService.ts:214-230 | A malformed id throws the wrapped BSON message. `null` means no document has that id. Otherwise it returns that document's server, and the documents are unchanged. |
| Repository.Stored | src/main/services/MarketplaceService.ts:243-265 | A field holding `undefined` is stored as `null`; any other value is stored as is. |
| Repository.NewDocument | src/main/services/MarketplaceService.ts:242-265 | Created and updated at `now`, no installs, public unless the request says otherwise, name `''` and config `{}` by default. The owner id, email and name come from the caller, with an undefined email or name stored as `null`. Every other listed request field is stored as the request gives it, undefined as `null`. No `rating`, no unknown fields. |
| Repository.CreateServer | src/main/services/MarketplaceService.ts:235-277 | Fails exactly when the prologue fails, and then adds nothing. On success it appends exactly the new document, keeps the others, and returns its server. |
| Repository.CreatedServerView | src/main/services/MarketplaceService.ts:267-272 | What a client gets back from a create: the new id, `now` for both times, zero installs, the caller as owner with its email and name, public unless the request says otherwise, name `''` and config `{}` by default, the request's description, and no rating. |
| Repository.ExtraOf | src/main/services/MarketplaceService.ts:298-308 | The request's unknown fields without the undefined ones: a key is present exactly when the request defines it. |
| Repository.UpdatedDoc | src/main/services/MarketplaceService.ts:298-310 | Keeps the id and sets `updatedAt` to `now`. |
| Repository.UpdatedFields | src/main/services/MarketplaceService.ts:298-310 | Every known field the request defines takes the request's value, `updatedAt` becomes `now`, and every other known field keeps its value. |
| Repository.UpdatedExtra | src/main/services/MarketplaceService.ts:298-310 | The same for unknown fields: the request's value when it defines one, else the old value. |
| Repository.Update | src/main/services/MarketplaceService.ts:288-319 | A malformed id, a missing server or another owner's server gives the matching wrapped error and leaves the collection unchanged. Otherwise only that document is replaced by its patched version and returned. |
| Repository.UpdateServer | src/main/services/MarketplaceService.ts:282-320 | A failed prologue changes nothing and propagates its error; otherwise the update above runs on the collection. |
| Repository.UpdateCanChangeOwner | src/main/services/MarketplaceService.ts:298-301 | A request carrying `ownerId` hands the server to that owner: ownership is not immutable. |
| Repository.Delete | src/main/services/MarketplaceService.ts:331-345 | A malformed id, a missing server or another owner's server gives the matching wrapped error and changes nothing. Otherwise that document is removed. |
| Repository.DeleteServer | src/main/services/MarketplaceService.ts:325-346 | A failed prologue changes nothing and propagates its error; otherwise the delete above runs. |
| Repository.DeleteRemovesOnlyThatId | src/main/services/MarketplaceService.ts:341 | A successful delete removes exactly the document with that id and keeps every other document, in order. |
| Repository.IncrementDoc | src/main/services/MarketplaceService.ts:358-361 | A numeric counter moves by `delta`, a missing one starts from 0, and any other value leaves the document as it was. |
| Repository.Increment | src/main/services/MarketplaceService.ts:358-365 | A malformed or unknown id changes nothing; otherwise only that document's counter moves. |
| Repository.Track | src/main/services/MarketplaceService.ts:351-386 | Only a connection failure escapes, and it changes nothing; otherwise the counter update is applied. |
| Repository.IncrementKeepsIds | src/main/services/MarketplaceService.ts:358-361 | The counter update keeps every id in place. |
| Repository.CountHasNoFloor | src/main/services/MarketplaceService.ts:378-381 | Uninstalling at zero gives `-1`, and clients see `-1`. |
| Repository.UninstallThenInstall | src/main/services/MarketplaceService.ts:357-385 | A decrement followed by an increment restores the count clients see. It restores every document exactly unless its counter was missing; a missing counter comes back as `0`, which clients read the same way. |
| Repository.CreateKeepsWellFormed | src/main/services/MarketplaceService.ts:267 | Creating under a fresh id keeps ids unique and documents well formed. |
| Repository.UpdateKeepsWellFormed | src/main/services/MarketplaceService.ts:310 | Updating keeps ids unique and documents well formed. |
| Repository.DeleteKeepsWellFormed | src/main/services/MarketplaceService.ts:341 | Deleting keeps ids unique and documents well formed. |
| Repository.TrackKeepsWellFormed | src/main/services/MarketplaceService.ts:358-361 | Counting keeps ids unique and documents well formed. |
| Routes.UserFromRequest | src/main/apiServer/routes/marketplace.ts:12-26 | A caller exactly when `x-user-id` is a non-empty header. The caller has that id, with the email and name headers as sent (undefined when missing). |
| Routes.AnyoneCanClaimAnId | src/main/apiServer/routes/marketplace.ts:12-26 | Setting the header is enough to act as any user: nothing checks it. |
| Routes.MessageOr | src/main/apiServer/routes/marketplace.ts:61-64 | The thrown message, or the route's fallback when the message is empty. |
| Routes.StatusFor | src/main/apiServer/routes/marketplace.ts:255-256 | 403 exactly when the message contains `permission`; else 404 exactly when it contains `not found`; else 500. The permission check wins. |
| Routes.NotFoundIs404 | src/main/apiServer/routes/marketplace.ts:255-256 | `Server not found` behind a wrapping prefix is classified 404. |
| Routes.RefusalIs403 | src/main/apiServer/routes/marketplace.ts:255-256 | A refusal naming `permission` is classified 403 whatever precedes it. |
| Routes.UnclassifiedIs500 | src/main/apiServer/routes/marketplace.ts:255-256 | A message naming neither case stays 500 behind the wrapping prefix. |
| Routes.UpdateMessagesClassified | src/main/apiServer/routes/marketplace.ts:255-256 | The service's not-found, permission and malformed-id messages for an update give 404, 403 and 500. |
| Routes.DeleteMessagesClassified | src/main/apiServer/routes/marketplace.ts:307-308 | The same three messages for a delete give 404, 403 and 500. |
| Routes.HandleList | src/main/apiServer/routes/marketplace.ts:50-66 | 200 with the public servers exactly when the service is reachable; otherwise 500 with the service's message; the documents are unchanged. |
| Routes.HandleMine | src/main/apiServer/routes/marketplace.ts:83-106 | 401 `Authentication required` without a caller, with the service untouched; otherwise the caller's servers, or 500. |
| Routes.HandleGet | src/main/apiServer/routes/marketplace.ts:127-151 | 200 with the server when it exists; 404 `Server not found` exactly when the id is well formed and unknown; 500 otherwise. |
| Routes.HandleCreate | src/main/apiServer/routes/marketplace.ts:174-203 | 401 without a caller, with the service untouched; otherwise 201 with the created server, or 500. |
| Routes.HandleUpdate | src/main/apiServer/routes/marketplace.ts:234-262 | 401 without a caller, with the service untouched; otherwise 200 with the updated server, or the thrown message under the status it is classified as. |
| Routes.HandleDelete | src/main/apiServer/routes/marketplace.ts:287-314 | 401 without a caller; otherwise a bare `{ success: true }`, or the thrown message under its classified status. |
| Routes.HandleTrack | src/main/apiServer/routes/marketplace.ts:333-382 | The response is always `{ success: true }`, whatever the tracking did. |
| Routes.UpdateStatusCodes | src/main/apiServer/routes/marketplace.ts:253-261 | Once connected, an update answers 200 when the caller may change the server, 403 for another owner's server, 404 for a missing one and 500 for a malformed id. |
| Routes.DeleteStatusCodes | src/main/apiServer/routes/marketplace.ts:305-313 | The same four outcomes for a delete. |
| Routes.Match | src/main/apiServer/routes/marketplace.ts:83-127 | The route a request reaches is registered under that method and path, and `/servers/my` is never read as a server id. |
| Routes.MatchPathOf | src/main/apiServer/routes/marketplace.ts:83-127 | Matching inverts the route table exactly on the reachable routes: every route except reading a server whose id is `my`. |
| Routes.Serve | src/main/apiServer/routes/marketplace.ts:50-382 | Unmatched requests get no answer. `GET /servers/my` always goes to the own-list handler. Install and uninstall ignore the caller. Every other matched route answers 401 without a caller. |
| Auth.Notify | src/renderer/src/services/AuthService.ts:74-76 | Every listener, in subscription order, receives the current state once; nothing else changes. |
| Auth.Apply | src/renderer/src/services/AuthService.ts:314 | Each field the update mentions takes the update's value; every other field keeps its value. |
| Auth.ApplyThen | src/renderer/src/services/AuthService.ts:313-316 | Two updates in a row equal one combined update in which the later one wins. |
| Auth.ApplyNothing | src/renderer/src/services/AuthService.ts:314 | An update that mentions nothing changes nothing. |
| Auth.SetState | src/renderer/src/services/AuthService.ts:313-316 | The state becomes the merged state, then every listener is notified with it; listeners and storage are unchanged. |
| Auth.Subscribe | src/renderer/src/services/AuthService.ts:78-79 | The listener is subscribed afterwards; subscribing one already present changes nothing, and a new one is added last. |
| Auth.Unsubscribe | src/renderer/src/services/AuthService.ts:80-82 | Removes exactly that listener and keeps every other one, with state, storage and notifications unchanged. |
| Auth.SubscribeThenUnsubscribe | src/renderer/src/services/AuthService.ts:78-83 | Unsubscribing a newly subscribed listener restores the service exactly. |
| Auth.TransformGoogleUser | src/renderer/src/services/AuthService.ts:57-67 | Throws exactly on a nullish profile. The id is `sub`, else `id`, else `''`; the name is `name`, else the email, else `''`. The email defaults to `''`, `isVerified` to `false`, and the picture is copied. |
| Auth.LoadUserFromStorage | src/renderer/src/services/AuthService.ts:28-55 | Does nothing unless both entries are present. Signs in (and notifies) exactly for a valid unexpired session. Otherwise it clears both entries and leaves the state, so it never signs in without a valid session. |
| Auth.ValidEarlier | src/renderer/src/services/AuthService.ts:38 | A session valid now was valid at every earlier time. |
| Auth.ExpiredSessionCleared | src/renderer/src/services/AuthService.ts:38-49 | Once `expires_at` has passed, loading clears both entries and changes nothing else. |
| Auth.LoadAgain | src/renderer/src/services/AuthService.ts:28-55 | Loading a second time at the same moment changes neither the state, the storage nor the listeners. |
| Auth.GetAccessToken | src/renderer/src/services/AuthService.ts:97-108 | The stored `access_token` when it is truthy, else `null`, including when the entry is missing or unreadable. |
| Auth.SignOut | src/renderer/src/services/AuthService.ts:291-299 | Both entries cleared, the signed-out state, and every listener notified with it. |
| Auth.SignOutThenLoad | src/renderer/src/services/AuthService.ts:291-299 | After signing out, loading restores nothing and there is no token. |
| Auth.IsServerOwner | src/renderer/src/services/AuthService.ts:301-305 | True exactly for a user whose non-empty id equals a truthy server's `ownerId`. |
| Auth.CanEditServer | src/renderer/src/services/AuthService.ts:307-311 | True exactly when signed in, with a truthy server that is ownerless or owned by the user. |
| Auth.ProfileOwnsItsServers | src/renderer/src/services/AuthService.ts:57-67 | A user built from a profile with a `sub` or an `id` owns exactly the servers whose `ownerId` is `sub`, else `id`. Signed in, they may edit those and the ownerless ones. |
| Auth.NamelessUserOwnsNothing | src/renderer/src/services/AuthService.ts:59 | A user built from a profile with neither `sub` nor `id` owns nothing, yet may still edit every ownerless server. |
| ApiClient.BaseUrl | src/renderer/src/services/AuthenticatedApiClient.ts:12 | Never empty; it is the local API server exactly when the override is missing, empty or that same URL. |
| ApiClient.Url | src/renderer/src/services/AuthenticatedApiClient.ts:48-49 | Starts with base and endpoint, followed by `&` when the endpoint has a `?` and `?` otherwise. |
| ApiClient.UrlHasQuery | src/renderer/src/services/AuthenticatedApiClient.ts:48-49 | Every request URL carries a query string. |
| ApiClient.UrlStamp | src/renderer/src/services/AuthenticatedApiClient.ts:49 | The URL ends in `_t=` and the clock reading, which reads back as that number. |
| ApiClient.UrlsDiffer | src/renderer/src/services/AuthenticatedApiClient.ts:47-49 | Requests made at different milliseconds never share a URL. |
| ApiClient.RequestHeaders | src/renderer/src/services/AuthenticatedApiClient.ts:29-45 | The four cache and content headers are always sent. `Authorization: Bearer <token>` is sent exactly when the token is truthy. The user's id and email are sent exactly when there is a user. No other header, and never a name. |
| ApiClient.Caught | src/renderer/src/services/AuthenticatedApiClient.ts:151-157 | A failure with no data and a non-empty message: the error's own message when it has one. |
| ApiClient.JsonOr | src/renderer/src/services/AuthenticatedApiClient.ts:100 | The parsed body, or the fallback when the body is empty or not JSON. |
| ApiClient.ErrorResponse | src/renderer/src/services/AuthenticatedApiClient.ts:107-113 | A failure with no data whose message is the body's truthy `message`, else the status message. A `null` body makes reading `message` throw, and the catch reports that. |
| ApiClient.RetryResponse | src/renderer/src/services/AuthenticatedApiClient.ts:83-105 | A rejected retry is caught. A failed retry gives the status message. A successful one gives `success: true` with the raw body as `data`. |
| ApiClient.Unwrap | src/renderer/src/services/AuthenticatedApiClient.ts:115-150 | An object body is read as the envelope: `success` defaults to true, and `data` and `error` are lifted out. Any other body, or none, is the data itself with `success: true`. |
| ApiClient.Request | src/renderer/src/services/AuthenticatedApiClient.ts:21-158 | Signs out exactly on 401. A rejected fetch is caught. 401, 403 and 429 give their fixed messages, checked before anything else. 304 is retried once. Other failed statuses go through the error branch, and successes are unwrapped. |
| ApiClient.RetryOnlyAfterNotModified | src/renderer/src/services/AuthenticatedApiClient.ts:83-105 | The second fetch matters only after a 304. |
| ApiClient.FailuresExplained | src/renderer/src/services/AuthenticatedApiClient.ts:58-113 | Every failure the client detects itself (a rejected fetch, or a failed status other than 304) gives `success: false`, no data and a non-empty message. |
| ApiClient.NotModifiedKeepsEnvelope | src/renderer/src/services/AuthenticatedApiClient.ts:100-104 | After a 304, a successful retry hands the caller the whole body as `data`, without unwrapping it. |
| ApiClient.ErrorResponseIntended | src/renderer/src/services/AuthenticatedApiClient.ts:107-113 | Corrected error branch: the body's `error` first, then `message`, then the status message; always a failure with a non-empty message. |
| ApiClient.RetryResponseIntended | src/renderer/src/services/AuthenticatedApiClient.ts:100-104 | Corrected retry: a successful retry is unwrapped like any other success; otherwise the same as written. |
| Store.ListOf | src/renderer/src/contexts/MarketplaceContext.tsx:87 | The data itself when it is an array, else the empty list. |
| Store.FetchServers | src/renderer/src/contexts/MarketplaceContext.tsx:73-117 | Only the public list's fields change, and loading ends. Success stores the data as a list and clears the error. A failed response keeps the list and records its error or the fallback. A rejection shows the API-down message exactly when its message names a failed connection. |
| Store.FetchMyServers | src/renderer/src/contexts/MarketplaceContext.tsx:120-150 | Signed out, the own list is emptied without a request and its error kept. Signed in, it behaves as `fetchServers` with its own fallbacks, and every rejection gives the own-list network message. |
| Store.RefreshOrderIrrelevant | src/renderer/src/contexts/MarketplaceContext.tsx:153-155 | The two fetches touch disjoint fields, so the order in which `Promise.all` settles them does not matter. |
| Store.FetchIdempotent | src/renderer/src/contexts/MarketplaceContext.tsx:73-150 | Fetching twice with the same reply is the same as fetching once. |
| Store.OnSessionChange | src/renderer/src/contexts/MarketplaceContext.tsx:244-251 | The public list is always fetched. Signed in, both lists are refreshed; signed out, the own list is emptied. |
| Store.ConnectionRefusedShownRaw | src/renderer/src/contexts/MarketplaceContext.tsx:102-116 | As written, a refused connection reaches the store as a resolved failure and shows the browser's raw `Failed to fetch`, though that message names a failed connection. |
| Store.FetchServersIntended | src/renderer/src/contexts/MarketplaceContext.tsx:73-117 | Corrected: a failed response whose error names a failed connection, or has no message, is explained as the API server being off; otherwise it is the same as written. |
| Store.NetworkMessageIsConnectionError | src/renderer/src/contexts/MarketplaceContext.tsx:105-107 | The client's own network fallback message counts as a connection error. |
| Store.ConnectionRefusedExplainedWhenIntended | src/renderer/src/contexts/MarketplaceContext.tsx:102-116 | As intended, a refused connection tells the user to enable the API server. |
| Store.CreateServer | src/renderer/src/contexts/MarketplaceContext.tsx:163-178 | Returns the response and always clears `creating`. A failure changes nothing else; a success refreshes both lists. |
| Store.UpdateServer | src/renderer/src/contexts/MarketplaceContext.tsx:181-196 | The same with the `updating` flag. |
| Store.Without | src/renderer/src/contexts/MarketplaceContext.tsx:209-210 | Exactly the listed servers whose id differs from the deleted one, with their multiplicity. They are the elements at the increasing positions whose id differs, so the order is kept. |
| Store.RemoveListed | src/renderer/src/contexts/MarketplaceContext.tsx:207-211 | The server leaves both lists, and no other entry or field changes. |
| Store.DeleteServer | src/renderer/src/contexts/MarketplaceContext.tsx:199-220 | Returns the response and always clears `deleting`. A failure changes nothing else; a success removes the server from both lists, then refreshes them. |
| Store.DeletedStaysGone | src/renderer/src/contexts/MarketplaceContext.tsx:205-214 | A deleted server stays out of any list whose refetch failed. |
| Store.OperationsSettle | src/renderer/src/contexts/MarketplaceContext.tsx:163-220 | Every operation and refresh leaves an idle store idle. |
| Store.FailedOperationChangesNothing | src/renderer/src/contexts/MarketplaceContext.tsx:163-220 | A failed create, update or delete leaves an idle store exactly as it was. |
| Store.IsOwner | src/renderer/src/contexts/MarketplaceContext.tsx:223-230 | False for a falsy server. A boolean `isOwner` flag decides when present. Otherwise it is true exactly for a user with a non-empty id equal to `ownerId`. |
| Store.CanEdit | src/renderer/src/contexts/MarketplaceContext.tsx:233-241 | Requires being signed in and a truthy server; the flag decides when present. |
| Store.CanEditIsOwnerOrOwnerless | src/renderer/src/contexts/MarketplaceContext.tsx:233-241 | When signed in, editing means owning, or (without a flag) the server being ownerless. |
| Store.CanEditAgreesWithSession | src/renderer/src/contexts/MarketplaceContext.tsx:233-241 | Without a flag, the store decides ownership and editing exactly as the sign-in service does. |
| Store.OwnerFlagWins | src/renderer/src/contexts/MarketplaceContext.tsx:226 | A `false` flag denies even the matching owner. |
| Matcher.ExtractDefinition | src/renderer/src/components/marketplace/utils.ts:7-19 | Always truthy. It is `{}` for a falsy or non-object config. An object with an object `mcpServers` gives its first value (`{}` when that is falsy). A non-empty array gives its first element. Any other object is the definition itself. |
| Matcher.ExtractSignature | src/renderer/src/components/marketplace/utils.ts:5-29 | Empty without a config. The command is taken only when the definition's `command` is a string. The registry URL is the definition's string `registryUrl`, else the entry's string `repository`. |
| Matcher.IsMarketplaceInstalled | src/renderer/src/components/marketplace/utils.ts:31-49 | True exactly for an identity match, or a known command with some heuristic match. An identity match always wins, and with an empty or missing command only an identity match counts. |
| Matcher.FindLegacyIndex | src/renderer/src/components/marketplace/utils.ts:51-62 | The first record without a `marketplaceId` that matches heuristically; none when the command is unknown. |
| Matcher.FindLegacyInstalledCandidate | src/renderer/src/components/marketplace/utils.ts:51-63 | Exactly the record at the first legacy index, present exactly when that index is: it is in the list and has no `marketplaceId`. |
| Matcher.CandidateIsInstalled | src/renderer/src/components/marketplace/utils.ts:40-63 | Whatever the legacy search finds also makes the entry count as installed. |
| MarketplacePage.ReplaceLeadingHome | src/renderer/src/pages/settings/MCPMarketplace/index.tsx:254 | Only a `${HOME}` at the very start, with an optional slash before it, is replaced. |
| MarketplacePage.CollapseLeadingSlashes | src/renderer/src/pages/settings/MCPMarketplace/index.tsx:256 | A leading run of two or more slashes becomes one, and nothing else changes. |
| MarketplacePage.ResolveArg | src/renderer/src/pages/settings/MCPMarketplace/index.tsx:251-258 | Non-strings, and everything when the home directory is unknown, are left alone. A resolved string never starts with `//`. A string with no placeholder and no leading `//` is unchanged. |
| MarketplacePage.HomeRootedArg | src/renderer/src/pages/settings/MCPMarketplace/index.tsx:251-258 | A `${HOME}`-rooted path, with or without a slash in front, resolves to the home directory followed by the rest. |
| MarketplacePage.ResolveEmbeddedHome | src/renderer/src/pages/settings/MCPMarketplace/index.tsx:251-258 | A `${HOME}` in the middle of an argument is replaced by the global replace: with a prefix that does not start with `$` or `/` and holds no placeholder, and a placeholder-free suffix, the result is the prefix, the home directory and the suffix. |
| Text.ReplaceAllStep | src/renderer/src/pages/settings/MCPMarketplace/index.tsx:255 | The global replace replaces the first match and carries on after it: when no match starts before the one that follows `a`, replacing in `a + pat + b` gives `a`, the replacement and the replace of `b`. |
| MarketplacePage.PadTo | src/renderer/src/pages/settings/MCPMarketplace/index.tsx:268 | Keeps the list as a prefix and appends only `''`, until the index is a valid position. |
| MarketplacePage.PadArgs | src/renderer/src/pages/settings/MCPMarketplace/index.tsx:260-269 | Throws exactly when some prompt is nullish; otherwise pads for every prompt in turn. |
| MarketplacePage.PadArgsSpec | src/renderer/src/pages/settings/MCPMarketplace/index.tsx:260-269 | Padding keeps the arguments in place and appends only `''`. Afterwards every numeric `argIndex` is a valid position, and the list grows only as far as some prompt needs. |
| MarketplacePage.InstallMeta | src/renderer/src/pages/settings/MCPMarketplace/index.tsx:283-286 | `marketplaceId` is the entry's id, and `argsPrompts` is present exactly when there are prompts. |
| MarketplacePage.OnInstall | src/renderer/src/pages/settings/MCPMarketplace/index.tsx:222-315 | A non-object definition aborts with `Invalid server config`. Otherwise the record carries: the fresh id, `marketplaceId`, author as provider, command or `''`, registry URL or repository, type defaulting to `stdio`, inactive, and the padded and resolved args. The name is the entry's, else the definition's, else the new-server label. It also carries the entry's description, the definition's `env` or `{}`, and the `meta` built from the prompts and the entry id. Tracking happens exactly when signed in with a truthy entry id. |
| MarketplacePage.InstallMakesInstalled | src/renderer/src/pages/settings/MCPMarketplace/index.tsx:283-286 | Once installed, an entry with a non-empty id counts as installed in any list holding its record. |
| MarketplacePage.LegacyInstallRecognised | src/renderer/src/pages/settings/MCPMarketplace/index.tsx:271-287 | The installed record without its `meta` is recognised by the legacy heuristic when the entry has a name and a string command. |
| MarketplacePage.Rows | src/renderer/src/pages/settings/MCPMarketplace/index.tsx:186 | `values.args || []`: a falsy value gives no rows, an array its elements, and anything else throws. |
| MarketplacePage.SubmittedArg | src/renderer/src/pages/settings/MCPMarketplace/index.tsx:186 | A missing value gives `''` and a string its trimmed text; any other value throws. |
| MarketplacePage.SubmittedArgs | src/renderer/src/pages/settings/MCPMarketplace/index.tsx:186 | One trimmed argument per row, in row order; it fails exactly when some row fails. |
| MarketplacePage.AskingRows | src/renderer/src/pages/settings/MCPMarketplace/index.tsx:187-189 | Exactly the rows marked `askPath`, each once, in increasing row order. |
| MarketplacePage.PathPromptsFrom | src/renderer/src/pages/settings/MCPMarketplace/index.tsx:187-189 | One path prompt per row marked `askPath`, in row order, each carrying its own row's index. |
| MarketplacePage.SubmitConfig | src/renderer/src/pages/settings/MCPMarketplace/index.tsx:196-201 | A flat config with the command, the registry URL, the trimmed args and the path prompts, and no `mcpServers`. |
| MarketplacePage.Payload | src/renderer/src/pages/settings/MCPMarketplace/index.tsx:191-202 | The payload carries the config and the form's descriptive fields. |
| MarketplacePage.SubmitPayload | src/renderer/src/pages/settings/MCPMarketplace/index.tsx:182-202 | An object with a flat config built from the form. It fails exactly when the rows or one of their values cannot be read. |
| MarketplacePage.PathPromptsInRange | src/renderer/src/pages/settings/MCPMarketplace/index.tsx:187-189 | Every path prompt names an existing row. |
| MarketplacePage.SubmitConfigNeedsNoPadding | src/renderer/src/pages/settings/MCPMarketplace/index.tsx:260-269 | Installing a submitted config pads nothing. |
| MarketplacePage.SubmittedArgsSurviveInstall | src/renderer/src/pages/settings/MCPMarketplace/index.tsx:186-202 | An entry saved from the simple editor installs with exactly the typed arguments, after `${HOME}` resolution. |
| MarketplacePage.InstallFlatConfig | src/renderer/src/pages/settings/MCPMarketplace/index.tsx:234-279 | A flat object config whose prompts need no padding installs with its own args, resolved. |
| MarketplacePage.OnEdit | src/renderer/src/pages/settings/MCPMarketplace/index.tsx:125-136 | The editor opens on the entry exactly when the store's `canEdit` allows it; otherwise the permission warning is shown. |
| MarketplacePage.OnDelete | src/renderer/src/pages/settings/MCPMarketplace/index.tsx:138-159 | Refused exactly when the store's `canEdit` denies, and cancelled exactly when the user declines. Once confirmed, the store deletes by the record's id. The toast reports success exactly when the response succeeded, and otherwise a non-empty reason. |
| MarketplacePage.GuardsAgree | src/renderer/src/pages/settings/MCPMarketplace/index.tsx:125-145 | Editing and deleting are refused for the same users, and always when signed out. |
| ServerForm.Entries | src/renderer/src/components/marketplace/EnhancedServerForm.tsx:71 | `Object.entries`: an object's own fields, in order; nothing for values without entries. |
| ServerForm.EnvLines | src/renderer/src/components/marketplace/EnhancedServerForm.tsx:71 | One `key=value` line per entry, in order. |
| ServerForm.PopulateWith | src/renderer/src/components/marketplace/EnhancedServerForm.tsx:55-71 | The name is copied as is, and each of the other 14 text fields is copied, or `''` when falsy. An args array is joined with spaces, and anything else gives `''`. A truthy env becomes its `key=value` lines in entry order, joined by the separator; a falsy one gives `''`. |
| ServerForm.ParseArgs | src/renderer/src/components/marketplace/EnhancedServerForm.tsx:84 | Exactly the non-empty pieces of the line split at spaces, with their multiplicity and in their order: the pieces at the increasing positions of the non-empty ones. |
| ServerForm.ArgsRoundTrip | src/renderer/src/components/marketplace/EnhancedServerForm.tsx:70 | Joining non-empty, space-free arguments with spaces and parsing the line back gives the same arguments. |
| ServerForm.ParseEnvLine | src/renderer/src/components/marketplace/EnhancedServerForm.tsx:89-91 | A line is kept exactly when it has an `=` with text before the first one. The key is the trimmed text before it; the value is the trimmed rest, later `=` included. |
| ServerForm.ApplyLinesLookup | src/renderer/src/components/marketplace/EnhancedServerForm.tsx:88-93 | Each key ends with the value of the last line that sets it; other keys keep their value. |
| ServerForm.ApplyLinesEmpty | src/renderer/src/components/marketplace/EnhancedServerForm.tsx:88-93 | No variable results exactly when no line parses. |
| ServerForm.ApplyLinesDistinct | src/renderer/src/components/marketplace/EnhancedServerForm.tsx:88-93 | The parsed environment never holds a key twice. |
| ServerForm.EnvFromLines | src/renderer/src/components/marketplace/EnhancedServerForm.tsx:85-116 | `undefined` exactly when no line parses. Otherwise each key has the value of its last line, with no duplicate keys. |
| ServerForm.TextOf | src/renderer/src/components/marketplace/EnhancedServerForm.tsx:84 | A falsy value gives no text and a non-empty string its text; any other truthy value throws at `split`. |
| ServerForm.SubmitWith | src/renderer/src/components/marketplace/EnhancedServerForm.tsx:81-124 | The ten descriptive fields (`name`, `description`, `version`, `author`, `category`, `instructions`, `website`, `supportEmail`, `repository`, `videoUrl`) are copied as they are, `developerInfo` always has its four fields, and args and env are parsed as above. It throws exactly when args or env is truthy and not a string. |
| ServerForm.EmptyEnvText | src/renderer/src/components/marketplace/EnhancedServerForm.tsx:87 | An empty textarea yields no variables. |
| ServerForm.EnvLineRoundTrip | src/renderer/src/components/marketplace/EnhancedServerForm.tsx:71 | A line the form can carry parses back to its key and value. |
| ServerForm.EnvRoundTrip | src/renderer/src/components/marketplace/EnhancedServerForm.tsx:71 | Writing entries with trimmed, `=`-free keys and trimmed values as `key=value` lines joined by the separator, then parsing the text back, gives the entries key for key. This holds for any separator that cannot overlap itself and holds no `=`. No entries give `undefined`. |
| ServerForm.PopulateThenSubmit | src/renderer/src/components/marketplace/EnhancedServerForm.tsx:54-120 | Filling the form from an entry and submitting it unchanged succeeds. It gives back the entry's name and command, its arguments (when non-empty and space-free) and its environment key for key (when carriable); an empty environment comes back `undefined`. |
| ServerForm.SeparatorsQualify | src/renderer/src/components/marketplace/EnhancedServerForm.tsx:88 | Both the backslash-`n` separator and a real line break meet the round trip's conditions. |
| ServerForm.TypedLine | src/renderer/src/components/marketplace/EnhancedServerForm.tsx:89-91 | A typed `KEY=value` line parses to that key and value. |
| ServerForm.TwoLineEnv | src/renderer/src/components/marketplace/EnhancedServerForm.tsx:88-93 | Two parsing lines with different keys give both variables, in order. |
| ServerForm.TypedLinesMergeAsWritten | src/renderer/src/components/marketplace/EnhancedServerForm.tsx:88 | As written, two variables typed on two lines come back as one variable whose value swallows the second line. |
| ServerForm.SubmitIntended | src/renderer/src/components/marketplace/EnhancedServerForm.tsx:88 | Corrected submit: environment lines are split on real line breaks. |
| ServerForm.TypedLinesSplitWhenIntended | src/renderer/src/components/marketplace/EnhancedServerForm.tsx:88 | As intended, two typed lines give the two variables the user typed. |
| DetailsPage.IsOwner | src/renderer/src/components/marketplace/ServerDetailsPage.tsx:69-70 | True exactly when signed in with a user whose non-empty id equals `ownerId`. |
| DetailsPage.CanEdit | src/renderer/src/components/marketplace/ServerDetailsPage.tsx:71 | Editing is allowed exactly when the user is signed in with a truthy id that equals the entry's `ownerId`. So it needs a truthy `ownerId`: there is no ownerless bypass here. |
| DetailsPage.PageStricterThanStore | src/renderer/src/components/marketplace/ServerDetailsPage.tsx:69-71 | The page and the store agree except on ownerless entries (which only the store lets any signed-in user edit) and on entries with a backend flag (which only the store reads). |
| DetailsPage.PageEditImpliesEverywhere | src/renderer/src/components/marketplace/ServerDetailsPage.tsx:69-71 | Without a flag, whatever the page lets a user edit, the store and the sign-in service allow too. |
| DetailsPage.ReviewEligibility | src/renderer/src/components/marketplace/ServerDetailsPage.tsx:387 | An owner never sees the review form, nor does anyone for an entry that is not installed. From the form, a chosen rating is submitted whenever there is a user, and a zero rating never is (the guard at line 108). |
| DetailsPage.ShownReviews | src/renderer/src/components/marketplace/ServerDetailsPage.tsx:451 | At most three reviews, being the first ones; all of them when there are three or fewer. |
| DetailsPage.NoteIffTruncated | src/renderer/src/components/marketplace/ServerDetailsPage.tsx:481-485 | The "Showing 3 of N" note appears exactly when some review is left out. |
| DetailsPage.StarCount | src/renderer/src/components/marketplace/ServerDetailsPage.tsx:153 | A star's count, or `0` when missing or falsy. |
| DetailsPage.RatingDistribution | src/renderer/src/components/marketplace/ServerDetailsPage.tsx:147-156 | No rows without a truthy distribution; otherwise one row per star from 5 down to 1, with its count. |
| DetailsPage.RowForStar | src/renderer/src/components/marketplace/ServerDetailsPage.tsx:147-156 | With a truthy distribution, each star from 1 to 5 has exactly one row, at position `5 - star`. That row shows the distribution's entry for the star when truthy, else `0`. |
| DetailsPage.StampMeta | src/renderer/src/components/marketplace/ServerDetailsPage.tsx:85 | `marketplaceId` is the entry's id, and every other key of an object `meta` is kept. |
| DetailsPage.Stamped | src/renderer/src/components/marketplace/ServerDetailsPage.tsx:85 | Only `meta` changes, and the record then carries the entry's id. |
| DetailsPage.Backfill | src/renderer/src/components/marketplace/ServerDetailsPage.tsx:79-87 | Nothing without an entry id, or when some record already carries it. Otherwise the first legacy candidate, stamped, exactly when one exists. |
| DetailsPage.AfterBackfill | src/renderer/src/components/marketplace/ServerDetailsPage.tsx:85 | Only the named record is replaced. |
| DetailsPage.BackfillIdempotent | src/renderer/src/components/marketplace/ServerDetailsPage.tsx:80-86 | After the update, the effect asks for nothing more, and the entry counts as installed. |
| DetailsPage.BackfillSparesStamped | src/renderer/src/components/marketplace/ServerDetailsPage.tsx:83-86 | A record that already has a `marketplaceId` is never touched. |
| EndToEnd.ReachCollection | src/renderer/src/services/AuthenticatedApiClient.ts:161-178 | `getServers` and `createServer` reach the list and create routes. |
| EndToEnd.ReachServer | src/renderer/src/services/AuthenticatedApiClient.ts:165-191 | Reading, updating and deleting by a safe id reach that server's routes; reading the id `my` reaches the own list. |
| EndToEnd.ReachInstall | src/renderer/src/services/AuthenticatedApiClient.ts:193-197 | `trackInstall` reaches the install route for that id. |
| EndToEnd.ReachUninstall | src/renderer/src/services/AuthenticatedApiClient.ts:199-203 | `trackUninstall` reaches the uninstall route for that id. |
| EndToEnd.CallsReachTheirRoutes | src/renderer/src/services/AuthenticatedApiClient.ts:160-203 | Every client call with a safe id reaches exactly the server route it is meant for. |
| EndToEnd.ServerNamedMyIsShadowed | src/renderer/src/services/AuthenticatedApiClient.ts:165-171 | Reading a server whose id is `my` lists the caller's own servers instead. |
| EndToEnd.CanonicalIdsAreSafe | src/main/services/MarketplaceService.ts:105 | Every id the repository hands out is a safe path segment and is not `my`. |
| EndToEnd.IdentityReachesServer | src/main/apiServer/routes/marketplace.ts:12-26 | The server sees the client's user exactly when the user's id is non-empty. It sees that id, the email, and no name. |
| EndToEnd.ClientCreatedOwner | src/main/apiServer/routes/marketplace.ts:185-190 | A server created through the client records the user's id and email as owner, and `null` as the owner's name. |
| EndToEnd.NamelessUserSignedOut | src/renderer/src/services/AuthenticatedApiClient.ts:58-65 | A signed-in user without an id is refused with 401 on every write and on the own list, and the client signs them out. |
| EndToEnd.SuccessEnvelope | src/main/apiServer/routes/marketplace.ts:55-58 | The success envelope holds `success: true` and the data, and no `error`. |
| EndToEnd.FailureEnvelope | src/main/apiServer/routes/marketplace.ts:61-64 | The failure envelope holds `success: false` and an `error`, and no `message`. |
| EndToEnd.SuccessUnwrapped | src/renderer/src/services/AuthenticatedApiClient.ts:139-145 | The server's success envelope reaches the caller as its data; a bare acknowledgement as success without data. |
| EndToEnd.ServerErrorLost | src/renderer/src/services/AuthenticatedApiClient.ts:107-113 | As written, every 404 and 500 reaches the screens as the bare status message, whatever the server said. |
| EndToEnd.ServerErrorShownWhenIntended | src/renderer/src/services/AuthenticatedApiClient.ts:107-113 | Reading `error` as intended, the server's message reaches the screens. |
| EndToEnd.RefusalsRephrased | src/renderer/src/services/AuthenticatedApiClient.ts:58-72 | A 403 shows the client's own message instead of the server's, and a 401 signs the user out. |
| EndToEnd.ListReachesStore | src/renderer/src/contexts/MarketplaceContext.tsx:86-100 | With the database reachable the store lists exactly the public servers, newest first; otherwise it keeps its list and shows the 500 status message. |
| EndToEnd.NotModifiedEmptiesList | src/renderer/src/services/AuthenticatedApiClient.ts:100-104 | As written, a 304 with a successful retry empties the store's list and shows no error. |
| EndToEnd.NotModifiedListedWhenIntended | src/renderer/src/services/AuthenticatedApiClient.ts:100-104 | As intended, the store lists the public servers after a 304 too. |
| EndToEnd.IntendedRetryUnwraps | src/renderer/src/services/AuthenticatedApiClient.ts:100-104 | The corrected retry unwraps the server's success envelope to its data. |

## Left out

- The MongoDB driver and network: the collection is a sequence of documents. The driver's connect result and the BSON library's message for a malformed id are parameters. Only 24-digit hexadecimal ids are accepted (the other forms `new ObjectId` takes are not modelled).
- Repository.CreateServer: does not model the "Failed to retrieve created server" branch, because the document it has just inserted is always found again in this model.
- Repository.Update: does not model the "Failed to retrieve updated server" branch, for the same reason.
- Repository.Find: ids are compared by their lower-cased hex text; no other `ObjectId` form or `_id` type is modelled.
- Repository.UpdatedDoc: `$set` keys containing dots or `$`, and an `_id` inside the request body (which MongoDB rejects), are not modelled.
- Repository.SortNewest: documents with equal `createdAt` keep their collection order, which is one of the orders MongoDB may return.
- Repository.KeyOf: object and array `createdAt` values are not ordered by content. Every object ties with every other object, and every array with every other array. MongoDB compares objects field by field and, in a descending sort, an array by its largest element. Such values reach `createdAt` only through an update request that sets it.
- Concurrency: the `Promise.all` refetches and races between screens are taken in sequence; `Store.RefreshOrderIrrelevant` shows the order does not matter.
- Numbers are integers. `expires_at`, `installCount` and `argIndex` are compared as integers. A string compared with a number is converted only when it is all digits. Floating point is out, and so are the rating percentages and `toFixed` display formatting.
- DetailsPage.RatingDistribution: states the star and count of each row, not its percentage (floating point).
- The logger, `console` output, the modals and toasts' presentation, and the loading spinners.
- `fetch`, `localStorage` and the clock are parameters (`Fetched`, `Storage`, `now`). The OAuth popup, `signInWithGoogle`, `initializeGoogleAuth` and the token exchange are outside the marketplace core.
- Auth.TransformGoogleUser: the `createdAt`/`updatedAt` dates of the user are not modelled.
- Connection.Connect: a throw from the `new MongoClient` constructor itself (a malformed connection string) is treated like a failed `connect`, so `hasClient` is set even though the source assigns no client in that case.
- ApiClient.RequestHeaders: the spread of a caller's own `options.headers` is not modelled, because no marketplace call passes headers.
- ApiClient.Request: header names are modelled lower-cased, as they reach the server; `JSON.stringify` of a payload is the payload value itself.
- Routes.Serve: Express's case-insensitive and trailing-slash matching, URL decoding of the id and query strings are not modelled. Paths are matched segment by segment.
- Routes.HandleList: `JSON.stringify` drops undefined fields of a server at the top level only. Nested undefined values inside `config` or `developerInfo` are kept.
- The reviews endpoints (`getServerReviews`, `createReview`) and `loadReviews`: the client calls them, but no route for them is part of this model. Only the review list's slice, its note and the submit guard are modelled.
- `onSubmitEnhanced` in the marketplace page only chooses between the store's create and update; those are modelled, and its toasts are not.
- `updateMCPServer` in the backfill is modelled as replacing the record at the candidate's position (`DetailsPage.AfterBackfill`). The application store's own reducer is not part of this model.
- DetailsPage.StampMeta: a `meta` that is truthy but not an object is treated as `{}`, whereas spreading a string or an array copies its characters or elements under their indices.
- Matcher.ExtractDefinition: objects keep insertion order, but `Object.keys`, `Object.values` and `Object.entries` list integer-like keys first, in ascending numeric order. So for an `mcpServers` object with such keys, the first value taken may differ from JavaScript's.
- ServerForm.Entries: the same key order applies, so `ServerForm.EnvLines` lists an `env` object with integer-like keys in insertion order rather than JavaScript's order.
- Json.Prop: reading a property of an array or a string gives `undefined`, whereas JavaScript reads its indices and `length`. For example, `DetailsPage.StarCount` on an array `distribution` gives `0` where JavaScript reads the element.
- MarketplacePage.ResolveArg: the home directory is inserted literally. `String.replace` would expand `$&`, `` $` ``, `$'` and `$$` in a home directory that contains them (`Text.ReplaceAll` has no such patterns).
- Repository.OwnedBy and Repository.IsListed: whole values are compared. MongoDB's equality and `$ne` also match a document whose `ownerId` or `isPublic` is an array holding the value.
- Routes.HandleCreate and Routes.HandleUpdate: the request body is an object. A JSON array or primitive body, which the service would spread or read differently, is not modelled.
- Structural equality stands for `===`. It matters only for ids, which are strings in practice.
- `__proto__` and other special property names are ordinary keys here.
- The type comments in the shared types (rating 0–5, review rating 1–5) are not enforced anywhere and are not invariants of the model.

## Findings

| source | as written | input that shows it | evidently intended | confidence | as-written member | corrected member |
|---|---|---|---|---|---|---|
| src/renderer/src/components/marketplace/EnhancedServerForm.tsx:88 | The environment textarea is split (and populated, line 71) on the two characters backslash and `n`. | `PORT=3000` and `DEBUG=true` typed on two lines, as the placeholder at line 328 shows, give one variable `PORT` whose value is `3000`, a line break and `DEBUG=true`. | Split on real line breaks: two variables. | high (not executed) | ServerForm.TypedLinesMergeAsWritten | ServerForm.SubmitIntended, ServerForm.TypedLinesSplitWhenIntended |
| src/renderer/src/contexts/MarketplaceContext.tsx:102-116 | The connection-error branch sits in a `catch` that the client never reaches, because `request` catches every `fetch` rejection itself (AuthenticatedApiClient.ts:151-157). | With the API server off, `fetch` rejects with `Failed to fetch`, and the store shows `Failed to fetch` instead of the explanation. | A failed response naming a failed connection shows "API server is not running…". | medium (not executed) | Store.ConnectionRefusedShownRaw | Store.FetchServersIntended, Store.ConnectionRefusedExplainedWhenIntended |
| src/renderer/src/services/AuthenticatedApiClient.ts:107-113 | A failed status reads `errorData.message`, but every route sends its text in `error`, as the client's own comment at line 137 says. | `PUT /servers/:id` of another owner's server answers 403 (rephrased), but a missing server answers 404 with `error: "Failed to update server: Server not found"`, which the screens show as `Request failed with status 404`. | Read `error` first, then `message`, then the status message. | high (not executed) | EndToEnd.ServerErrorLost | ApiClient.ErrorResponseIntended, EndToEnd.ServerErrorShownWhenIntended |
| src/renderer/src/services/AuthenticatedApiClient.ts:100-104 | A successful retry after a 304 returns the whole envelope as `data`, without unwrapping it. | `GET /servers` answered with 304, then a retry answers 200 with `{ success: true, data: [...] }`. The store sees a non-array `data` and empties the list, with no error shown. | Unwrap the retry's envelope like any other success. | low, since the cache-busting parameter makes a 304 unlikely (not executed) | EndToEnd.NotModifiedEmptiesList | ApiClient.RetryResponseIntended, EndToEnd.NotModifiedListedWhenIntended |

The rest of the model follows the code as written, since that is the behaviour it describes. Each corrected member stands alongside the as-written one, with its intended property proved.

=== FILE: api_client.dfy ===
/**
 * The renderer's authenticated API client
 * (`src/renderer/src/services/AuthenticatedApiClient.ts`): the URL and headers
 * every request carries, and how one HTTP exchange becomes the
 * `{ success, data, error }` record the screens read.
 *
 * `fetch` itself, the clock and the build-time environment are parameters: an
 * exchange is given as what the first `fetch` produced and, for the one retry
 * after a `304`, what the second produced.
 */
module ApiClient {
  import opened Basics
  import opened Text
  import opened Json
  import opened Auth

  // ---------------------------------------------------------------------------
  // Where a request goes
  // ---------------------------------------------------------------------------

  /** The local API server the client talks to unless the build overrides it. */
  const DefaultBaseUrl: string := "http://localhost:23333/api/marketplace"

  /** `API_BASE_URL`: a non-empty `VITE_MARKETPLACE_API_URL`, else the local API server. */
  function BaseUrl(override: Option<string>): (r: string)
    ensures r != ""
    ensures r == DefaultBaseUrl <==> override.None? || override.value in {"", DefaultBaseUrl}
  {
    match override
    case Some(u) => if u != "" then u else DefaultBaseUrl
    case None => DefaultBaseUrl
  }

  /** `&` when the endpoint already has a query string, `?` otherwise. */
  function Separator(endpoint: string): string {
    if Contains(endpoint, "?") then "&" else "?"
  }

  /** The cache-busting parameter's name, with its `=`. */
  const StampKey: string := "_t="

  /** The request URL: base, endpoint, then `_t=` and the clock reading in milliseconds. */
  function Url(base: string, endpoint: string, now: nat): (r: string)
    ensures |base| + |endpoint| < |r|
    ensures r[..|base| + |endpoint|] == base + endpoint
    ensures r[|base| + |endpoint|..|base| + |endpoint| + 1] == Separator(endpoint)
  {
    base + endpoint + Separator(endpoint) + StampKey + NatToString(now)
  }

  /** Where the clock reading starts in a URL. */
  function StampStart(base: string, endpoint: string): nat {
    |base| + |endpoint| + 1 + |StampKey|
  }

  /** Every URL has a query string, whether or not the endpoint brought one. */
  lemma UrlHasQuery(base: string, endpoint: string, now: nat)
    ensures Contains(Url(base, endpoint, now), "?")
  {
    var r := Url(base, endpoint, now);
    var tail := Separator(endpoint) + StampKey + NatToString(now);
    assert r == base + (endpoint + tail);
    if Contains(endpoint, "?") {
      var i: nat :| i <= |endpoint| && OccursAt(endpoint, "?", i);
      assert (endpoint + tail)[i..i + 1] == endpoint[i..i + 1];
      OccursAfter(base, endpoint + tail, "?", i);
    } else {
      var w: nat := |base| + |endpoint|;
      assert r[w..w + 1] == "?";
      assert OccursAt(r, "?", w);
    }
  }

  /** The clock reading can be read back from the end of the URL. */
  lemma UrlStamp(base: string, endpoint: string, now: nat)
    ensures StampStart(base, endpoint) <= |Url(base, endpoint, now)|
    ensures Url(base, endpoint, now)[StampStart(base, endpoint) - |StampKey|..StampStart(base, endpoint)] == StampKey
    ensures ParseDecimal(Url(base, endpoint, now)[StampStart(base, endpoint)..]) == now
  {
    var r := Url(base, endpoint, now);
    var k := StampStart(base, endpoint);
    assert r == (base + endpoint + Separator(endpoint) + StampKey) + NatToString(now);
    assert r[k..] == NatToString(now);
  }

  /** Requests made at different milliseconds never share a URL, so no cache can answer the second. */
  lemma UrlsDiffer(base: string, endpoint: string, now: nat, later: nat)
    requires now != later
    ensures Url(base, endpoint, now) != Url(base, endpoint, later)
  {
    UrlStamp(base, endpoint, now);
    UrlStamp(base, endpoint, later);
  }

  // ---------------------------------------------------------------------------
  // Headers
  // ---------------------------------------------------------------------------

  /** The header names every request carries whoever is signed in (lower-cased, as they reach the server). */
  const FixedHeaderNames: set<string> := {"content-type", "cache-control", "pragma", "expires"}

  /** The header names a request may carry. */
  const HeaderNames: set<string> := FixedHeaderNames + {"authorization", "x-user-id", "x-user-email"}

  /**
   * The request headers: JSON and no caching always; `Authorization` with a
   * bearer token when the stored token is truthy; the signed-in user's id and
   * email when there is a user. No display name is ever sent.
   */
  function RequestHeaders(token: Json, user: Option<AuthUser>): (r: map<string, string>)
    ensures forall k :: k in r ==> k in HeaderNames
    ensures forall k :: k in FixedHeaderNames ==> k in r
    ensures r["content-type"] == "application/json" && r["cache-control"] == "no-cache, no-store, must-revalidate"
    ensures r["pragma"] == "no-cache" && r["expires"] == "0"
    ensures "authorization" in r <==> Truthy(token)
    ensures Truthy(token) ==> r["authorization"] == "Bearer " + ToJsString(token)
    ensures "x-user-id" in r <==> user.Some?
    ensures "x-user-email" in r <==> user.Some?
    ensures user.Some? ==> r["x-user-id"] == ToJsString(user.value.id) && r["x-user-email"] == ToJsString(user.value.email)
    ensures "x-user-name" !in r
  {
    var fixed := map["content-type" := "application/json",
                     "cache-control" := "no-cache, no-store, must-revalidate",
                     "pragma" := "no-cache",
                     "expires" := "0"];
    var authorized := if Truthy(token) then fixed["authorization" := "Bearer " + ToJsString(token)] else fixed;
    match user
    case Some(u) => authorized["x-user-id" := ToJsString(u.id)]["x-user-email" := ToJsString(u.email)]
    case None => authorized
  }

  /** The headers the client sends for the session it holds: its stored token and its current user. */
  function SessionHeaders(svc: AuthService): map<string, string> {
    RequestHeaders(GetAccessToken(svc.storage), svc.state.user)
  }

  // ---------------------------------------------------------------------------
  // One exchange
  // ---------------------------------------------------------------------------

  /** A response body: empty, not JSON, or the JSON value it parses to. */
  datatype Body = NoBody | Malformed | Parsed(value: Json)

  datatype Answer = Answer(status: int, body: Body)

  /** What a `fetch` produced: an answer, or the message of the error it rejected with. */
  datatype Fetched = Answered(answer: Answer) | Threw(message: string)

  /** `ApiResponse`: `Undefined` stands for a property the record does not have. */
  datatype ApiResponse = ApiResponse(success: Json, data: Json, error: Json)

  /** What `request` resolves to, and whether it signed the user out on the way. */
  datatype Outcome = Outcome(response: ApiResponse, signsOut: bool)

  /** `response.ok` */
  predicate IsOk(status: int) {
    200 <= status <= 299
  }

  const SignInAgainMessage: string := "Please sign in again"
  const ForbiddenMessage: string := "You do not have permission to perform this action"
  const RateLimitedMessage: string := "Too many requests, please try again later"
  const NetworkErrorMessage: string := "Network error occurred"

  /** The message of the `TypeError` JavaScript throws when `errorData` is `null` and `.message` is read. */
  const NullReadMessage: string := "Cannot read properties of null (reading 'message')"

  /** The client's own message for a status it has nothing better for. */
  function StatusMessage(status: int): string {
    "Request failed with status " + IntToString(status)
  }

  /** `{ success: false, error }` */
  function Refused(error: Json): ApiResponse {
    ApiResponse(Bool(false), Undefined, error)
  }

  /** The outer `catch`: the error's message, or a generic one when it has none. */
  function Caught(message: string): (r: ApiResponse)
    ensures r.success == Bool(false) && r.data == Undefined && Truthy(r.error)
    ensures message != "" ==> r.error == Str(message)
  {
    Refused(Str(if message != "" then message else NetworkErrorMessage))
  }

  /** `response.json()`, where a failure to parse is caught and replaced by `fallback`. */
  function JsonOr(body: Body, fallback: Json): (r: Json)
    ensures body.Parsed? ==> r == body.value
    ensures !body.Parsed? ==> r == fallback
  {
    match body
    case Parsed(v) => v
    case _ => fallback
  }

  /**
   * A failed status other than those handled first: the body's `message`, or
   * the status message when it has none. A `null` body makes reading
   * `message` throw, and the outer `catch` reports that instead.
   */
  function ErrorResponse(a: Answer): (r: ApiResponse)
    ensures r.success == Bool(false) && r.data == Undefined && Truthy(r.error)
    ensures IsNullish(JsonOr(a.body, Obj([]))) ==> r.error == Str(NullReadMessage)
    ensures !IsNullish(JsonOr(a.body, Obj([]))) && Truthy(Prop(JsonOr(a.body, Obj([])), "message")) ==>
              r.error == Prop(JsonOr(a.body, Obj([])), "message")
    ensures !IsNullish(JsonOr(a.body, Obj([]))) && !Truthy(Prop(JsonOr(a.body, Obj([])), "message")) ==>
              r.error == Str(StatusMessage(a.status))
  {
    var errorData := JsonOr(a.body, Obj([]));
    match ReadProp(errorData, "message")
    case None => Caught(NullReadMessage)
    case Some(m) => Refused(Or(m, Str(StatusMessage(a.status))))
  }

  /** The retry after a `304`: any failed status gives the status message; a success is returned without unwrapping. */
  function RetryResponse(again: Fetched): (r: ApiResponse)
    ensures again.Threw? ==> r == Caught(again.message)
    ensures again.Answered? && !IsOk(again.answer.status) ==> r == Refused(Str(StatusMessage(again.answer.status)))
    ensures again.Answered? && IsOk(again.answer.status) ==>
              r == ApiResponse(Bool(true), JsonOr(again.answer.body, Null), Undefined)
  {
    match again
    case Threw(m) => Caught(m)
    case Answered(a) =>
      if !IsOk(a.status) then Refused(Str(StatusMessage(a.status)))
      else ApiResponse(Bool(true), JsonOr(a.body, Null), Undefined)
  }

  /**
   * A successful status: an object body is taken as the server's envelope and
   * its `success`, `data` and `error` are lifted out (`success` defaulting to
   * `true`); any other body, or none, is the data itself.
   */
  function Unwrap(body: Body): (r: ApiResponse)
    ensures var v := JsonOr(body, Null);
            Truthy(v) && IsObjectType(v) ==>
              r == ApiResponse(Nullish(Prop(v, "success"), Bool(true)), Prop(v, "data"), Prop(v, "error"))
    ensures var v := JsonOr(body, Null);
            !(Truthy(v) && IsObjectType(v)) ==> r == ApiResponse(Bool(true), v, Undefined)
  {
    var v := JsonOr(body, Null);
    if Truthy(v) && IsObjectType(v) then
      ApiResponse(Nullish(Prop(v, "success"), Bool(true)), Prop(v, "data"), Prop(v, "error"))
    else
      ApiResponse(Bool(true), v, Undefined)
  }

  /**
   * `request`: a rejected `fetch` is caught; then `401` (which signs the user
   * out), `403` and `429` get fixed messages, a `304` is retried once, any
   * other failed status goes through `ErrorResponse`, and a success is
   * unwrapped.
   */
  function Request(first: Fetched, retry: Fetched): (r: Outcome)
    ensures r.signsOut <==> first.Answered? && first.answer.status == 401
    ensures first.Threw? ==> r.response == Caught(first.message)
    ensures first.Answered? && first.answer.status == 401 ==> r.response == Refused(Str(SignInAgainMessage))
    ensures first.Answered? && first.answer.status == 403 ==> r.response == Refused(Str(ForbiddenMessage))
    ensures first.Answered? && first.answer.status == 429 ==> r.response == Refused(Str(RateLimitedMessage))
    ensures first.Answered? && first.answer.status == 304 ==> r.response == RetryResponse(retry)
    ensures first.Answered? && first.answer.status !in {401, 403, 429, 304} && !IsOk(first.answer.status) ==>
              r.response == ErrorResponse(first.answer)
    ensures first.Answered? && IsOk(first.answer.status) ==> r.response == Unwrap(first.answer.body)
  {
    match first
    case Threw(m) => Outcome(Caught(m), false)
    case Answered(a) =>
      if a.status == 401 then Outcome(Refused(Str(SignInAgainMessage)), true)
      else if a.status == 403 then Outcome(Refused(Str(ForbiddenMessage)), false)
      else if a.status == 429 then Outcome(Refused(Str(RateLimitedMessage)), false)
      else if a.status == 304 then Outcome(RetryResponse(retry), false)
      else if !IsOk(a.status) then Outcome(ErrorResponse(a), false)
      else Outcome(Unwrap(a.body), false)
  }

  /** The second `fetch` is consulted only after a `304`. */
  lemma RetryOnlyAfterNotModified(first: Fetched, retry: Fetched, retry': Fetched)
    requires !(first.Answered? && first.answer.status == 304)
    ensures Request(first, retry) == Request(first, retry')
  {
  }

  /**
   * Every failure the client detects itself, whether a rejected `fetch` or
   * a failed status other than `304`, resolves to `success: false` with a
   * non-empty message and no data.
   */
  lemma {:induction false} FailuresExplained(first: Fetched, retry: Fetched)
    requires first.Threw? || (!IsOk(first.answer.status) && first.answer.status != 304)
    ensures Request(first, retry).response.success == Bool(false)
    ensures Request(first, retry).response.data == Undefined
    ensures Truthy(Request(first, retry).response.error)
  {
    if first.Answered? {
      var s := first.answer.status;
      if s !in {401, 403, 429} {
        assert Request(first, retry).response == ErrorResponse(first.answer);
      }
    }
  }

  /** A `304` followed by a successful retry hands the caller the retry's whole body as `data`. */
  lemma NotModifiedKeepsEnvelope(first: Fetched, retry: Fetched)
    requires first.Answered? && first.answer.status == 304
    requires retry.Answered? && IsOk(retry.answer.status) && retry.answer.body.Parsed?
    ensures Request(first, retry).response == ApiResponse(Bool(true), retry.answer.body.value, Undefined)
  {
  }

  /**
   * The failed-status branch as evidently intended: the server's own `error`
   * (the field its envelope carries), then a `message`, then the status
   * message; a `null` body falls back to the status message.
   */
  function ErrorResponseIntended(a: Answer): (r: ApiResponse)
    ensures r.success == Bool(false) && r.data == Undefined && Truthy(r.error)
    ensures Truthy(Prop(JsonOr(a.body, Obj([])), "error")) ==> r.error == Prop(JsonOr(a.body, Obj([])), "error")
    ensures !Truthy(Prop(JsonOr(a.body, Obj([])), "error")) && !Truthy(Prop(JsonOr(a.body, Obj([])), "message")) ==>
              r.error == Str(StatusMessage(a.status))
  {
    var errorData := JsonOr(a.body, Obj([]));
    Refused(Or(Or(Prop(errorData, "error"), Prop(errorData, "message")), Str(StatusMessage(a.status))))
  }

  /** The retry after a `304` as evidently intended: a successful body is unwrapped like any other. */
  function RetryResponseIntended(again: Fetched): (r: ApiResponse)
    ensures again.Answered? && IsOk(again.answer.status) ==> r == Unwrap(again.answer.body)
    ensures !(again.Answered? && IsOk(again.answer.status)) ==> r == RetryResponse(again)
  {
    match again
    case Answered(a) => if IsOk(a.status) then Unwrap(a.body) else RetryResponse(again)
    case Threw(_) => RetryResponse(again)
  }

  // ---------------------------------------------------------------------------
  // Endpoints
  // ---------------------------------------------------------------------------

  /** The marketplace calls the screens make. */
  datatype Call =
    | GetServers
    | GetServer(serverId: string)
    | GetMyServers
    | CreateServer(payload: Json)
    | UpdateServer(serverId: string, payload: Json)
    | DeleteServer(serverId: string)
    | TrackInstall(serverId: string)
    | TrackUninstall(serverId: string)

  datatype Verb = Get | Post | Put | Delete

  /** The request method: `fetch`'s `GET` unless the call names another. */
  function VerbOf(c: Call): Verb {
    match c
    case CreateServer(_) => Post
    case UpdateServer(_, _) => Put
    case DeleteServer(_) => Delete
    case TrackInstall(_) => Post
    case TrackUninstall(_) => Post
    case _ => Get
  }

  /** The endpoint below the base URL; the server id is interpolated as it is. */
  function EndpointOf(c: Call): string {
    match c
    case GetServers => "/servers"
    case GetServer(id) => "/servers/" + id
    case GetMyServers => "/servers/my"
    case CreateServer(_) => "/servers"
    case UpdateServer(id, _) => "/servers/" + id
    case DeleteServer(id) => "/servers/" + id
    case TrackInstall(id) => "/servers/" + id + "/install"
    case TrackUninstall(id) => "/servers/" + id + "/uninstall"
  }

  /** The JSON payload a call sends as its body, if any. */
  function PayloadOf(c: Call): Option<Json> {
    match c
    case CreateServer(p) => Some(p)
    case UpdateServer(_, p) => Some(p)
    case _ => None
  }
}

=== FILE: auth.dfy ===
/**
 * The renderer's `AuthService`: the signed-in user restored from
 * `localStorage`, the listeners told about every state change, and the
 * ownership rules the marketplace screens ask it about.
 *
 * `localStorage` is a value of the model (what `getItem` returns for the two
 * keys and whether `JSON.parse` accepts it); the clock is a parameter. The
 * Google sign-in popup and token exchange are not part of this model.
 */
module Auth {
  import opened Basics
  import opened Json

  const UserKey: string := "consomnius-google-user"
  const TokensKey: string := "consomnius-google-tokens"

  /**
   * A `localStorage` entry: missing, the empty string, text `JSON.parse`
   * rejects, or text it reads as `value`.
   */
  datatype Slot = Absent | Blank | Unparsable | Holds(value: Json)

  /** `localStorage.getItem(key)` is truthy. */
  predicate Present(s: Slot) {
    s.Unparsable? || s.Holds?
  }

  /** The two entries the service keeps under `UserKey` and `TokensKey`. */
  datatype Storage = Storage(user: Slot, tokens: Slot)

  /** `clearStorage`: both entries removed. */
  const Cleared: Storage := Storage(Absent, Absent)

  /** An `AuthUser`; its `createdAt` and `updatedAt` dates are left out. */
  datatype AuthUser = AuthUser(id: Json, email: Json, name: Json, picture: Json, isVerified: Json)

  datatype AuthState = AuthState(user: Option<AuthUser>, isAuthenticated: bool, isLoading: bool, error: Option<string>)

  /** The state a service starts in, and the state `signOut` returns to. */
  const SignedOut: AuthState := AuthState(None, false, false, None)

  /** A subscribed callback, by identity. */
  type Listener = nat

  /** One call of a listener with the state it was given. */
  datatype Notice = Notice(listener: Listener, state: AuthState)

  /**
   * The service: its state, its listeners in subscription order (a `Set`
   * iterates in insertion order), the storage it reads, and every
   * notification made so far.
   */
  datatype AuthService = AuthService(state: AuthState, listeners: seq<Listener>, storage: Storage, notices: seq<Notice>)

  // ---------------------------------------------------------------------------
  // Notifications and state updates
  // ---------------------------------------------------------------------------

  /** `notifyListeners`: every listener, in order, receives the current state. */
  function Notify(svc: AuthService): (r: AuthService)
    ensures r.state == svc.state && r.listeners == svc.listeners && r.storage == svc.storage
    ensures |r.notices| == |svc.notices| + |svc.listeners|
    ensures r.notices[..|svc.notices|] == svc.notices
    ensures forall i :: 0 <= i < |svc.listeners| ==> r.notices[|svc.notices| + i] == Notice(svc.listeners[i], svc.state)
  {
    svc.(notices := svc.notices + seq(|svc.listeners|, i requires 0 <= i < |svc.listeners| => Notice(svc.listeners[i], svc.state)))
  }

  /** A `Partial<AuthState>`: `None` is a field the update does not mention. */
  datatype Update = Update(
    user: Option<Option<AuthUser>>, isAuthenticated: Option<bool>, isLoading: Option<bool>, error: Option<Option<string>>)

  /** `{ ...state, ...updates }` */
  function Apply(s: AuthState, u: Update): (r: AuthState)
    ensures u.user.None? ==> r.user == s.user
    ensures u.user.Some? ==> r.user == u.user.value
    ensures u.isAuthenticated.None? ==> r.isAuthenticated == s.isAuthenticated
    ensures u.isAuthenticated.Some? ==> r.isAuthenticated == u.isAuthenticated.value
    ensures u.isLoading.None? ==> r.isLoading == s.isLoading
    ensures u.isLoading.Some? ==> r.isLoading == u.isLoading.value
    ensures u.error.None? ==> r.error == s.error
    ensures u.error.Some? ==> r.error == u.error.value
  {
    AuthState(
      u.user.GetOr(s.user), u.isAuthenticated.GetOr(s.isAuthenticated),
      u.isLoading.GetOr(s.isLoading), u.error.GetOr(s.error))
  }

  /** The update that does what `a` and then `b` do: `b` wins where both speak. */
  function Then(a: Update, b: Update): Update {
    Update(
      if b.user.Some? then b.user else a.user,
      if b.isAuthenticated.Some? then b.isAuthenticated else a.isAuthenticated,
      if b.isLoading.Some? then b.isLoading else a.isLoading,
      if b.error.Some? then b.error else a.error)
  }

  /** Two spreads in a row are one spread of the combined update. */
  lemma ApplyThen(s: AuthState, a: Update, b: Update)
    ensures Apply(Apply(s, a), b) == Apply(s, Then(a, b))
  {
  }

  /** An update that mentions nothing changes nothing. */
  lemma ApplyNothing(s: AuthState)
    ensures Apply(s, Update(None, None, None, None)) == s
  {
  }

  /** `setState`: merges the update into the state, then notifies every listener. */
  function SetState(svc: AuthService, u: Update): (r: AuthService)
    ensures r.state == Apply(svc.state, u)
    ensures r.listeners == svc.listeners && r.storage == svc.storage
    ensures r.notices == svc.notices + seq(|svc.listeners|, i requires 0 <= i < |svc.listeners| => Notice(svc.listeners[i], r.state))
  {
    Notify(svc.(state := Apply(svc.state, u)))
  }

  // ---------------------------------------------------------------------------
  // Listeners
  // ---------------------------------------------------------------------------

  /** `listeners.add(l)`: a listener already present keeps its place. */
  function Subscribe(svc: AuthService, l: Listener): (r: AuthService)
    ensures l in r.listeners
    ensures l in svc.listeners ==> r == svc
    ensures l !in svc.listeners ==> r == svc.(listeners := svc.listeners + [l])
  {
    if l in svc.listeners then svc else svc.(listeners := svc.listeners + [l])
  }

  /** `ls` without `l`, the others in their order. */
  function Without(ls: seq<Listener>, l: Listener): (r: seq<Listener>)
    ensures l !in r
    ensures forall x :: x != l ==> (x in r <==> x in ls)
    ensures l !in ls ==> r == ls
    ensures |r| <= |ls|
  {
    if |ls| == 0 then []
    else if ls[0] == l then Without(ls[1..], l)
    else
      assert ls == [ls[0]] + ls[1..];
      [ls[0]] + Without(ls[1..], l)
  }

  lemma {:induction false} WithoutAppend(ls: seq<Listener>, extra: seq<Listener>, l: Listener)
    ensures Without(ls + extra, l) == Without(ls, l) + Without(extra, l)
    decreases |ls|
  {
    if |ls| == 0 {
      assert ls + extra == extra;
    } else {
      assert (ls + extra)[0] == ls[0];
      assert (ls + extra)[1..] == ls[1..] + extra;
      WithoutAppend(ls[1..], extra, l);
    }
  }

  /** The function `subscribe` returns: `listeners.delete(l)`. */
  function Unsubscribe(svc: AuthService, l: Listener): (r: AuthService)
    ensures l !in r.listeners
    ensures forall x :: x != l ==> (x in r.listeners <==> x in svc.listeners)
    ensures r.state == svc.state && r.storage == svc.storage && r.notices == svc.notices
  {
    svc.(listeners := Without(svc.listeners, l))
  }

  /** Unsubscribing a new listener restores the listeners exactly. */
  lemma SubscribeThenUnsubscribe(svc: AuthService, l: Listener)
    requires l !in svc.listeners
    ensures Unsubscribe(Subscribe(svc, l), l) == svc
  {
    WithoutAppend(svc.listeners, [l], l);
    assert Without([l], l) == [];
  }

  // ---------------------------------------------------------------------------
  // The stored session
  // ---------------------------------------------------------------------------

  /**
   * `transformGoogleUser`: `None` is the `TypeError` a `null` profile throws.
   * The id is `sub`, else `id`, else empty; the name is `name`, else the
   * email, else empty; `isVerified` is `email_verified` or `false`.
   */
  function TransformGoogleUser(g: Json): (r: Option<AuthUser>)
    ensures r.None? <==> IsNullish(g)
    ensures r.Some? ==> (Truthy(r.value.id) <==> Truthy(Prop(g, "sub")) || Truthy(Prop(g, "id")))
    ensures r.Some? && Truthy(Prop(g, "sub")) ==> r.value.id == Prop(g, "sub")
    ensures r.Some? && !Truthy(Prop(g, "sub")) && Truthy(Prop(g, "id")) ==> r.value.id == Prop(g, "id")
    ensures r.Some? && !Truthy(r.value.id) ==> r.value.id == Str("")
    ensures r.Some? ==> (Truthy(r.value.name) <==> Truthy(Prop(g, "name")) || Truthy(Prop(g, "email")))
    ensures r.Some? && Truthy(Prop(g, "name")) ==> r.value.name == Prop(g, "name")
    ensures r.Some? && !Truthy(Prop(g, "name")) && Truthy(Prop(g, "email")) ==> r.value.name == Prop(g, "email")
    ensures r.Some? && !Truthy(r.value.name) ==> r.value.name == Str("")
    ensures r.Some? && Truthy(Prop(g, "email")) ==> r.value.email == Prop(g, "email")
    ensures r.Some? && !Truthy(r.value.email) ==> r.value.email == Str("")
    ensures r.Some? && Truthy(Prop(g, "email_verified")) ==> r.value.isVerified == Prop(g, "email_verified")
    ensures r.Some? && !Truthy(r.value.isVerified) ==> r.value.isVerified == Bool(false)
    ensures r.Some? ==> r.value.picture == Prop(g, "picture")
  {
    if IsNullish(g) then None
    else
      Some(AuthUser(
        Or(Or(Prop(g, "sub"), Prop(g, "id")), Str("")),
        Or(Prop(g, "email"), Str("")),
        Or(Or(Prop(g, "name"), Prop(g, "email")), Str("")),
        Prop(g, "picture"),
        Or(Prop(g, "email_verified"), Bool(false))))
  }

  /** `tokens.expires_at && tokens.expires_at > Date.now()` */
  predicate Unexpired(expiresAt: Json, now: int) {
    Truthy(expiresAt) && match RelationalNumber(expiresAt) { case Some(n) => n > now case None => false }
  }

  /** A stored session `loadUserFromStorage` accepts at time `now`. */
  predicate ValidSession(st: Storage, now: int) {
    && st.user.Holds? && !IsNullish(st.user.value)
    && st.tokens.Holds? && !IsNullish(st.tokens.value)
    && Unexpired(Prop(st.tokens.value, "expires_at"), now)
  }

  /**
   * `loadUserFromStorage`: when both entries are present it signs the user in
   * if the session is valid, and otherwise (expired, unreadable, or a
   * `null` entry) clears both entries and leaves the state alone.
   */
  function LoadUserFromStorage(svc: AuthService, now: int): (r: AuthService)
    ensures !(Present(svc.storage.user) && Present(svc.storage.tokens)) ==> r == svc
    ensures ValidSession(svc.storage, now) ==>
              && r.state == AuthState(TransformGoogleUser(svc.storage.user.value), true, false, None)
              && r == Notify(svc.(state := r.state))
    ensures Present(svc.storage.user) && Present(svc.storage.tokens) && !ValidSession(svc.storage, now) ==>
              r == svc.(storage := Cleared)
    ensures r.state.isAuthenticated && !svc.state.isAuthenticated ==> ValidSession(svc.storage, now)
  {
    if !(Present(svc.storage.user) && Present(svc.storage.tokens)) then svc
    else
      match (svc.storage.user, svc.storage.tokens)
      case (Holds(u), Holds(t)) =>
        (match ReadProp(t, "expires_at")
         case None => svc.(storage := Cleared)
         case Some(expiresAt) =>
           if !Unexpired(expiresAt, now) then svc.(storage := Cleared)
           else
             match TransformGoogleUser(u)
             case None => svc.(storage := Cleared)
             case Some(user) => Notify(svc.(state := AuthState(Some(user), true, false, None))))
      case _ => svc.(storage := Cleared)
  }

  /** A session that is valid now was valid at every earlier time. */
  lemma ValidEarlier(st: Storage, now: int, earlier: int)
    requires ValidSession(st, now) && earlier <= now
    ensures ValidSession(st, earlier)
  {
  }

  /** Once the expiry time has passed, loading clears the session. */
  lemma ExpiredSessionCleared(svc: AuthService, now: int, n: int)
    requires svc.storage.user.Holds? && !IsNullish(svc.storage.user.value)
    requires svc.storage.tokens.Holds? && !IsNullish(svc.storage.tokens.value)
    requires RelationalNumber(Prop(svc.storage.tokens.value, "expires_at")) == Some(n) && n <= now
    ensures LoadUserFromStorage(svc, now) == svc.(storage := Cleared)
  {
  }

  /** After a load, loading again at the same time changes nothing but the notifications. */
  lemma LoadAgain(svc: AuthService, now: int)
    ensures var once := LoadUserFromStorage(svc, now);
            var twice := LoadUserFromStorage(once, now);
            twice.state == once.state && twice.storage == once.storage && twice.listeners == once.listeners
  {
  }

  /**
   * `getAccessToken`: the stored `access_token` when it is truthy, else
   * `null`, including when the entry is missing or unreadable.
   */
  function GetAccessToken(st: Storage): (r: Json)
    ensures r == Null || Truthy(r)
    ensures Truthy(r) <==> st.tokens.Holds? && !IsNullish(st.tokens.value) && Truthy(Prop(st.tokens.value, "access_token"))
    ensures Truthy(r) ==> r == Prop(st.tokens.value, "access_token")
  {
    match st.tokens
    case Holds(t) =>
      (match ReadProp(t, "access_token")
       case Some(token) => Or(token, Null)
       case None => Null)
    case _ => Null
  }

  /** `signOut`: clears both entries and returns to the signed-out state, notifying every listener. */
  function SignOut(svc: AuthService): (r: AuthService)
    ensures r.state == SignedOut && r.storage == Cleared && r.listeners == svc.listeners
    ensures r.notices == svc.notices + seq(|svc.listeners|, i requires 0 <= i < |svc.listeners| => Notice(svc.listeners[i], SignedOut))
  {
    SetState(svc.(storage := Cleared), Update(Some(None), Some(false), Some(false), Some(None)))
  }

  /** After signing out there is no session to restore. */
  lemma SignOutThenLoad(svc: AuthService, now: int)
    ensures LoadUserFromStorage(SignOut(svc), now) == SignOut(svc)
    ensures GetAccessToken(SignOut(svc).storage) == Null
  {
  }

  // ---------------------------------------------------------------------------
  // Ownership
  // ---------------------------------------------------------------------------

  /** `isServerOwner`: a signed-in user with a non-empty id equal to the server's `ownerId`. */
  function IsServerOwner(s: AuthState, server: Json): (r: bool)
    ensures r <==> s.user.Some? && Truthy(server) && Truthy(s.user.value.id) && Prop(server, "ownerId") == s.user.value.id
  {
    match s.user
    case None => false
    case Some(user) => Truthy(server) && Truthy(user.id) && Prop(server, "ownerId") == user.id
  }

  /** `canEditServer`: signed in, and the server is ownerless or the user's own. */
  function CanEditServer(s: AuthState, server: Json): (r: bool)
    ensures r <==> s.isAuthenticated && Truthy(server) && (!Truthy(Prop(server, "ownerId")) || IsServerOwner(s, server))
  {
    if !s.isAuthenticated || !Truthy(server) then false
    else if !Truthy(Prop(server, "ownerId")) then true
    else IsServerOwner(s, server)
  }

  /** A profile with neither `sub` nor `id` yields a user who owns nothing, though ownerless servers stay editable. */
  lemma NamelessUserOwnsNothing(s: AuthState, g: Json, server: Json)
    requires TransformGoogleUser(g).Some? && !Truthy(Prop(g, "sub")) && !Truthy(Prop(g, "id"))
    requires s.user == TransformGoogleUser(g)
    ensures !IsServerOwner(s, server)
    ensures CanEditServer(s, server) <==> s.isAuthenticated && Truthy(server) && !Truthy(Prop(server, "ownerId"))
  {
  }

  /**
   * A profile with a `sub` or an `id` yields a user who owns exactly the
   * servers whose `ownerId` is that identifier (`sub` first), and may edit
   * those and the ownerless ones once signed in.
   */
  lemma ProfileOwnsItsServers(s: AuthState, g: Json, server: Json)
    requires TransformGoogleUser(g).Some? && s.user == TransformGoogleUser(g)
    requires Truthy(Prop(g, "sub")) || Truthy(Prop(g, "id"))
    ensures IsServerOwner(s, server) <==> Truthy(server) && Prop(server, "ownerId") == Or(Prop(g, "sub"), Prop(g, "id"))
    ensures CanEditServer(s, server) <==>
              s.isAuthenticated && Truthy(server)
              && (!Truthy(Prop(server, "ownerId")) || Prop(server, "ownerId") == Or(Prop(g, "sub"), Prop(g, "id")))
  {
  }
}

=== FILE: basics.dfy ===
/**
 * Failure-carrying datatypes shared by every module of the marketplace model.
 * Errors carry the human-readable message the source throws, because the HTTP
 * layer classifies failures by searching that message.
 */
module Basics {

  datatype Option<+T> = None | Some(value: T) {
    function GetOr(default: T): T {
      match this
      case Some(v) => v
      case None => default
    }
  }

  /** A computation that either yields a value or throws an `Error` with a message. */
  datatype Result<+T> = Ok(value: T) | Err(message: string) {
    predicate IsFailure() {
      Err?
    }

    function PropagateFailure<U>(): Result<U>
      requires Err?
    {
      Err(message)
    }

    function Extract(): T
      requires Ok?
    {
      value
    }
  }

  /** JavaScript `xs.some(p)`. */
  function Any<T>(xs: seq<T>, p: T -> bool): (r: bool)
    ensures r <==> exists i :: 0 <= i < |xs| && p(xs[i])
  {
    if |xs| == 0 then false
    else if p(xs[0]) then true
    else
      var r := Any(xs[1..], p);
      assert forall i :: 1 <= i < |xs| ==> xs[i] == xs[1..][i - 1];
      r
  }

  /** JavaScript `xs.findIndex(p)`, with "no element" as `None`: the first index satisfying `p`. */
  function FindIndex<T>(xs: seq<T>, p: T -> bool): (r: Option<nat>)
    ensures r.Some? ==> r.value < |xs| && p(xs[r.value])
    ensures r.Some? ==> forall j :: 0 <= j < r.value ==> !p(xs[j])
    ensures r.None? <==> forall i :: 0 <= i < |xs| ==> !p(xs[i])
  {
    if |xs| == 0 then None
    else if p(xs[0]) then Some(0)
    else
      match FindIndex(xs[1..], p)
      case None =>
        assert forall i :: 1 <= i < |xs| ==> xs[i] == xs[1..][i - 1];
        None
      case Some(k) =>
        assert forall i :: 1 <= i <= k + 1 ==> xs[i] == xs[1..][i - 1];
        Some(k + 1)
  }

  /** `r` is `xs.filter(p)`: the elements satisfying `p`, in their original order and multiplicity. */
  function Filter<T(!new)>(xs: seq<T>, p: T -> bool): (r: seq<T>)
    ensures |r| <= |xs|
    ensures forall i :: 0 <= i < |r| ==> p(r[i])
    ensures forall x :: x in r <==> x in xs && p(x)
    ensures forall x :: multiset(r)[x] == if p(x) then multiset(xs)[x] else 0
    ensures (forall i :: 0 <= i < |xs| ==> p(xs[i])) ==> r == xs
  {
    if |xs| == 0 then []
    else
      var rest := Filter(xs[1..], p);
      FilterStep(xs, p, rest);
      if p(xs[0]) then [xs[0]] + rest else rest
  }

  /** Filtering `xs` is keeping or dropping its head in front of the filtered tail. */
  lemma FilterStep<T(!new)>(xs: seq<T>, p: T -> bool, rest: seq<T>)
    requires |xs| > 0
    requires |rest| <= |xs| - 1
    requires forall i :: 0 <= i < |rest| ==> p(rest[i])
    requires forall x :: multiset(rest)[x] == if p(x) then multiset(xs[1..])[x] else 0
    requires (forall i :: 0 <= i < |xs| - 1 ==> p(xs[1..][i])) ==> rest == xs[1..]
    ensures var r := if p(xs[0]) then [xs[0]] + rest else rest;
            && |r| <= |xs|
            && (forall i :: 0 <= i < |r| ==> p(r[i]))
            && (forall x :: x in r <==> x in xs && p(x))
            && (forall x :: multiset(r)[x] == if p(x) then multiset(xs)[x] else 0)
            && ((forall i :: 0 <= i < |xs| ==> p(xs[i])) ==> r == xs)
  {
    var r := if p(xs[0]) then [xs[0]] + rest else rest;
    assert xs == [xs[0]] + xs[1..];
    assert multiset(xs) == multiset{xs[0]} + multiset(xs[1..]);
    if p(xs[0]) {
      assert multiset(r) == multiset{xs[0]} + multiset(rest);
      forall i | 0 <= i < |r| ensures p(r[i]) {
        if i > 0 { assert r[i] == rest[i - 1]; }
      }
    }
    forall x ensures x in r <==> x in xs && p(x) {
      assert x in r <==> multiset(r)[x] > 0;
      assert x in xs <==> multiset(xs)[x] > 0;
    }
    if forall i :: 0 <= i < |xs| ==> p(xs[i]) {
      assert forall i :: 0 <= i < |xs| - 1 ==> p(xs[1..][i]) by {
        forall i | 0 <= i < |xs| - 1 ensures p(xs[1..][i]) {
          assert xs[1..][i] == xs[i + 1];
        }
      }
    }
  }

  /** The positions from `from` on whose elements satisfy `p`: every such position, once each, increasing. */
  function Kept<T>(xs: seq<T>, p: T -> bool, from: nat): (ix: seq<nat>)
    requires from <= |xs|
    ensures forall k :: 0 <= k < |ix| ==> from <= ix[k] < |xs| && p(xs[ix[k]])
    ensures forall i :: from <= i < |xs| && p(xs[i]) ==> i in ix
    ensures forall k, l :: 0 <= k < l < |ix| ==> ix[k] < ix[l]
    decreases |xs| - from
  {
    if from == |xs| then []
    else
      var rest := Kept(xs, p, from + 1);
      if p(xs[from]) then [from] + rest else rest
  }

  /** `Filter` keeps exactly the elements at the `Kept` positions, in that order. */
  lemma {:induction false} FilterKept<T(!new)>(xs: seq<T>, p: T -> bool, from: nat)
    requires from <= |xs|
    ensures var ix := Kept(xs, p, from);
            var r := Filter(xs[from..], p);
            |r| == |ix| && forall k :: 0 <= k < |r| ==> r[k] == xs[ix[k]]
    decreases |xs| - from
  {
    if from < |xs| {
      FilterKept(xs, p, from + 1);
      var tail := xs[from..];
      assert tail[0] == xs[from] && tail[1..] == xs[from + 1..];
      KeptStep(xs, p, from, Filter(xs[from + 1..], p));
    }
  }

  /** Keeping or dropping the element at `from` in front of the rest's kept elements matches `Kept`. */
  lemma KeptStep<T>(xs: seq<T>, p: T -> bool, from: nat, rest: seq<T>)
    requires from < |xs|
    requires var restIx := Kept(xs, p, from + 1);
             |rest| == |restIx| && forall k :: 0 <= k < |rest| ==> rest[k] == xs[restIx[k]]
    ensures var ix := Kept(xs, p, from);
            var r := if p(xs[from]) then [xs[from]] + rest else rest;
            |r| == |ix| && forall k :: 0 <= k < |r| ==> r[k] == xs[ix[k]]
  {
    var ix := Kept(xs, p, from);
    var restIx := Kept(xs, p, from + 1);
    if p(xs[from]) {
      var r := [xs[from]] + rest;
      assert ix == [from] + restIx;
      forall k | 0 <= k < |r| ensures r[k] == xs[ix[k]] {
        if k > 0 {
          assert r[k] == rest[k - 1] && ix[k] == restIx[k - 1];
        }
      }
    }
  }

  /** `Filter` keeps the elements at the positions `p` accepts, in increasing order. */
  lemma FilterInOrder<T(!new)>(xs: seq<T>, p: T -> bool)
    ensures var ix := Kept(xs, p, 0);
            var r := Filter(xs, p);
            |r| == |ix| && forall k :: 0 <= k < |r| ==> r[k] == xs[ix[k]]
  {
    FilterKept(xs, p, 0);
    assert xs[0..] == xs;
  }

  /** JavaScript `xs.map(f)`. */
  function Map<T, U>(xs: seq<T>, f: T -> U): (r: seq<U>)
    ensures |r| == |xs|
    ensures forall i :: 0 <= i < |xs| ==> r[i] == f(xs[i])
  {
    seq(|xs|, i requires 0 <= i < |xs| => f(xs[i]))
  }
}

=== FILE: connection.dfy ===
/**
 * The database connection of the main-process marketplace service
 * (`src/main/services/MarketplaceService.ts`), reduced to the three facts the
 * service keeps about it: whether a client object exists, whether it counts
 * itself connected, and whether the `servers` collection handle is set.
 *
 * The environment (`process.env`) and the outcome of the driver's own
 * `connect` are parameters; the network is not modelled.
 */
module Connection {
  import opened Basics

  /** `process.env`: the variables that are set, by name. */
  type Environment = map<string, string>

  /** The variables consulted for the connection string, in the order they are tried. */
  const ConnectionVariables: seq<string> :=
    ["MARKETPLACE_MONGODB_URI", "MONGODB_URI", "MONGODB_URL", "MONGODB_CONNECTION_STRING", "DATABASE_URL"]

  const NotConfiguredMessage: string :=
    "MongoDB connection string not configured. Please set MARKETPLACE_MONGODB_URI or MONGODB_URI in your .env file."

  const ConnectFailedPrefix: string := "MongoDB connection failed: "

  const NotInitializedMessage: string := "Database not initialized"

  /** `process.env[name]` is truthy: set and not empty. */
  predicate IsSet(env: Environment, name: string) {
    name in env && env[name] != ""
  }

  /** The `||` chain over the variables `names`: the value of the first one that is set. */
  function FirstSet(env: Environment, names: seq<string>): (r: Option<string>)
    ensures r.None? <==> forall i :: 0 <= i < |names| ==> !IsSet(env, names[i])
    ensures r.Some? ==>
              exists i :: 0 <= i < |names| && IsSet(env, names[i]) && env[names[i]] == r.value
                          && forall j :: 0 <= j < i ==> !IsSet(env, names[j])
  {
    if |names| == 0 then None
    else if IsSet(env, names[0]) then Some(env[names[0]])
    else
      var r := FirstSet(env, names[1..]);
      assert forall i :: 1 <= i < |names| ==> names[i] == names[1..][i - 1];
      r
  }

  /** `getConnectionString`: `None` is the `null` it returns when no variable is set. */
  function ConnectionString(env: Environment): (r: Option<string>)
    ensures r.Some? ==> r.value != ""
    ensures r.None? <==> forall i :: 0 <= i < |ConnectionVariables| ==> !IsSet(env, ConnectionVariables[i])
  {
    FirstSet(env, ConnectionVariables)
  }

  /** A set `MARKETPLACE_MONGODB_URI` wins over every other variable. */
  lemma MarketplaceUriFirst(env: Environment)
    requires IsSet(env, "MARKETPLACE_MONGODB_URI")
    ensures ConnectionString(env) == Some(env["MARKETPLACE_MONGODB_URI"])
  {
  }

  /** An empty `MARKETPLACE_MONGODB_URI` counts as unset, so the next variable is used. */
  lemma EmptyVariableSkipped(env: Environment)
    requires !IsSet(env, "MARKETPLACE_MONGODB_URI") && IsSet(env, "MONGODB_URI")
    ensures ConnectionString(env) == Some(env["MONGODB_URI"])
  {
    assert ConnectionVariables[1..][0] == "MONGODB_URI";
  }

  /** The service's connection flags: `client`, `isConnected` and `serversCollection` being set. */
  datatype Conn = Conn(hasClient: bool, connected: bool, hasCollection: bool)

  /** The state of a freshly constructed service. */
  const Initial: Conn := Conn(false, false, false)

  /**
   * What the service cannot see: its environment, how the driver's `connect`
   * ends (`Some` carries the rejection message), and the message the BSON
   * library's `new ObjectId(s)` throws for a malformed id.
   */
  datatype Driver = Driver(env: Environment, connectError: Option<string>, idError: string)

  /** A state the service's own transitions keep: connected implies a client and a collection. */
  predicate Coherent(c: Conn) {
    c.connected ==> c.hasClient && c.hasCollection
  }

  /**
   * `connect`: a no-op when already connected with a client; an error without
   * touching the flags when no connection string is configured; otherwise the
   * client is created, and the flags are all set when the driver connects or
   * `isConnected` is cleared when it fails.
   */
  function Connect(c: Conn, drv: Driver): (r: (Conn, Result<()>))
    ensures c.connected && c.hasClient ==> r == (c, Ok(()))
    ensures !(c.connected && c.hasClient) && ConnectionString(drv.env).None? ==> r == (c, Err(NotConfiguredMessage))
    ensures r.1.Ok? <==> (c.connected && c.hasClient) || (ConnectionString(drv.env).Some? && drv.connectError.None?)
    ensures r.1.Ok? && !(c.connected && c.hasClient) ==> r.0 == Conn(true, true, true)
    ensures drv.connectError.Some? && !(c.connected && c.hasClient) && ConnectionString(drv.env).Some? ==>
              r.1 == Err(ConnectFailedPrefix + drv.connectError.value) && r.0 == Conn(true, false, c.hasCollection)
  {
    if c.connected && c.hasClient then
      (c, Ok(()))
    else if ConnectionString(drv.env).None? then
      (c, Err(NotConfiguredMessage))
    else
      match drv.connectError
      case Some(m) => (Conn(true, false, c.hasCollection), Err(ConnectFailedPrefix + m))
      case None => (Conn(true, true, true), Ok(()))
  }

  /** `disconnect`: clears every flag when there is a client, else does nothing. */
  function Disconnect(c: Conn): (r: Conn)
    ensures c.hasClient ==> r == Initial
    ensures !c.hasClient ==> r == c
    ensures !r.hasClient
  {
    if c.hasClient then Initial else c
  }

  /** `ensureConnection`: connects unless connected with a collection. */
  function EnsureConnection(c: Conn, drv: Driver): (r: (Conn, Result<()>))
    ensures c.connected && c.hasCollection ==> r == (c, Ok(()))
    ensures !(c.connected && c.hasCollection) ==> r == Connect(c, drv)
  {
    if !c.connected || !c.hasCollection then Connect(c, drv) else (c, Ok(()))
  }

  /**
   * The prologue of every repository operation: `ensureConnection`, then the
   * `Database not initialized` check on the collection handle.
   */
  function Ready(c: Conn, drv: Driver): (r: (Conn, Result<()>))
    ensures r.0 == EnsureConnection(c, drv).0
    ensures r.1.Ok? <==> EnsureConnection(c, drv).1.Ok? && r.0.hasCollection
    ensures EnsureConnection(c, drv).1.Err? ==> r.1 == EnsureConnection(c, drv).1
    ensures EnsureConnection(c, drv).1.Ok? && !r.0.hasCollection ==> r.1 == Err(NotInitializedMessage)
    ensures r.1.Err? ==> r.1.message != ""
  {
    var (c', e) := EnsureConnection(c, drv);
    if e.Err? then (c', e)
    else if !c'.hasCollection then (c', Err(NotInitializedMessage))
    else (c', Ok(()))
  }

  /** The service's transitions keep its flags coherent. */
  lemma CoherentPreserved(c: Conn, drv: Driver)
    requires Coherent(c)
    ensures Coherent(Connect(c, drv).0) && Coherent(Disconnect(c)) && Coherent(Ready(c, drv).0)
  {
  }

  /**
   * From a coherent state the prologue succeeds exactly when the service is
   * already connected, or a connection string is configured and the driver
   * connects; then it is connected with a collection. It fails only with the
   * not-configured message or a wrapped driver message: `Database not
   * initialized` is unreachable.
   */
  lemma ReadyOutcome(c: Conn, drv: Driver)
    requires Coherent(c)
    ensures Ready(c, drv).1.Ok? <==> c.connected || (ConnectionString(drv.env).Some? && drv.connectError.None?)
    ensures Ready(c, drv).1.Ok? ==> Ready(c, drv).0.connected && Ready(c, drv).0.hasCollection
    ensures Ready(c, drv).1.Err? ==>
              Ready(c, drv).1.message == NotConfiguredMessage
              || (drv.connectError.Some? && Ready(c, drv).1.message == ConnectFailedPrefix + drv.connectError.value)
  {
  }

  /** Once the prologue has succeeded, it succeeds again without any change, whatever the environment. */
  lemma ReadyIdempotent(c: Conn, drv: Driver, drv': Driver)
    requires Ready(c, drv).1.Ok?
    ensures Ready(Ready(c, drv).0, drv') == (Ready(c, drv).0, Ok(()))
  {
  }

  /**
   * Only a state the service never reaches on its own (connected, with a
   * client, but no collection) makes the prologue report `Database not initialized`.
   */
  lemma NotInitializedOnlyWhenIncoherent(drv: Driver)
    ensures Ready(Conn(true, true, false), drv) == (Conn(true, true, false), Err(NotInitializedMessage))
    ensures !Coherent(Conn(true, true, false))
  {
  }
}

=== FILE: details_page.dfy ===
/**
 * The decisions on the marketplace entry's details page
 * (`components/marketplace/ServerDetailsPage.tsx`): who may edit, who sees
 * the review form and may submit it, which reviews and rating rows are
 * shown, and the effect that stamps `meta.marketplaceId` onto a matching
 * legacy install.
 */
module DetailsPage {
  import opened Basics
  import opened Text
  import opened Json
  import opened Matcher
  import Auth
  import Store

  // ---------------------------------------------------------------------------
  // Ownership
  // ---------------------------------------------------------------------------

  /** `currentUserId`: `sub || googleId || id` on the user; the stored user has only an `id`. */
  function CurrentUserId(user: Option<Auth.AuthUser>): Json {
    match user
    case Some(u) => u.id
    case None => Undefined
  }

  /** `isOwner` on this page: signed in, a non-empty user id, and that id is the entry's `ownerId`. */
  function IsOwner(isAuthenticated: bool, user: Option<Auth.AuthUser>, server: Json): (r: bool)
    ensures r <==> isAuthenticated && user.Some? && Truthy(user.value.id) && Prop(server, "ownerId") == user.value.id
  {
    isAuthenticated && Truthy(CurrentUserId(user)) && Prop(server, "ownerId") == CurrentUserId(user)
  }

  /** `canEdit` on this page is `isOwner`: an ownerless entry is not editable here. */
  function CanEdit(isAuthenticated: bool, user: Option<Auth.AuthUser>, server: Json): (r: bool)
    ensures r ==> isAuthenticated && user.Some? && Truthy(Prop(server, "ownerId"))
    ensures r <==> isAuthenticated && user.Some? && Truthy(user.value.id) && Prop(server, "ownerId") == user.value.id
  {
    IsOwner(isAuthenticated, user, server)
  }

  /**
   * The page and the store disagree on exactly two kinds of entry: an
   * ownerless one, which the store lets any signed-in user edit, and one
   * carrying the backend's `isOwner` flag, which only the store reads.
   */
  lemma PageStricterThanStore(isAuthenticated: bool, user: Option<Auth.AuthUser>, server: Json)
    requires Truthy(server)
    ensures !Store.HasOwnerFlag(server) && Truthy(Prop(server, "ownerId")) ==>
              CanEdit(isAuthenticated, user, server) == Store.CanEdit(isAuthenticated, server, user)
    ensures isAuthenticated && !Store.HasOwnerFlag(server) && !Truthy(Prop(server, "ownerId")) ==>
              !CanEdit(isAuthenticated, user, server) && Store.CanEdit(isAuthenticated, server, user)
    ensures Store.HasOwnerFlag(server) && isAuthenticated ==>
              Store.CanEdit(isAuthenticated, server, user) == Prop(server, "isOwner").b
  {
  }

  /** Without a backend flag, whatever the page lets a user edit, the store and the sign-in service do too. */
  lemma PageEditImpliesEverywhere(s: Auth.AuthState, server: Json)
    requires Truthy(server) && !Store.HasOwnerFlag(server)
    requires CanEdit(s.isAuthenticated, s.user, server)
    ensures Store.CanEdit(s.isAuthenticated, server, s.user) && Auth.CanEditServer(s, server)
  {
    Store.CanEditAgreesWithSession(s, server);
  }

  // ---------------------------------------------------------------------------
  // Reviews
  // ---------------------------------------------------------------------------

  /** The review form shows for a signed-in user who has the entry installed and does not own it. */
  predicate ReviewFormShown(isAuthenticated: bool, user: Option<Auth.AuthUser>, server: Json, installed: seq<McpServer>) {
    isAuthenticated && IsMarketplaceInstalled(server, installed) && !IsOwner(isAuthenticated, user, server)
  }

  /** `submitReview` goes ahead only for a signed-in user object and a chosen (non-zero) rating. */
  predicate SubmitProceeds(isAuthenticated: bool, user: Option<Auth.AuthUser>, rating: int) {
    isAuthenticated && user.Some? && rating != 0
  }

  /**
   * An owner never sees the review form, and nobody sees it for an entry
   * not installed; from the form, a chosen rating can be submitted whenever
   * there is a user object.
   */
  lemma ReviewEligibility(isAuthenticated: bool, user: Option<Auth.AuthUser>, server: Json, installed: seq<McpServer>, rating: int)
    ensures IsOwner(isAuthenticated, user, server) ==> !ReviewFormShown(isAuthenticated, user, server, installed)
    ensures !IsMarketplaceInstalled(server, installed) ==> !ReviewFormShown(isAuthenticated, user, server, installed)
    ensures ReviewFormShown(isAuthenticated, user, server, installed) && user.Some? && rating != 0 ==>
              SubmitProceeds(isAuthenticated, user, rating)
    ensures rating == 0 ==> !SubmitProceeds(isAuthenticated, user, rating)
  {
  }

  /** How many reviews the page lists. */
  const ShownReviewLimit: nat := 3

  /** `reviews.slice(0, 3)` */
  function ShownReviews<T>(reviews: seq<T>): (r: seq<T>)
    ensures |r| <= ShownReviewLimit && |r| <= |reviews|
    ensures r == reviews[..|r|]
    ensures |reviews| <= ShownReviewLimit ==> r == reviews
    ensures |reviews| > ShownReviewLimit ==> |r| == ShownReviewLimit
  {
    if |reviews| <= ShownReviewLimit then reviews else reviews[..ShownReviewLimit]
  }

  /** The "Showing 3 of N reviews" note: more reviews than are listed. */
  predicate ShowingNote<T>(reviews: seq<T>) {
    |reviews| > ShownReviewLimit
  }

  /** The note appears exactly when some review is left out of the list. */
  lemma NoteIffTruncated<T>(reviews: seq<T>)
    ensures ShowingNote(reviews) <==> ShownReviews(reviews) != reviews
  {
    if ShowingNote(reviews) {
      assert |ShownReviews(reviews)| < |reviews|;
    }
  }

  // ---------------------------------------------------------------------------
  // Rating distribution
  // ---------------------------------------------------------------------------

  /** The stars in the order the rows list them. */
  const Stars: seq<nat> := [5, 4, 3, 2, 1]

  /** The property of `distribution` holding a star's count. */
  function StarKey(star: nat): string {
    NatToString(star)
  }

  /** `distribution[star] || 0` */
  function StarCount(distribution: Json, star: nat): (r: Json)
    ensures Truthy(r) || r == Num(0)
  {
    Or(Prop(distribution, StarKey(star)), Num(0))
  }

  /**
   * `getRatingDistribution`, without the percentages: no rows when the
   * entry's rating has no truthy `distribution`, else one row per star from
   * 5 down to 1 with its count, `0` when missing or falsy.
   */
  function RatingDistribution(server: Json): (rows: seq<(nat, Json)>)
    ensures !Truthy(Prop(Prop(server, "rating"), "distribution")) ==> rows == []
    ensures Truthy(Prop(Prop(server, "rating"), "distribution")) ==>
              && |rows| == |Stars|
              && forall i :: 0 <= i < |rows| ==>
                   rows[i] == (Stars[i], StarCount(Prop(Prop(server, "rating"), "distribution"), Stars[i]))
    ensures forall i :: 0 <= i < |rows| ==> Truthy(rows[i].1) || rows[i].1 == Num(0)
  {
    var distribution := Prop(Prop(server, "rating"), "distribution");
    if !Truthy(distribution) then []
    else Map(Stars, (star: nat) => (star, StarCount(distribution, star)))
  }

  /**
   * Reading the rows back: with a truthy `distribution`, each star from 1 to
   * 5 has exactly one row, at position `5 - star`, and that row shows the
   * distribution's own entry for the star when it is truthy and `0` otherwise.
   */
  lemma RowForStar(server: Json, star: nat)
    requires Truthy(Prop(Prop(server, "rating"), "distribution")) && 1 <= star <= 5
    ensures var rows := RatingDistribution(server);
            var entry := Prop(Prop(Prop(server, "rating"), "distribution"), StarKey(star));
            && rows[5 - star].0 == star
            && (forall i :: 0 <= i < |rows| && rows[i].0 == star ==> i == 5 - star)
            && (Truthy(entry) ==> rows[5 - star].1 == entry)
            && (!Truthy(entry) ==> rows[5 - star].1 == Num(0))
  {
    var distribution := Prop(Prop(server, "rating"), "distribution");
    var rows := RatingDistribution(server);
    StarsDescend();
    assert rows[5 - star] == (star, StarCount(distribution, star));
  }

  /** Row `i` lists star `5 - i`. */
  lemma StarsDescend()
    ensures |Stars| == 5
    ensures forall i :: 0 <= i < |Stars| ==> Stars[i] == 5 - i
  {
  }

  // ---------------------------------------------------------------------------
  // Backfilling `marketplaceId`
  // ---------------------------------------------------------------------------

  /** Some local record already carries the entry's id as its `marketplaceId`. */
  predicate HasById(server: Json, installed: seq<McpServer>) {
    exists i :: 0 <= i < |installed| && MarketplaceId(installed[i]) == Prop(server, "id")
  }

  /** `{ ...(meta || {}), marketplaceId: id }`, for a `meta` that is an object or falsy. */
  function StampMeta(meta: Json, id: Json): (r: Json)
    ensures r.Obj? && Lookup(r.fields, "marketplaceId") == id
    ensures meta.Obj? ==> forall k :: k != "marketplaceId" ==> Lookup(r.fields, k) == Lookup(meta.fields, k)
  {
    Obj(Assign(if meta.Obj? then meta.fields else [], "marketplaceId", id))
  }

  /** The legacy record with the entry's id stamped on; every other field as it was. */
  function Stamped(s: McpServer, id: Json): (r: McpServer)
    ensures MarketplaceId(r) == id
    ensures r.(meta := s.meta) == s
  {
    s.(meta := StampMeta(s.meta, id))
  }

  /**
   * The backfill effect: the update it asks for. Nothing when the entry has
   * no id or some record already carries it; otherwise the first legacy
   * candidate, stamped with the entry's id.
   */
  function Backfill(server: Json, installed: seq<McpServer>): (r: Option<(nat, McpServer)>)
    ensures !Truthy(Prop(server, "id")) || HasById(server, installed) ==> r.None?
    ensures r.Some? ==> FindLegacyIndex(server, installed) == Some(r.value.0)
                        && r.value.1 == Stamped(installed[r.value.0], Prop(server, "id"))
    ensures Truthy(Prop(server, "id")) && !HasById(server, installed) ==>
              (r.Some? <==> FindLegacyInstalledCandidate(server, installed).Some?)
  {
    if !Truthy(Prop(server, "id")) then None
    else if Any(installed, (s: McpServer) => MarketplaceId(s) == Prop(server, "id")) then None
    else
      match FindLegacyIndex(server, installed)
      case None => None
      case Some(i) => Some((i, Stamped(installed[i], Prop(server, "id"))))
  }

  /** The local list once the backfill's update has been applied to the record it names. */
  function AfterBackfill(server: Json, installed: seq<McpServer>): (r: seq<McpServer>)
    ensures |r| == |installed|
    ensures Backfill(server, installed).None? ==> r == installed
    ensures Backfill(server, installed).Some? ==>
              var (i, s) := Backfill(server, installed).value;
              r[i] == s && forall j :: 0 <= j < |r| && j != i ==> r[j] == installed[j]
  {
    match Backfill(server, installed)
    case None => installed
    case Some((i, s)) => installed[i := s]
  }

  /**
   * Once the update is in, the effect asks for nothing more, and the entry
   * counts as installed by its strong key.
   */
  lemma BackfillIdempotent(server: Json, installed: seq<McpServer>)
    requires Backfill(server, installed).Some?
    ensures Backfill(server, AfterBackfill(server, installed)).None?
    ensures IsMarketplaceInstalled(server, AfterBackfill(server, installed))
  {
    var (i, s) := Backfill(server, installed).value;
    var after := AfterBackfill(server, installed);
    assert MarketplaceId(after[i]) == Prop(server, "id");
    assert HasById(server, after);
    assert IdentityMatch(after[i], server);
  }

  /** The backfill never touches a record that already had a `marketplaceId`. */
  lemma BackfillSparesStamped(server: Json, installed: seq<McpServer>, j: nat)
    requires j < |installed| && Truthy(MarketplaceId(installed[j]))
    ensures AfterBackfill(server, installed)[j] == installed[j]
  {
  }
}

=== FILE: end_to_end.dfy ===
/**
 * The renderer and the API server joined up: the request a client call
 * makes reaches the route it is meant for with the identity the client
 * holds, and the server's response comes back through the client into the
 * store.
 *
 * The network is the identity here: the status and body the server sends
 * are what the client's `fetch` answers with.
 */
module EndToEnd {
  import opened Basics
  import opened Text
  import opened Json
  import opened Connection
  import opened Repository
  import opened Routes
  import Auth
  import ApiClient
  import Store

  /** What the client's `fetch` answers with when the server sends `res`. */
  function Deliver(res: Response): ApiClient.Fetched {
    ApiClient.Answered(ApiClient.Answer(res.status, ApiClient.Parsed(res.body)))
  }

  // ---------------------------------------------------------------------------
  // Routing the client's calls
  // ---------------------------------------------------------------------------

  function MethodOf(v: ApiClient.Verb): Method {
    match v
    case Get => HttpGet
    case Post => HttpPost
    case Put => HttpPut
    case Delete => HttpDelete
  }

  /** The path segments Express sees below `/api/marketplace` for an endpoint. */
  function Segments(endpoint: string): seq<string> {
    Split(if |endpoint| > 0 && endpoint[0] == '/' then endpoint[1..] else endpoint, "/")
  }

  /** A server id that stays one path segment: non-empty, with no `/` and no `?`. */
  predicate SafeId(id: string) {
    id != "" && forall i :: 0 <= i < |id| ==> id[i] != '/' && id[i] != '?'
  }

  /** The route each call is meant for. */
  function RouteOf(c: ApiClient.Call): Route {
    match c
    case GetServers => ListAll
    case GetServer(id) => GetOne(id)
    case GetMyServers => ListMine
    case CreateServer(_) => CreateOne
    case UpdateServer(id, _) => UpdateOne(id)
    case DeleteServer(id) => DeleteOne(id)
    case TrackInstall(id) => InstallOne(id)
    case TrackUninstall(id) => UninstallOne(id)
  }

  /** The calls whose id is safe to interpolate, leaving out reading a server whose id is `my`. */
  predicate Routable(c: ApiClient.Call) {
    match c
    case GetServer(id) => SafeId(id) && id != "my"
    case UpdateServer(id, _) => SafeId(id)
    case DeleteServer(id) => SafeId(id)
    case TrackInstall(id) => SafeId(id)
    case TrackUninstall(id) => SafeId(id)
    case _ => true
  }

  /** `/`-joined segments without a `/` of their own split back into those segments. */
  lemma SegmentsOfJoin(parts: seq<string>)
    requires |parts| >= 1 && forall i :: 0 <= i < |parts| ==> forall j :: 0 <= j < |parts[i]| ==> parts[i][j] != '/'
    ensures Segments("/" + Join(parts, "/")) == parts
  {
    forall i | 0 <= i < |parts|
      ensures !Contains(parts[i], "/")
    {
      AbsentChar(parts[i], "/", 0);
    }
    assert ("/" + Join(parts, "/"))[1..] == Join(parts, "/");
    SplitJoin(parts, "/");
  }

  /** A segment without `/`. */
  predicate Segment(s: string) {
    forall j :: 0 <= j < |s| ==> s[j] != '/'
  }

  lemma ServersPath()
    ensures Segments("/servers") == ["servers"]
  {
    SegmentsOfJoin(["servers"]);
  }

  lemma ServerPath(id: string)
    requires Segment(id)
    ensures Segments("/servers/" + id) == ["servers", id]
  {
    assert "/servers/" + id == "/" + Join(["servers", id], "/");
    SegmentsOfJoin(["servers", id]);
  }

  lemma ServerActionPath(id: string, action: string)
    requires Segment(id) && Segment(action)
    ensures Segments("/servers/" + id + "/" + action) == ["servers", id, action]
  {
    assert ["servers", id, action][1..] == [id, action] && [id, action][1..] == [action];
    assert Join([id, action], "/") == id + "/" + action;
    assert Join(["servers", id, action], "/") == "servers" + "/" + Join([id, action], "/");
    assert "/servers/" + id + "/" + action == "/" + Join(["servers", id, action], "/");
    SegmentsOfJoin(["servers", id, action]);
  }

  lemma ReachCollection()
    ensures Match(HttpGet, Segments("/servers")) == Some(ListAll)
    ensures Match(HttpPost, Segments("/servers")) == Some(CreateOne)
  {
    ServersPath();
  }

  lemma ReachServer(id: string)
    requires SafeId(id)
    ensures Match(HttpGet, Segments("/servers/" + id)) == if id == "my" then Some(ListMine) else Some(GetOne(id))
    ensures Match(HttpPut, Segments("/servers/" + id)) == Some(UpdateOne(id))
    ensures Match(HttpDelete, Segments("/servers/" + id)) == Some(DeleteOne(id))
  {
    ServerPath(id);
    var path := ["servers", id];
    assert path[0] == "servers" && path[1] == id && |path| == 2;
  }

  lemma ReachInstall(id: string)
    requires SafeId(id)
    ensures Match(HttpPost, Segments("/servers/" + id + "/install")) == Some(InstallOne(id))
  {
    assert "/servers/" + id + "/install" == "/servers/" + id + "/" + "install";
    ServerActionPath(id, "install");
    var path := ["servers", id, "install"];
    assert path[0] == "servers" && path[1] == id && path[2] == "install" && |path| == 3;
  }

  lemma ReachUninstall(id: string)
    requires SafeId(id)
    ensures Match(HttpPost, Segments("/servers/" + id + "/uninstall")) == Some(UninstallOne(id))
  {
    assert "/servers/" + id + "/uninstall" == "/servers/" + id + "/" + "uninstall";
    ServerActionPath(id, "uninstall");
    var path := ["servers", id, "uninstall"];
    assert path[0] == "servers" && path[1] == id && path[2] == "uninstall" && |path| == 3;
  }

  /** Every routable call reaches exactly the route it is meant for. */
  lemma CallsReachTheirRoutes(c: ApiClient.Call)
    requires Routable(c)
    ensures Match(MethodOf(ApiClient.VerbOf(c)), Segments(ApiClient.EndpointOf(c))) == Some(RouteOf(c))
  {
    var m, e := MethodOf(ApiClient.VerbOf(c)), ApiClient.EndpointOf(c);
    match c
    case GetServers =>
      assert m == HttpGet && e == "/servers";
      ReachCollection();
    case CreateServer(_) =>
      assert m == HttpPost && e == "/servers";
      ReachCollection();
    case GetMyServers =>
      assert m == HttpGet && e == "/servers/" + "my";
      ReachServer("my");
    case GetServer(id) =>
      assert m == HttpGet && e == "/servers/" + id;
      ReachServer(id);
    case UpdateServer(id, _) =>
      assert m == HttpPut && e == "/servers/" + id;
      ReachServer(id);
    case DeleteServer(id) =>
      assert m == HttpDelete && e == "/servers/" + id;
      ReachServer(id);
    case TrackInstall(id) =>
      assert m == HttpPost && e == "/servers/" + id + "/install";
      ReachInstall(id);
    case TrackUninstall(id) =>
      assert m == HttpPost && e == "/servers/" + id + "/uninstall";
      ReachUninstall(id);
  }

  /** Reading the server whose id is `my` lists the caller's own servers instead. */
  lemma ServerNamedMyIsShadowed()
    ensures Match(MethodOf(ApiClient.VerbOf(ApiClient.GetServer("my"))), Segments(ApiClient.EndpointOf(ApiClient.GetServer("my"))))
            == Some(ListMine)
  {
    ReachServer("my");
  }

  /** Every id the repository hands out is safe to interpolate, and is not `my`. */
  lemma CanonicalIdsAreSafe(id: string)
    requires IsCanonicalId(id)
    ensures SafeId(id) && id != "my"
  {
    forall i | 0 <= i < |id|
      ensures id[i] != '/' && id[i] != '?'
    {
      assert IsHexDigit(id[i]);
    }
  }

  // ---------------------------------------------------------------------------
  // Identity
  // ---------------------------------------------------------------------------

  /**
   * The server sees the client's user exactly when the user's id is not
   * empty, with the id and email as sent and no name, since the client never
   * sends one.
   */
  lemma IdentityReachesServer(token: Json, user: Option<Auth.AuthUser>)
    ensures UserFromRequest(ApiClient.RequestHeaders(token, user)).Some?
            <==> user.Some? && ToJsString(user.value.id) != ""
    ensures user.Some? && ToJsString(user.value.id) != "" ==>
              UserFromRequest(ApiClient.RequestHeaders(token, user))
              == Some(User(ToJsString(user.value.id), Str(ToJsString(user.value.email)), Undefined))
  {
  }

  /** A server created through the client records the user's id and email as owner, and `null` as the owner's name. */
  lemma ClientCreatedOwner(svc: Service, drv: Driver, token: Json, u: Auth.AuthUser, body: Fields, now: string, newId: string)
    requires IsCanonicalId(newId) && forall i :: 0 <= i < |svc.docs| ==> svc.docs[i].oid != Some(newId)
    requires ToJsString(u.id) != ""
    ensures var r := HandleCreate(svc, drv, ApiClient.RequestHeaders(token, Some(u)), body, now, newId);
            r.res.status == 201 ==>
              && |r.svc.docs| == |svc.docs| + 1
              && r.svc.docs[|svc.docs|].ownerId == Str(ToJsString(u.id))
              && r.svc.docs[|svc.docs|].ownerEmail == Str(ToJsString(u.email))
              && r.svc.docs[|svc.docs|].ownerName == Null
  {
    IdentityReachesServer(token, Some(u));
  }

  /**
   * A signed-in user whose profile had no id sends an empty `X-User-Id`:
   * every write and the user's own list are refused with `401`, and the
   * client signs the user out on the spot.
   */
  lemma NamelessUserSignedOut(svc: Service, drv: Driver, token: Json, u: Auth.AuthUser, c: ApiClient.Call, body: Fields,
                              now: string, newId: string, retry: ApiClient.Fetched)
    requires IsCanonicalId(newId) && forall i :: 0 <= i < |svc.docs| ==> svc.docs[i].oid != Some(newId)
    requires DistinctKeys(body) && Routable(c) && ToJsString(u.id) == ""
    requires c.GetMyServers? || c.CreateServer? || c.UpdateServer? || c.DeleteServer?
    ensures var req := Request(MethodOf(ApiClient.VerbOf(c)), Segments(ApiClient.EndpointOf(c)),
                               ApiClient.RequestHeaders(token, Some(u)), body);
            && Serve(svc, drv, req, now, newId) == Some(Handled(svc, Failure(401, AuthRequiredMessage)))
            && ApiClient.Request(Deliver(Failure(401, AuthRequiredMessage)), retry)
               == ApiClient.Outcome(ApiClient.Refused(Str(ApiClient.SignInAgainMessage)), true)
  {
    CallsReachTheirRoutes(c);
    IdentityReachesServer(token, Some(u));
  }

  // ---------------------------------------------------------------------------
  // Responses through the client
  // ---------------------------------------------------------------------------

  /** The fields of the server's success envelope. */
  lemma SuccessEnvelope(status: nat, data: Json)
    ensures var v := Success(status, data).body;
            Truthy(v) && IsObjectType(v) && Prop(v, "success") == Bool(true) && Prop(v, "data") == data
            && Prop(v, "error") == Undefined
  {
    var fs := Success(status, data).body.fields;
    assert "success"[0] != "data"[0] && "success"[0] != "error"[0] && "data"[0] != "error"[0];
    assert fs[1..] == [("data", data)] && fs[1..][1..] == [];
    assert Lookup(fs, "data") == Lookup(fs[1..], "data") == data;
    assert Lookup(fs, "error") == Lookup(fs[1..], "error") == Lookup(fs[1..][1..], "error") == Undefined;
  }

  /** The fields of the server's failure envelope: an `error`, and no `message`. */
  lemma FailureEnvelope(status: nat, m: string)
    ensures var v := Failure(status, m).body;
            Truthy(v) && IsObjectType(v) && Prop(v, "success") == Bool(false) && Prop(v, "error") == Str(m)
            && Prop(v, "message") == Undefined
  {
    var fs := Failure(status, m).body.fields;
    assert "success"[0] != "error"[0] && "success"[0] != "message"[0] && "error"[0] != "message"[0];
    assert fs[1..] == [("error", Str(m))] && fs[1..][1..] == [];
    assert Lookup(fs, "error") == Lookup(fs[1..], "error") == Str(m);
    assert Lookup(fs, "message") == Lookup(fs[1..], "message") == Lookup(fs[1..][1..], "message") == Undefined;
  }

  /** The server's success envelope is unwrapped: the client's caller sees the envelope's data. */
  lemma SuccessUnwrapped(status: nat, data: Json, retry: ApiClient.Fetched)
    requires ApiClient.IsOk(status)
    ensures ApiClient.Request(Deliver(Success(status, data)), retry)
            == ApiClient.Outcome(ApiClient.ApiResponse(Bool(true), data, Undefined), false)
    ensures ApiClient.Request(Deliver(Acknowledged), retry)
            == ApiClient.Outcome(ApiClient.ApiResponse(Bool(true), Undefined, Undefined), false)
  {
    SuccessEnvelope(status, data);
    var fs := Acknowledged.body.fields;
    assert "success"[0] != "data"[0] && "success"[0] != "error"[0];
    assert fs[1..] == [];
  }

  /**
   * As written, the client reads `message` from a failed response but the
   * server sends `error`: every `404` and `500` reaches the screens as the
   * bare status message, whatever the server said.
   */
  lemma ServerErrorLost(status: nat, m: string, retry: ApiClient.Fetched)
    requires status !in {401, 403, 429, 304} && !ApiClient.IsOk(status)
    ensures ApiClient.Request(Deliver(Failure(status, m)), retry).response
            == ApiClient.Refused(Str(ApiClient.StatusMessage(status)))
  {
    FailureEnvelope(status, m);
  }

  /** Reading `error` as intended, the server's message reaches the screens. */
  lemma ServerErrorShownWhenIntended(status: nat, m: string)
    requires m != ""
    ensures ApiClient.ErrorResponseIntended(ApiClient.Answer(status, ApiClient.Parsed(Failure(status, m).body)))
            == ApiClient.Refused(Str(m))
  {
    FailureEnvelope(status, m);
  }

  /** `403` and `401` replace the server's message with the client's own. */
  lemma RefusalsRephrased(m: string, retry: ApiClient.Fetched)
    ensures ApiClient.Request(Deliver(Failure(403, m)), retry).response
            == ApiClient.Refused(Str(ApiClient.ForbiddenMessage))
    ensures ApiClient.Request(Deliver(Failure(401, m)), retry).signsOut
  {
  }

  // ---------------------------------------------------------------------------
  // Into the store
  // ---------------------------------------------------------------------------

  /** What the store's `fetchServers` makes of the server's `GET /servers`. */
  function ListedInStore(st: Store.MarketplaceState, svc: Service, drv: Driver, retry: ApiClient.Fetched): Store.MarketplaceState {
    Store.FetchServers(st, Store.Resolved(ApiClient.Request(Deliver(HandleList(svc, drv).res), retry).response))
  }

  /**
   * With the database reachable the store lists exactly the public servers,
   * newest first, as the server serialised them; otherwise it keeps its list
   * and shows the status message.
   */
  lemma ListReachesStore(st: Store.MarketplaceState, svc: Service, drv: Driver, retry: ApiClient.Fetched)
    ensures Ready(svc.conn, drv).1.Ok? ==>
              && ListedInStore(st, svc, drv, retry).servers == Map(ToServers(PublicDocs(svc.docs)), ServerJson)
              && ListedInStore(st, svc, drv, retry).serversError == Null
    ensures Ready(svc.conn, drv).1.Err? ==>
              && ListedInStore(st, svc, drv, retry).servers == st.servers
              && ListedInStore(st, svc, drv, retry).serversError == Str(ApiClient.StatusMessage(500))
  {
    if Ready(svc.conn, drv).1.Ok? {
      SuccessUnwrapped(200, ServersJson(ToServers(PublicDocs(svc.docs))), retry);
    } else {
      ServerErrorLost(500, Ready(svc.conn, drv).1.message, retry);
    }
  }

  /** The answer a cache gives to a conditional request: `304` with no body. */
  const NotModified: ApiClient.Fetched := ApiClient.Answered(ApiClient.Answer(304, ApiClient.NoBody))

  /**
   * As written, a `304` whose retry succeeds hands the store the whole
   * envelope as `data`; that is not an array, so the list is emptied and
   * no error is shown.
   */
  lemma NotModifiedEmptiesList(st: Store.MarketplaceState, svc: Service, drv: Driver)
    requires Ready(svc.conn, drv).1.Ok?
    ensures var r := Store.FetchServers(st, Store.Resolved(ApiClient.Request(NotModified, Deliver(HandleList(svc, drv).res)).response));
            r.servers == [] && r.serversError == Null
  {
    assert HandleList(svc, drv).res == Success(200, ServersJson(ToServers(PublicDocs(svc.docs))));
  }

  /** Unwrapping the retry as intended, the store lists the public servers after a `304` too. */
  lemma NotModifiedListedWhenIntended(st: Store.MarketplaceState, svc: Service, drv: Driver)
    requires Ready(svc.conn, drv).1.Ok?
    ensures var r := Store.FetchServers(st, Store.Resolved(ApiClient.RetryResponseIntended(Deliver(HandleList(svc, drv).res))));
            r.servers == Map(ToServers(PublicDocs(svc.docs)), ServerJson) && r.serversError == Null
  {
    var listed := ServersJson(ToServers(PublicDocs(svc.docs)));
    assert HandleList(svc, drv).res == Success(200, listed);
    IntendedRetryUnwraps(200, listed);
  }

  /** The intended retry unwraps the server's success envelope. */
  lemma IntendedRetryUnwraps(status: nat, data: Json)
    requires ApiClient.IsOk(status)
    ensures ApiClient.RetryResponseIntended(Deliver(Success(status, data))) == ApiClient.ApiResponse(Bool(true), data, Undefined)
  {
    SuccessEnvelope(status, data);
  }
}

=== FILE: json.dfy ===
/**
 * JavaScript values as the marketplace code sees them: JSON documents plus
 * `undefined`. Objects are association lists, because the code depends on key
 * order (`Object.keys(...)[0]`, `Object.entries(...)`). Numbers are integers.
 */
module Json {
  import opened Basics
  import opened Text

  datatype Json =
    | Undefined
    | Null
    | Bool(b: bool)
    | Num(n: int)
    | Str(s: string)
    | Arr(items: seq<Json>)
    | Obj(fields: Fields)

  /** The own enumerable properties of an object, in key order. */
  type Fields = seq<(string, Json)>

  /** JavaScript truthiness (`!!v`). */
  predicate Truthy(v: Json) {
    match v
    case Undefined => false
    case Null => false
    case Bool(b) => b
    case Num(n) => n != 0
    case Str(s) => s != ""
    case Arr(_) => true
    case Obj(_) => true
  }

  /** `typeof v === 'object'`, which also holds for `null` and for arrays. */
  predicate IsObjectType(v: Json) {
    v.Null? || v.Arr? || v.Obj?
  }

  /** `v == null`, the test behind `??` and `?.`. */
  predicate IsNullish(v: Json) {
    v.Undefined? || v.Null?
  }

  /** `a || b` */
  function Or(a: Json, b: Json): (r: Json)
    ensures Truthy(a) ==> r == a
    ensures !Truthy(a) ==> r == b
  {
    if Truthy(a) then a else b
  }

  /** `a ?? b` */
  function Nullish(a: Json, b: Json): (r: Json)
    ensures !IsNullish(a) ==> r == a
    ensures IsNullish(a) ==> r == b
  {
    if IsNullish(a) then b else a
  }

  predicate HasKey(fs: Fields, k: string) {
    exists i :: 0 <= i < |fs| && fs[i].0 == k
  }

  /** Every key occurs once, as in any JavaScript object. */
  predicate DistinctKeys(fs: Fields) {
    forall i, j :: 0 <= i < j < |fs| ==> fs[i].0 != fs[j].0
  }

  lemma HasKeyCons(fs: Fields, k: string)
    requires |fs| > 0
    ensures HasKey(fs, k) <==> fs[0].0 == k || HasKey(fs[1..], k)
  {
    if HasKey(fs[1..], k) {
      var i :| 0 <= i < |fs[1..]| && fs[1..][i].0 == k;
      assert fs[i + 1].0 == k;
    }
    if HasKey(fs, k) && fs[0].0 != k {
      var i :| 0 <= i < |fs| && fs[i].0 == k;
      assert fs[1..][i - 1].0 == k;
    }
  }

  lemma DistinctTail(fs: Fields)
    requires |fs| > 0 && DistinctKeys(fs)
    ensures !HasKey(fs[1..], fs[0].0) && DistinctKeys(fs[1..])
  {
    forall i | 0 <= i < |fs[1..]| ensures fs[1..][i].0 != fs[0].0 {
      assert fs[1..][i] == fs[i + 1];
    }
  }

  lemma DistinctCons(h: (string, Json), t: Fields)
    requires DistinctKeys(t) && !HasKey(t, h.0)
    ensures DistinctKeys([h] + t)
  {
    var r := [h] + t;
    forall i, j | 0 <= i < j < |r| ensures r[i].0 != r[j].0 {
      assert r[j] == t[j - 1];
      if i > 0 {
        assert r[i] == t[i - 1];
      }
    }
  }

  /** `o[k]` on an object with properties `fs`: the value of key `k`, or `undefined`. */
  function Lookup(fs: Fields, k: string): (r: Json)
    ensures !HasKey(fs, k) ==> r == Undefined
    ensures HasKey(fs, k) ==> exists i :: 0 <= i < |fs| && fs[i] == (k, r)
  {
    if |fs| == 0 then Undefined
    else if fs[0].0 == k then fs[0].1
    else
      var r := Lookup(fs[1..], k);
      HasKeyCons(fs, k);
      assert HasKey(fs, k) ==> exists i :: 0 <= i < |fs| && fs[i] == (k, r) by {
        if HasKey(fs, k) {
          var i :| 0 <= i < |fs[1..]| && fs[1..][i] == (k, r);
          assert fs[i + 1] == (k, r);
        }
      }
      r
  }

  /** In an object with distinct keys, a lookup of the key at position `i` gives the value stored there. */
  lemma {:induction false} LookupAt(fs: Fields, i: nat)
    requires DistinctKeys(fs) && i < |fs|
    ensures Lookup(fs, fs[i].0) == fs[i].1
  {
    if i > 0 {
      assert fs[0].0 != fs[i].0;
      DistinctTail(fs);
      assert fs[1..][i - 1] == fs[i];
      LookupAt(fs[1..], i - 1);
    }
  }

  /** `v?.k` (and `v.k` where the source has already excluded `null`): `undefined` unless `v` is an object. */
  function Prop(v: Json, k: string): (r: Json)
    ensures !v.Obj? ==> r == Undefined
  {
    if v.Obj? then Lookup(v.fields, k) else Undefined
  }

  /** `v[k]`: `None` is the `TypeError` that reading a property of `null` or `undefined` throws. */
  function ReadProp(v: Json, k: string): (r: Option<Json>)
    ensures r.None? <==> IsNullish(v)
    ensures r.Some? ==> r.value == Prop(v, k)
  {
    if IsNullish(v) then None else Some(Prop(v, k))
  }

  /**
   * `o[k] = v`: an existing key keeps its position and takes the new value,
   * a new key is appended.
   */
  function Assign(fs: Fields, k: string, v: Json): (r: Fields)
    ensures Lookup(r, k) == v
    ensures forall k' :: k' != k ==> Lookup(r, k') == Lookup(fs, k')
    ensures !HasKey(fs, k) ==> r == fs + [(k, v)]
  {
    if |fs| == 0 then
      [(k, v)]
    else if fs[0].0 == k then
      [(k, v)] + fs[1..]
    else
      var rest := Assign(fs[1..], k, v);
      HasKeyCons(fs, k);
      assert fs == [fs[0]] + fs[1..];
      [fs[0]] + rest
  }

  /** Assigning a key adds exactly that key, and keeps the keys distinct. */
  lemma {:induction false} AssignKeys(fs: Fields, k: string, v: Json)
    ensures forall k' :: HasKey(Assign(fs, k, v), k') <==> HasKey(fs, k') || k' == k
    ensures DistinctKeys(fs) ==> DistinctKeys(Assign(fs, k, v))
  {
    var r := Assign(fs, k, v);
    if |fs| > 0 {
      if fs[0].0 != k {
        AssignKeys(fs[1..], k, v);
      }
      assert r[1..] == if fs[0].0 == k then fs[1..] else Assign(fs[1..], k, v);
      forall k' ensures HasKey(r, k') <==> HasKey(fs, k') || k' == k {
        HasKeyCons(r, k');
        HasKeyCons(fs, k');
      }
      if DistinctKeys(fs) {
        DistinctTail(fs);
        DistinctCons(r[0], r[1..]);
        assert r == [r[0]] + r[1..];
      }
    }
  }

  /** Assigning a key twice leaves only the second value. */
  lemma {:induction false} AssignTwice(fs: Fields, k: string, x: Json, y: Json)
    ensures Assign(Assign(fs, k, x), k, y) == Assign(fs, k, y)
  {
    if |fs| > 0 && fs[0].0 != k {
      AssignTwice(fs[1..], k, x, y);
      assert Assign(fs, k, x)[1..] == Assign(fs[1..], k, x);
    }
  }

  /** Assigning a present key the value it already has changes nothing. */
  lemma {:induction false} AssignSame(fs: Fields, k: string)
    requires HasKey(fs, k)
    ensures Assign(fs, k, Lookup(fs, k)) == fs
  {
    HasKeyCons(fs, k);
    if fs[0].0 != k {
      AssignSame(fs[1..], k);
    }
  }

  /** `{...base, ...upd}`: the keys of `upd` override, in order, those of `base`. */
  function Merge(base: Fields, upd: Fields): (r: Fields)
    requires DistinctKeys(upd)
    ensures forall k :: Lookup(r, k) == (if HasKey(upd, k) then Lookup(upd, k) else Lookup(base, k))
    ensures forall k :: HasKey(r, k) <==> HasKey(base, k) || HasKey(upd, k)
    ensures DistinctKeys(base) ==> DistinctKeys(r)
    decreases |upd|
  {
    if |upd| == 0 then
      base
    else
      var tail := upd[1..];
      DistinctTail(upd);
      assert forall k :: HasKey(upd, k) <==> upd[0].0 == k || HasKey(tail, k) by {
        forall k ensures HasKey(upd, k) <==> upd[0].0 == k || HasKey(tail, k) {
          HasKeyCons(upd, k);
        }
      }
      AssignKeys(base, upd[0].0, upd[0].1);
      Merge(Assign(base, upd[0].0, upd[0].1), tail)
  }

  /** The properties whose value is not `undefined`. */
  function DropUndefined(fs: Fields): (r: Fields)
    ensures DistinctKeys(fs) ==> forall k :: Lookup(r, k) == Lookup(fs, k)
    ensures DistinctKeys(fs) ==> forall k :: HasKey(r, k) <==> Lookup(fs, k) != Undefined
    ensures forall i :: 0 <= i < |r| ==> r[i].1 != Undefined
    ensures DistinctKeys(fs) ==> DistinctKeys(r)
  {
    if |fs| == 0 then []
    else
      var rest := DropUndefined(fs[1..]);
      var r := if fs[0].1 == Undefined then rest else [fs[0]] + rest;
      assert r == if fs[0].1 == Undefined then rest else [fs[0]] + rest;
      assert DistinctKeys(fs) ==> DistinctKeys(r) && forall k :: Lookup(r, k) == Lookup(fs, k) by {
        if DistinctKeys(fs) {
          DistinctTail(fs);
          if fs[0].1 != Undefined {
            DistinctCons(fs[0], rest);
          }
          forall k ensures Lookup(r, k) == Lookup(fs, k) {
            if fs[0].1 != Undefined {
              assert r[1..] == rest;
            }
          }
        }
      }
      assert DistinctKeys(fs) ==> forall k :: HasKey(r, k) <==> Lookup(fs, k) != Undefined by {
        if DistinctKeys(fs) {
          forall k ensures HasKey(r, k) <==> Lookup(fs, k) != Undefined {
            HasKeyCons(fs, k);
            if fs[0].1 != Undefined {
              assert r[1..] == rest;
              HasKeyCons(r, k);
            }
          }
        }
      }
      r
  }

  /** `items.join(sep)`: `null` and `undefined` elements contribute empty text. */
  function JoinValues(items: seq<Json>, sep: string): string
    decreases items, 0
  {
    Join(seq(|items|, i requires 0 <= i < |items| => if IsNullish(items[i]) then "" else ToJsString(items[i])), sep)
  }

  /** `String(v)` and template-literal conversion. */
  function ToJsString(v: Json): string
    decreases v, 1
  {
    match v
    case Undefined => "undefined"
    case Null => "null"
    case Bool(b) => if b then "true" else "false"
    case Num(n) => IntToString(n)
    case Str(s) => s
    case Arr(items) => JoinValues(items, ",")
    case Obj(_) => "[object Object]"
  }

  /** Decimal digits only. */
  predicate AllDigits(s: string) {
    forall i :: 0 <= i < |s| ==> '0' <= s[i] <= '9'
  }

  /**
   * The number a value converts to in a relational comparison such as
   * `length <= v` (JavaScript `ToNumber` after `ToPrimitive`); `None` is
   * `NaN`, against which every comparison is false. Strings are read as
   * optional white space around decimal digits.
   */
  function RelationalNumber(v: Json): Option<int>
  {
    match v
    case Undefined => None
    case Null => Some(0)
    case Bool(b) => Some(if b then 1 else 0)
    case Num(n) => Some(n)
    case _ =>
      var t := Trim(ToJsString(v));
      if t == "" then Some(0) else if AllDigits(t) then Some(ParseDecimal(t)) else None
  }
}

=== FILE: marketplace_page.dfy ===
/**
 * The marketplace settings page (`pages/settings/MCPMarketplace/index.tsx`):
 * installing an entry as a local MCP server record, building the payload of
 * the simple editor, and the permission guards in front of edit and delete.
 */
module MarketplacePage {
  import opened Basics
  import opened Text
  import opened Json
  import opened Matcher
  import Auth
  import ApiClient
  import Store

  // ---------------------------------------------------------------------------
  // `${HOME}` resolution of install arguments
  // ---------------------------------------------------------------------------

  const HomeToken: string := "${HOME}"

  /** `s.replace(/^\/?\$\{HOME\}/g, h)`: only a match at the very start, with an optional leading slash. */
  function ReplaceLeadingHome(s: string, h: string): (r: string)
    ensures StartsWith(s, "/" + HomeToken) ==> r == h + s[|HomeToken| + 1..]
    ensures !StartsWith(s, "/" + HomeToken) && StartsWith(s, HomeToken) ==> r == h + s[|HomeToken|..]
    ensures !StartsWith(s, "/" + HomeToken) && !StartsWith(s, HomeToken) ==> r == s
  {
    if StartsWith(s, "/" + HomeToken) then h + s[|HomeToken| + 1..]
    else if StartsWith(s, HomeToken) then h + s[|HomeToken|..]
    else s
  }

  /** `s` without its leading slashes. */
  function DropLeadingSlashes(s: string): (r: string)
    ensures |r| <= |s| && r == s[|s| - |r|..]
    ensures |r| > 0 ==> r[0] != '/'
    ensures forall i :: 0 <= i < |s| - |r| ==> s[i] == '/'
  {
    if |s| > 0 && s[0] == '/' then DropLeadingSlashes(s[1..]) else s
  }

  /** `s.replace(/^\/\/+/, '/')`: a leading run of two or more slashes becomes one. */
  function CollapseLeadingSlashes(s: string): (r: string)
    ensures !StartsWith(r, "//")
    ensures !StartsWith(s, "//") ==> r == s
    ensures StartsWith(s, "//") ==> r == "/" + DropLeadingSlashes(s)
  {
    if StartsWith(s, "//") then
      var t := DropLeadingSlashes(s);
      assert |t| > 0 ==> ("/" + t)[1] == t[0];
      "/" + t
    else
      s
  }

  /**
   * `resolveArg`: a string argument has a leading `${HOME}` or `/${HOME}`
   * replaced by the home directory, then every other `${HOME}`, and finally a
   * leading run of slashes collapsed to one. Non-strings, and everything when
   * the home directory is unknown (empty), are left alone.
   */
  function ResolveArg(a: Json, homeDir: string): (r: Json)
    ensures !a.Str? || homeDir == "" ==> r == a
    ensures a.Str? ==> r.Str?
    ensures a.Str? && homeDir != "" ==> !StartsWith(r.s, "//")
    ensures a.Str? && !Contains(a.s, HomeToken) && !StartsWith(a.s, "//") ==> r == a
  {
    if !a.Str? || homeDir == "" then a
    else
      var s := a.s;
      var step1 := ReplaceLeadingHome(s, homeDir);
      var step2 := ReplaceAll(step1, HomeToken, homeDir);
      assert StartsWith(s, HomeToken) || StartsWith(s, "/" + HomeToken) ==> Contains(s, HomeToken) by {
        if StartsWith(s, "/" + HomeToken) {
          assert s[1..1 + |HomeToken|] == HomeToken;
          assert OccursAt(s, HomeToken, 1);
        }
        if StartsWith(s, HomeToken) {
          assert OccursAt(s, HomeToken, 0);
        }
      }
      Str(CollapseLeadingSlashes(step2))
  }

  /**
   * A `${HOME}`-rooted path resolves to the home directory followed by the
   * rest, with or without a slash in front of the placeholder, as long as
   * the result holds no placeholder and does not start with two slashes.
   */
  lemma HomeRootedArg(rest: string, homeDir: string)
    requires homeDir != ""
    requires !Contains(homeDir + rest, HomeToken) && !StartsWith(homeDir + rest, "//")
    ensures ResolveArg(Str(HomeToken + rest), homeDir) == Str(homeDir + rest)
    ensures ResolveArg(Str("/" + HomeToken + rest), homeDir) == Str(homeDir + rest)
  {
    var a := HomeToken + rest;
    var b := "/" + HomeToken + rest;
    assert a[0] == '$';
    assert StartsWith(a, HomeToken) && !StartsWith(a, "/" + HomeToken);
    assert a[|HomeToken|..] == rest;
    assert StartsWith(b, "/" + HomeToken);
    assert b[|HomeToken| + 1..] == rest;
  }

  /**
   * A `${HOME}` in the middle of an argument is replaced by the second,
   * global replace: with a prefix that neither starts with `$` or `/` nor
   * holds a placeholder of its own, and a placeholder-free suffix, the
   * argument resolves to the prefix, the home directory and the suffix.
   */
  lemma ResolveEmbeddedHome(pre: string, post: string, homeDir: string)
    requires homeDir != ""
    requires |pre| > 0 && pre[0] != '$' && pre[0] != '/'
    requires !Contains(pre + HomeToken[..|HomeToken| - 1], HomeToken) && !Contains(post, HomeToken)
    ensures ResolveArg(Str(pre + HomeToken + post), homeDir) == Str(pre + homeDir + post)
  {
    var s := pre + HomeToken + post;
    var step2 := pre + homeDir + post;
    NoLeadingPlaceholder(s, homeDir);
    ReplaceAllStep(pre, HomeToken, post, homeDir);
    assert ReplaceAll(s, HomeToken, homeDir) == step2;
    NoLeadingSlash(step2);
  }

  /** A string starting with neither `$` nor `/` has no leading placeholder to replace. */
  lemma NoLeadingPlaceholder(s: string, homeDir: string)
    requires |s| > 0 && s[0] != '$' && s[0] != '/'
    ensures ReplaceLeadingHome(s, homeDir) == s
  {
    assert !StartsWith(s, HomeToken) && !StartsWith(s, "/" + HomeToken);
  }

  /** A string not starting with `/` has no slashes to collapse. */
  lemma NoLeadingSlash(s: string)
    requires |s| > 0 && s[0] != '/'
    ensures CollapseLeadingSlashes(s) == s
  {
    assert !StartsWith(s, "//");
  }

  // ---------------------------------------------------------------------------
  // Padding the arguments for `argsPrompts`
  // ---------------------------------------------------------------------------

  /** `while (xs.length <= n) xs.push('')` */
  function PadTo(xs: seq<Json>, n: Option<int>): (r: seq<Json>)
    ensures |r| >= |xs| && r[..|xs|] == xs
    ensures forall i :: |xs| <= i < |r| ==> r[i] == Str("")
    ensures n.Some? ==> n.value < |r|
    ensures n.None? || n.value < |xs| ==> r == xs
    ensures n.Some? && n.value >= |xs| ==> |r| == n.value + 1
  {
    if n.Some? && n.value >= |xs| then
      xs + seq(n.value + 1 - |xs|, _ => Str(""))
    else
      xs
  }

  /** JavaScript's message for reading a property of `null` or `undefined`. */
  function ReadPropertyError(v: Json, key: string): string {
    "Cannot read properties of " + (if v.Null? then "null" else "undefined") + " (reading '" + key + "')"
  }

  /** `p.argIndex` as the number it compares as. */
  function ArgIndex(p: Json): Option<int> {
    RelationalNumber(Prop(p, "argIndex"))
  }

  /** Padding for each index in turn. */
  function PadAll(xs: seq<Json>, indices: seq<Option<int>>): (r: seq<Json>)
    decreases |indices|
  {
    if |indices| == 0 then xs else PadAll(PadTo(xs, indices[0]), indices[1..])
  }

  /**
   * The `for (const p of argsPrompts)` loop: the arguments padded with `''`
   * until every prompt's `argIndex` is a valid position. A `null` or
   * `undefined` prompt throws when its `argIndex` is read.
   */
  function PadArgs(args: seq<Json>, prompts: seq<Json>): (r: Result<seq<Json>>)
    ensures r.Err? <==> exists j :: 0 <= j < |prompts| && IsNullish(prompts[j])
    ensures r.Ok? ==> r.value == PadAll(args, Map(prompts, ArgIndex))
  {
    match FindIndex(prompts, IsNullish)
    case Some(j) => Err(ReadPropertyError(prompts[j], "argIndex"))
    case None => Ok(PadAll(args, Map(prompts, ArgIndex)))
  }

  /** Padding keeps the original arguments in place and appends only `''`. */
  lemma {:induction false} PadAllKeepsArgs(xs: seq<Json>, indices: seq<Option<int>>)
    ensures var r := PadAll(xs, indices);
            && |r| >= |xs| && r[..|xs|] == xs
            && forall i :: |xs| <= i < |r| ==> r[i] == Str("")
    decreases |indices|
  {
    if |indices| > 0 {
      var padded := PadTo(xs, indices[0]);
      PadAllKeepsArgs(padded, indices[1..]);
      var r := PadAll(padded, indices[1..]);
      assert r[..|xs|] == padded[..|xs|];
    }
  }

  /** After padding, every numeric index is a valid position. */
  lemma {:induction false} PadAllCovers(xs: seq<Json>, indices: seq<Option<int>>)
    ensures forall j :: 0 <= j < |indices| && indices[j].Some? ==> indices[j].value < |PadAll(xs, indices)|
    decreases |indices|
  {
    if |indices| > 0 {
      var padded := PadTo(xs, indices[0]);
      var tail := indices[1..];
      PadAllCovers(padded, tail);
      PadAllKeepsArgs(padded, tail);
      forall j | 0 <= j < |indices| && indices[j].Some? ensures indices[j].value < |PadAll(xs, indices)| {
        if j > 0 {
          assert indices[j] == tail[j - 1];
        }
      }
    }
  }

  /** Padding goes no further than some index requires. */
  lemma {:induction false} PadAllTight(xs: seq<Json>, indices: seq<Option<int>>)
    ensures |PadAll(xs, indices)| > |xs| ==> exists j :: 0 <= j < |indices| && indices[j] == Some(|PadAll(xs, indices)| - 1)
    decreases |indices|
  {
    if |indices| > 0 {
      var padded := PadTo(xs, indices[0]);
      var tail := indices[1..];
      PadAllTight(padded, tail);
      PadAllKeepsArgs(padded, tail);
      var r := PadAll(xs, indices);
      if |r| > |xs| {
        if |r| > |padded| {
          var j :| 0 <= j < |tail| && tail[j] == Some(|r| - 1);
          assert indices[j + 1] == tail[j];
        } else {
          assert indices[0] == Some(|r| - 1);
        }
      }
    }
  }

  /** When no index points past the end, padding changes nothing. */
  lemma {:induction false} PadAllNoop(xs: seq<Json>, indices: seq<Option<int>>)
    requires forall j :: 0 <= j < |indices| && indices[j].Some? ==> indices[j].value < |xs|
    ensures PadAll(xs, indices) == xs
    decreases |indices|
  {
    if |indices| > 0 {
      assert forall j :: 1 <= j < |indices| ==> indices[j] == indices[1..][j - 1];
      PadAllNoop(xs, indices[1..]);
    }
  }

  /**
   * `argsPrompts` padding, summed up: the original arguments keep their
   * positions, only `''` is appended, every numeric `argIndex` ends up a
   * valid position, and the list grows only as far as some prompt needs.
   */
  lemma PadArgsSpec(args: seq<Json>, prompts: seq<Json>)
    requires PadArgs(args, prompts).Ok?
    ensures var r := PadArgs(args, prompts).value;
            && |r| >= |args| && r[..|args|] == args
            && (forall i :: |args| <= i < |r| ==> r[i] == Str(""))
            && (forall j :: 0 <= j < |prompts| && ArgIndex(prompts[j]).Some? ==> ArgIndex(prompts[j]).value < |r|)
            && (|r| > |args| ==> exists j :: 0 <= j < |prompts| && ArgIndex(prompts[j]) == Some(|r| - 1))
  {
    PaddedFor(args, prompts, ArgIndex);
  }

  /** The padding facts for indices read off any list of items. */
  lemma PaddedFor<T>(args: seq<Json>, items: seq<T>, f: T -> Option<int>)
    ensures var r := PadAll(args, Map(items, f));
            && |r| >= |args| && r[..|args|] == args
            && (forall i :: |args| <= i < |r| ==> r[i] == Str(""))
            && (forall j :: 0 <= j < |items| && f(items[j]).Some? ==> f(items[j]).value < |r|)
            && (|r| > |args| ==> exists j :: 0 <= j < |items| && f(items[j]) == Some(|r| - 1))
  {
    var indices := Map(items, f);
    var r := PadAll(args, indices);
    PadAllKeepsArgs(args, indices);
    PadAllCovers(args, indices);
    PadAllTight(args, indices);
    if |r| > |args| {
      var j :| 0 <= j < |indices| && indices[j] == Some(|r| - 1);
      assert f(items[j]) == indices[j];
    }
  }

  // ---------------------------------------------------------------------------
  // `onInstall`
  // ---------------------------------------------------------------------------

  /**
   * What the install handler gets from outside: the id `nanoid()` returns, the
   * home directory (`''` when the lookup fails), the translated default name,
   * and whether the user is signed in.
   */
  datatype InstallContext = InstallContext(freshId: string, homeDir: string, newServerLabel: string, authenticated: bool)

  /** The result of a successful install: the record handed to `addMCPServer`, and the id tracked, if any. */
  datatype Installation = Installation(server: McpServer, trackedId: Option<Json>)

  const InvalidConfig: string := "Invalid server config"

  /** `cfg.argsPrompts` when it is an array, else none. */
  function ArgsPrompts(cfg: Json): seq<Json> {
    var p := Prop(cfg, "argsPrompts");
    if p.Arr? then p.items else []
  }

  /** The `meta` of the installed record: the prompts when there are any, then `marketplaceId`. */
  function InstallMeta(prompts: seq<Json>, entryId: Json): (m: Json)
    ensures m.Obj? && Lookup(m.fields, "marketplaceId") == entryId
    ensures Lookup(m.fields, "argsPrompts") == if |prompts| > 0 then Arr(prompts) else Undefined
  {
    Obj((if |prompts| > 0 then [("argsPrompts", Arr(prompts))] else []) + [("marketplaceId", entryId)])
  }

  /** `extracted.args` copied when it is an array. */
  function BaseArgs(d: Json): seq<Json> {
    var a := Prop(d, "args");
    if a.Arr? then a.items else []
  }

  /**
   * `onInstall(record)`: the local record built from a marketplace entry, or
   * the error the handler reports. A definition that is not an object aborts
   * with "Invalid server config" before anything is added.
   */
  function OnInstall(record: Json, ctx: InstallContext): (r: Result<Installation>)
    ensures !IsObjectType(ExtractDefinition(Prop(record, "config"))) ==> r == Err(InvalidConfig)
    ensures r.Ok? ==> IsObjectType(ExtractDefinition(Prop(record, "config"))) && !IsNullish(record)
    ensures r.Ok? ==> var s := r.value.server; var d := ExtractDefinition(Prop(record, "config"));
              && s.id == ctx.freshId
              && MarketplaceId(s) == Prop(record, "id")
              && s.provider == Prop(record, "author")
              && s.searchKey == Prop(record, "name")
              && s.command == Or(Prop(d, "command"), Str(""))
              && s.registryUrl == Or(Prop(d, "registryUrl"), Prop(record, "repository"))
              && s.kind == Nullish(Prop(d, "type"), Str("stdio"))
              && !s.isActive
              && (Truthy(Prop(record, "name")) ==> s.name == Prop(record, "name"))
              && (!Truthy(Prop(record, "name")) && Truthy(Prop(d, "name")) ==> s.name == Prop(d, "name"))
              && (!Truthy(Prop(record, "name")) && !Truthy(Prop(d, "name")) ==> s.name == Str(ctx.newServerLabel))
              && s.description == Prop(record, "description")
              && s.env == Or(Prop(d, "env"), Obj([]))
    ensures r.Ok? ==> r.value.server.meta == InstallMeta(ArgsPrompts(Prop(record, "config")), Prop(record, "id"))
    ensures r.Ok? ==> var d := ExtractDefinition(Prop(record, "config"));
              PadArgs(BaseArgs(d), ArgsPrompts(Prop(record, "config"))).Ok?
              && r.value.server.args == Map(PadArgs(BaseArgs(d), ArgsPrompts(Prop(record, "config"))).value,
                                            a => ResolveArg(a, ctx.homeDir))
    ensures r.Ok? ==> (r.value.trackedId.Some? <==> ctx.authenticated && Truthy(Prop(record, "id")))
    ensures r.Ok? && r.value.trackedId.Some? ==> r.value.trackedId.value == Prop(record, "id")
  {
    var cfg := Prop(record, "config");
    var d := ExtractDefinition(cfg);
    if !IsObjectType(d) then
      Err(InvalidConfig)
    else
      var prompts := ArgsPrompts(cfg);
      match PadArgs(BaseArgs(d), prompts)
      case Err(msg) => Err(msg)
      case Ok(baseArgs) =>
        if IsNullish(record) then
          Err(ReadPropertyError(record, "name"))
        else
          var server := McpServer(
            id := ctx.freshId,
            name := Or(Or(Prop(record, "name"), Prop(d, "name")), Str(ctx.newServerLabel)),
            description := Prop(record, "description"),
            isActive := false,
            kind := Nullish(Prop(d, "type"), Str("stdio")),
            command := Or(Prop(d, "command"), Str("")),
            registryUrl := Or(Prop(d, "registryUrl"), Prop(record, "repository")),
            args := Map(baseArgs, a => ResolveArg(a, ctx.homeDir)),
            env := Or(Prop(d, "env"), Obj([])),
            provider := Prop(record, "author"),
            searchKey := Prop(record, "name"),
            meta := InstallMeta(prompts, Prop(record, "id")));
          var tracked := if ctx.authenticated && Truthy(Prop(record, "id")) then Some(Prop(record, "id")) else None;
          Ok(Installation(server, tracked))
  }

  /** Once installed, an entry with a non-empty id counts as installed in any list holding its record. */
  lemma InstallMakesInstalled(record: Json, ctx: InstallContext, installed: seq<McpServer>)
    requires OnInstall(record, ctx).Ok? && Truthy(Prop(record, "id"))
    requires OnInstall(record, ctx).value.server in installed
    ensures IsMarketplaceInstalled(record, installed)
  {
    var s := OnInstall(record, ctx).value.server;
    var i :| 0 <= i < |installed| && installed[i] == s;
    assert IdentityMatch(installed[i], record);
  }

  /** The installed record with its `meta` emptied: what an install from before `marketplaceId` looks like. */
  function WithoutMeta(s: McpServer): McpServer {
    s.(meta := Obj([]))
  }

  /**
   * A record installed without the strong key is recognised by the legacy
   * heuristic, provided the entry has a name, its definition a non-empty
   * string command, and its `registryUrl` is a string or falsy.
   */
  lemma LegacyInstallRecognised(record: Json, ctx: InstallContext)
    requires OnInstall(record, ctx).Ok?
    requires Truthy(Prop(record, "name"))
    requires var d := ExtractDefinition(Prop(record, "config"));
             Prop(d, "command").Str? && Prop(d, "command").s != ""
             && (Prop(d, "registryUrl").Str? || !Truthy(Prop(d, "registryUrl")))
    ensures var legacy := WithoutMeta(OnInstall(record, ctx).value.server);
            FindLegacyInstalledCandidate(record, [legacy]) == Some(legacy)
            && IsMarketplaceInstalled(record, [legacy])
  {
    var s := OnInstall(record, ctx).value.server;
    var legacy := WithoutMeta(s);
    var sig := ExtractSignature(record);
    var d := ExtractDefinition(Prop(record, "config"));
    assert s.name == Prop(record, "name") && s.provider == Prop(record, "author");
    assert s.command == Or(Prop(d, "command"), Str(""));
    assert s.registryUrl == Or(Prop(d, "registryUrl"), Prop(record, "repository"));
    assert CommandKnown(sig);
    assert HeuristicMatch(legacy, record, sig);
    assert !Truthy(MarketplaceId(legacy));
    LoneCandidateFound(record, legacy);
  }

  // ---------------------------------------------------------------------------
  // `onSubmit` of the simple editor
  // ---------------------------------------------------------------------------

  /** `(r?.value ?? '').trim()`; trimming a non-string throws. */
  function SubmittedArg(row: Json): (r: Result<string>)
    ensures r.Ok? ==> Trimmed(r.value)
    ensures IsNullish(Prop(row, "value")) ==> r == Ok("")
    ensures Prop(row, "value").Str? ==> r == Ok(Trim(Prop(row, "value").s))
    ensures r.Err? <==> !IsNullish(Prop(row, "value")) && !Prop(row, "value").Str?
  {
    var v := Nullish(Prop(row, "value"), Str(""));
    if v.Str? then Ok(Trim(v.s)) else Err("value.trim is not a function")
  }

  /** `args` of the payload: every row's trimmed value, in row order. */
  function SubmittedArgs(rows: seq<Json>): (r: Result<seq<string>>)
    ensures r.Ok? ==> |r.value| == |rows| && forall i :: 0 <= i < |rows| ==> SubmittedArg(rows[i]) == Ok(r.value[i])
    ensures r.Err? <==> exists i :: 0 <= i < |rows| && SubmittedArg(rows[i]).Err?
  {
    if |rows| == 0 then Ok([])
    else
      match SubmittedArg(rows[0])
      case Err(m) => Err(m)
      case Ok(a) =>
        var rest := SubmittedArgs(rows[1..]);
        match rest
        case Err(m) =>
          var i :| 0 <= i < |rows[1..]| && SubmittedArg(rows[1..][i]).Err?;
          assert rows[1..][i] == rows[i + 1];
          Err(m)
        case Ok(tail) =>
          ConsMatched(rows, SubmittedArg, a, tail);
          Ok([a] + tail)
  }

  /** Prepending the first row's value to the rest's keeps each row matched with its own value. */
  lemma ConsMatched<A, B>(rows: seq<A>, g: A -> Result<B>, a: B, tail: seq<B>)
    requires |rows| > 0 && g(rows[0]) == Ok(a)
    requires |tail| == |rows| - 1 && forall i :: 0 <= i < |tail| ==> g(rows[1..][i]) == Ok(tail[i])
    ensures forall i :: 0 <= i < |rows| ==> g(rows[i]) == Ok(([a] + tail)[i])
  {
    forall i | 0 <= i < |rows| ensures g(rows[i]) == Ok(([a] + tail)[i]) {
      if i > 0 {
        assert rows[i] == rows[1..][i - 1];
      }
    }
  }

  /** The prompt the payload records for an argument row marked `askPath`. */
  function PathPrompt(row: Json, idx: nat): (r: Json)
    ensures r.Obj? && Prop(r, "argIndex") == Num(idx)
  {
    Obj([("argIndex", Num(idx)), ("label", Prop(row, "label")), ("type", Str("path"))])
  }

  predicate AsksPath(row: Json) {
    Truthy(Prop(row, "askPath"))
  }

  /** The indices of the rows from `from` on that are marked `askPath`: all of them, each once, increasing. */
  function AskingRows(rows: seq<Json>, from: nat): (ix: seq<nat>)
    requires from <= |rows|
    ensures forall k :: 0 <= k < |ix| ==> from <= ix[k] < |rows| && AsksPath(rows[ix[k]])
    ensures forall i :: from <= i < |rows| && AsksPath(rows[i]) ==> i in ix
    ensures forall k, l :: 0 <= k < l < |ix| ==> ix[k] < ix[l]
    decreases |rows| - from
  {
    if from == |rows| then []
    else
      var rest := AskingRows(rows, from + 1);
      if AsksPath(rows[from]) then [from] + rest else rest
  }

  /** The prompts for the given rows, in the given order. */
  function PromptsAt(rows: seq<Json>, ix: seq<nat>): (r: seq<Json>)
    requires forall k :: 0 <= k < |ix| ==> ix[k] < |rows|
    ensures |r| == |ix| && forall k :: 0 <= k < |r| ==> r[k] == PathPrompt(rows[ix[k]], ix[k])
  {
    if |ix| == 0 then [] else [PathPrompt(rows[ix[0]], ix[0])] + PromptsAt(rows, ix[1..])
  }

  /** `argsPrompts` of the payload: one path prompt per row marked `askPath`, in row order. */
  function PathPromptsFrom(rows: seq<Json>, from: nat): (r: seq<Json>)
    requires from <= |rows|
    ensures var ix := AskingRows(rows, from);
            |r| == |ix| && forall k :: 0 <= k < |r| ==> r[k] == PathPrompt(rows[ix[k]], ix[k])
  {
    PromptsAt(rows, AskingRows(rows, from))
  }

  /**
   * The payload `onSubmit` sends: the entry's descriptive fields and a flat
   * config with the command, registry URL, trimmed args and the path prompts.
   */
  function SubmitPayload(values: Json): (r: Result<Json>)
    ensures r.Ok? ==> r.value.Obj? && Prop(r.value, "config").Obj?
    ensures r.Ok? ==> var cfg := Prop(r.value, "config");
              Prop(cfg, "command") == Prop(values, "command")
              && Prop(cfg, "registryUrl") == Prop(values, "registryUrl")
              && Rows(values).Ok? && SubmittedArgs(Rows(values).value).Ok?
              && Prop(cfg, "args") == Arr(Map(SubmittedArgs(Rows(values).value).value, a => Str(a)))
              && Prop(cfg, "argsPrompts") == Arr(PathPromptsFrom(Rows(values).value, 0))
    ensures r.Ok? ==> (Rows(values).Ok? && SubmittedArgs(Rows(values).value).Ok?
              && Prop(r.value, "config") == SubmitConfig(values, Rows(values).value, SubmittedArgs(Rows(values).value).value))
    ensures r.Ok? ==> Prop(r.value, "name") == Prop(values, "name") && Prop(r.value, "author") == Prop(values, "author")
    ensures r.Err? <==> Rows(values).Err? || SubmittedArgs(Rows(values).value).Err?
  {
    var rows :- Rows(values);
    var args :- SubmittedArgs(rows);
    Ok(Payload(values, SubmitConfig(values, rows, args)))
  }

  /** The flat `config` of the payload. */
  function SubmitConfig(values: Json, rows: seq<Json>, args: seq<string>): (c: Json)
    ensures c.Obj?
    ensures Prop(c, "command") == Prop(values, "command")
    ensures Prop(c, "registryUrl") == Prop(values, "registryUrl")
    ensures Prop(c, "args") == Arr(Map(args, a => Str(a)))
    ensures Prop(c, "argsPrompts") == Arr(PathPromptsFrom(rows, 0))
    ensures Prop(c, "mcpServers") == Undefined
  {
    ConfigObject(Prop(values, "command"), Prop(values, "registryUrl"), Arr(Map(args, a => Str(a))), Arr(PathPromptsFrom(rows, 0)))
  }

  /** `{ command, registryUrl, args, argsPrompts }` */
  function ConfigObject(command: Json, registryUrl: Json, args: Json, argsPrompts: Json): (c: Json)
    ensures c.Obj?
    ensures Prop(c, "command") == command && Prop(c, "registryUrl") == registryUrl
    ensures Prop(c, "args") == args && Prop(c, "argsPrompts") == argsPrompts
    ensures Prop(c, "mcpServers") == Undefined
  {
    var fs := [("command", command), ("registryUrl", registryUrl), ("args", args), ("argsPrompts", argsPrompts)];
    assert DistinctKeys(fs) by {
      assert "args"[1] != "argsPrompts"[1] || |"args"| != |"argsPrompts"|;
    }
    LookupAt(fs, 1); LookupAt(fs, 2); LookupAt(fs, 3);
    assert !HasKey(fs, "mcpServers") by {
      forall i | 0 <= i < |fs| ensures fs[i].0 != "mcpServers" {
        assert fs[i].0 == "args" ==> fs[i].0[0] != "mcpServers"[0];
      }
    }
    Obj(fs)
  }

  /** The payload object around a config. */
  function Payload(values: Json, cfg: Json): (p: Json)
    ensures p.Obj? && Prop(p, "config") == cfg
    ensures Prop(p, "name") == Prop(values, "name") && Prop(p, "author") == Prop(values, "author")
  {
    var fs := [
      ("name", Prop(values, "name")),
      ("description", Prop(values, "description")),
      ("version", Prop(values, "version")),
      ("author", Prop(values, "author")),
      ("config", cfg)];
    assert DistinctKeys(fs) by {
      assert "author"[0] != "config"[0];
    }
    LookupAt(fs, 3); LookupAt(fs, 4);
    Obj(fs)
  }

  /** Every path prompt of the payload names an existing row. */
  lemma PathPromptsInRange(rows: seq<Json>)
    ensures forall j :: 0 <= j < |PathPromptsFrom(rows, 0)| ==>
              var p := PathPromptsFrom(rows, 0)[j]; !IsNullish(p) && ArgIndex(p).Some? && ArgIndex(p).value < |rows|
  {
    var prompts := PathPromptsFrom(rows, 0);
    var ix := AskingRows(rows, 0);
    forall j | 0 <= j < |prompts| ensures !IsNullish(prompts[j]) && ArgIndex(prompts[j]).Some? && ArgIndex(prompts[j]).value < |rows| {
      assert Prop(prompts[j], "argIndex") == Num(ix[j]);
    }
  }

  /** The path prompts of a submitted config point at existing arguments, so install pads nothing. */
  lemma SubmitConfigNeedsNoPadding(values: Json, rows: seq<Json>, typed: seq<string>)
    requires |typed| == |rows|
    ensures var cfg := SubmitConfig(values, rows, typed);
            ExtractDefinition(cfg) == cfg
            && BaseArgs(cfg) == Map(typed, a => Str(a))
            && PadArgs(BaseArgs(cfg), ArgsPrompts(cfg)) == Ok(BaseArgs(cfg))
  {
    var cfg := SubmitConfig(values, rows, typed);
    var prompts := ArgsPrompts(cfg);
    assert prompts == PathPromptsFrom(rows, 0);
    PathPromptsInRange(rows);
    var indices := Map(prompts, ArgIndex);
    assert forall j :: 0 <= j < |indices| && indices[j].Some? ==> indices[j].value < |BaseArgs(cfg)|;
    PadAllNoop(BaseArgs(cfg), indices);
  }

  /**
   * An entry saved from the simple editor installs with exactly the typed
   * arguments (after `${HOME}` resolution): its path prompts all point at
   * existing arguments, so no padding happens.
   */
  lemma SubmittedArgsSurviveInstall(values: Json, record: Json, ctx: InstallContext)
    requires SubmitPayload(values).Ok?
    requires record.Obj? && Prop(record, "config") == Prop(SubmitPayload(values).value, "config")
    ensures OnInstall(record, ctx).Ok?
    ensures OnInstall(record, ctx).value.server.args
            == Map(Map(SubmittedArgs(Rows(values).value).value, a => Str(a)), a => ResolveArg(a, ctx.homeDir))
  {
    var rows := Rows(values).value;
    var typed := SubmittedArgs(rows).value;
    SubmitConfigNeedsNoPadding(values, rows, typed);
    InstallFlatConfig(record, ctx, Map(typed, a => Str(a)));
  }

  /** Installing an entry whose config is its own definition and needs no padding installs its args. */
  lemma InstallFlatConfig(record: Json, ctx: InstallContext, args: seq<Json>)
    requires record.Obj?
    requires var cfg := Prop(record, "config");
             ExtractDefinition(cfg) == cfg && BaseArgs(cfg) == args && PadArgs(args, ArgsPrompts(cfg)) == Ok(args)
    ensures OnInstall(record, ctx).Ok?
    ensures OnInstall(record, ctx).value.server.args == Map(args, a => ResolveArg(a, ctx.homeDir))
  {
  }

  /** `values.args || []` as a list of rows; calling `map` on anything but an array throws. */
  function Rows(values: Json): (r: Result<seq<Json>>)
    ensures !Truthy(Prop(values, "args")) ==> r == Ok([])
    ensures Prop(values, "args").Arr? ==> r == Ok(Prop(values, "args").items)
    ensures r.Err? <==> Truthy(Prop(values, "args")) && !Prop(values, "args").Arr?
  {
    var a := Or(Prop(values, "args"), Arr([]));
    if a.Arr? then Ok(a.items) else Err("values.args.map is not a function")
  }

  // ---------------------------------------------------------------------------
  // Guards in front of edit and delete
  // ---------------------------------------------------------------------------

  const EditDeniedMessage: string := "You can only edit servers that you own."
  const DeleteDeniedMessage: string := "You can only delete servers that you own."
  const DeletedMessage: string := "Server deleted successfully"
  const DeleteFailedMessage: string := "Delete failed"

  /** `onEdit`: the editor opens on the entry, or a permission warning is shown. */
  datatype EditStep = EditRefused(warning: string) | EditorOpened(editing: Json)

  function OnEdit(isAuthenticated: bool, user: Option<Auth.AuthUser>, record: Json): (r: EditStep)
    ensures r.EditorOpened? <==> Store.CanEdit(isAuthenticated, record, user)
    ensures r.EditorOpened? ==> r.editing == record
    ensures r.EditRefused? ==> r.warning == EditDeniedMessage
  {
    if !Store.CanEdit(isAuthenticated, record, user) then EditRefused(EditDeniedMessage) else EditorOpened(record)
  }

  /** The toast after a confirmed delete. */
  datatype Toast = Succeeded(note: string) | Failed(reason: Json)

  /** `onDelete`: refused with a warning, cancelled at the confirmation, or carried out with a toast. */
  datatype DeleteStep = DeleteRefused(warning: string) | DeleteCancelled | Deleted(st: Store.MarketplaceState, toast: Toast)

  /**
   * `onDelete(record)`: the store's `canEdit` guards the confirmation dialog;
   * once confirmed, the store deletes by the record's id and the toast
   * reports success, or the response's error with a fallback.
   */
  function OnDelete(st: Store.MarketplaceState, isAuthenticated: bool, user: Option<Auth.AuthUser>, record: Json,
                    confirmed: bool, response: ApiClient.ApiResponse, again: Store.Refetch): (r: DeleteStep)
    ensures r.DeleteRefused? <==> !Store.CanEdit(isAuthenticated, record, user)
    ensures r.DeleteRefused? ==> r.warning == DeleteDeniedMessage
    ensures r.DeleteCancelled? <==> Store.CanEdit(isAuthenticated, record, user) && !confirmed
    ensures r.Deleted? ==> r.st == Store.DeleteServer(st, isAuthenticated, Prop(record, "id"), response, again).0
    ensures r.Deleted? ==> (r.toast.Succeeded? <==> Truthy(response.success))
    ensures r.Deleted? && r.toast.Failed? ==> Truthy(r.toast.reason)
  {
    if !Store.CanEdit(isAuthenticated, record, user) then DeleteRefused(DeleteDeniedMessage)
    else if !confirmed then DeleteCancelled
    else
      var (after, res) := Store.DeleteServer(st, isAuthenticated, Prop(record, "id"), response, again);
      Deleted(after, if Truthy(res.success) then Succeeded(DeletedMessage) else Failed(Or(res.error, Str(DeleteFailedMessage))))
  }

  /** A user who may not edit an entry can change nothing about it from this page. */
  lemma GuardsAgree(st: Store.MarketplaceState, isAuthenticated: bool, user: Option<Auth.AuthUser>, record: Json,
                    confirmed: bool, response: ApiClient.ApiResponse, again: Store.Refetch)
    ensures OnEdit(isAuthenticated, user, record).EditRefused?
            <==> OnDelete(st, isAuthenticated, user, record, confirmed, response, again).DeleteRefused?
    ensures !isAuthenticated ==> OnDelete(st, isAuthenticated, user, record, confirmed, response, again).DeleteRefused?
  {
  }
}

=== FILE: matcher.dfy ===
/**
 * Deciding whether a marketplace entry is already installed locally
 * (renderer `components/marketplace/utils.ts`).
 *
 * A local MCP server record installed from the marketplace carries the
 * entry's id in `meta.marketplaceId`; that is the strong key. Records
 * installed before the key existed are recognised by a heuristic over the
 * entry's name, author and the command of its first server definition.
 */
module Matcher {
  import opened Basics
  import opened Json

  /** The local MCP server record, restricted to the fields the marketplace writes or reads. */
  datatype McpServer = McpServer(
    id: string,
    name: Json,
    description: Json,
    isActive: bool,
    kind: Json,
    command: Json,
    registryUrl: Json,
    args: seq<Json>,
    env: Json,
    provider: Json,
    searchKey: Json,
    meta: Json)

  /** `s.meta?.marketplaceId` */
  function MarketplaceId(s: McpServer): Json {
    Prop(s.meta, "marketplaceId")
  }

  /**
   * The server definition inside an entry's `config`: the first value of a
   * `mcpServers` object, else the first element of an array, else the config
   * itself when it is an object, else `{}`. A falsy first value or element
   * also gives `{}`. The install path uses the same rule.
   */
  function ExtractDefinition(cfg: Json): (d: Json)
    ensures Truthy(d)
    ensures !IsObjectType(cfg) || !Truthy(cfg) ==> d == Obj([])
    ensures cfg.Obj? && !(Truthy(Prop(cfg, "mcpServers")) && IsObjectType(Prop(cfg, "mcpServers"))) ==> d == cfg
    ensures (cfg.Obj? && Prop(cfg, "mcpServers").Obj? && |Prop(cfg, "mcpServers").fields| > 0
             && Truthy(Prop(cfg, "mcpServers").fields[0].1)) ==> d == Prop(cfg, "mcpServers").fields[0].1
    ensures cfg.Arr? && |cfg.items| > 0 && Truthy(cfg.items[0]) ==> d == cfg.items[0]
    ensures cfg.Arr? && |cfg.items| == 0 ==> d == cfg
  {
    var ms := Prop(cfg, "mcpServers");
    if Truthy(cfg) && IsObjectType(cfg) && Truthy(ms) && IsObjectType(ms) then
      match ms
      case Obj(fs) => if |fs| > 0 then Or(Lookup(fs, fs[0].0), Obj([])) else Obj([])
      case Arr(items) => if |items| > 0 then Or(items[0], Obj([])) else Obj([])
      case Null => Obj([])
    else if cfg.Arr? && |cfg.items| > 0 then
      Or(cfg.items[0], Obj([]))
    else if Truthy(cfg) && IsObjectType(cfg) then
      cfg
    else
      Obj([])
  }

  /** The `{command, registryUrl}` signature of an entry; `None` is `undefined`. */
  datatype Signature = Signature(command: Option<string>, registryUrl: Option<string>)

  /** The signature as a JavaScript value, for the `!==` comparison with a record's command. */
  function CommandValue(sig: Signature): Json {
    match sig.command
    case Some(c) => Str(c)
    case None => Undefined
  }

  /** `!expected.command` is false: the signature has a non-empty command. */
  predicate CommandKnown(sig: Signature) {
    sig.command.Some? && sig.command.value != ""
  }

  /**
   * The command is taken only when the definition's `command` is a string;
   * the registry URL is the definition's string `registryUrl`, else the
   * entry's string `repository`. An entry without a truthy config has the
   * empty signature.
   */
  function ExtractSignature(server: Json): (sig: Signature)
    ensures !Truthy(Prop(server, "config")) ==> sig == Signature(None, None)
    ensures Truthy(Prop(server, "config")) ==>
              (sig.command.Some? <==> Prop(ExtractDefinition(Prop(server, "config")), "command").Str?)
    ensures sig.command.Some? ==> Prop(ExtractDefinition(Prop(server, "config")), "command") == Str(sig.command.value)
    ensures sig.registryUrl.Some? ==>
              Prop(ExtractDefinition(Prop(server, "config")), "registryUrl") == Str(sig.registryUrl.value)
              || (!Prop(ExtractDefinition(Prop(server, "config")), "registryUrl").Str?
                  && Prop(server, "repository") == Str(sig.registryUrl.value))
    ensures Truthy(Prop(server, "config")) && Prop(ExtractDefinition(Prop(server, "config")), "registryUrl").Str? ==>
              sig.registryUrl.Some?
  {
    var cfg := Prop(server, "config");
    if !Truthy(cfg) then
      Signature(None, None)
    else
      var d := ExtractDefinition(cfg);
      var command := if Prop(d, "command").Str? then Some(Prop(d, "command").s) else None;
      var registryUrl :=
        if Prop(d, "registryUrl").Str? then Some(Prop(d, "registryUrl").s)
        else if Prop(server, "repository").Str? then Some(Prop(server, "repository").s)
        else None;
      Signature(command, registryUrl)
  }

  /** The strong match: the record's truthy `marketplaceId` equals the entry's truthy id. */
  predicate IdentityMatch(s: McpServer, server: Json) {
    Truthy(MarketplaceId(s)) && Truthy(Prop(server, "id")) && MarketplaceId(s) == Prop(server, "id")
  }

  /**
   * The legacy heuristic for one record: same name, same provider when the
   * entry names an author, same command, and the same registry URL when both
   * sides have a truthy one.
   */
  predicate HeuristicMatch(s: McpServer, server: Json, sig: Signature) {
    && s.name == Prop(server, "name")
    && (Truthy(Prop(server, "author")) ==> s.provider == Prop(server, "author"))
    && s.command == CommandValue(sig)
    && (sig.registryUrl.Some? && sig.registryUrl.value != "" && Truthy(s.registryUrl) ==>
          s.registryUrl == Str(sig.registryUrl.value))
  }

  /**
   * The entry counts as installed exactly when some record matches it by
   * identity, or its signature has a command and some record matches it
   * heuristically. In particular an identity match always wins, and without
   * a command only an identity match counts.
   */
  function IsMarketplaceInstalled(server: Json, installed: seq<McpServer>): (r: bool)
    ensures r <==>
              (exists i :: 0 <= i < |installed| && IdentityMatch(installed[i], server))
              || (CommandKnown(ExtractSignature(server))
                  && exists i :: 0 <= i < |installed| && HeuristicMatch(installed[i], server, ExtractSignature(server)))
    ensures (exists i :: 0 <= i < |installed| && IdentityMatch(installed[i], server)) ==> r
    ensures !CommandKnown(ExtractSignature(server)) ==>
              (r <==> exists i :: 0 <= i < |installed| && IdentityMatch(installed[i], server))
  {
    if Any(installed, s => IdentityMatch(s, server)) then
      true
    else
      var expected := ExtractSignature(server);
      if !CommandKnown(expected) then false
      else Any(installed, s => HeuristicMatch(s, server, expected))
  }

  /** A record that was installed before `marketplaceId` existed and matches heuristically. */
  predicate LegacyCandidate(s: McpServer, server: Json, sig: Signature) {
    !Truthy(MarketplaceId(s)) && HeuristicMatch(s, server, sig)
  }

  /**
   * The index of the first record without a `marketplaceId` that matches the
   * entry heuristically; none when the signature has no command.
   */
  function FindLegacyIndex(server: Json, installed: seq<McpServer>): (r: Option<nat>)
    ensures !CommandKnown(ExtractSignature(server)) ==> r.None?
    ensures r.Some? ==> r.value < |installed| && LegacyCandidate(installed[r.value], server, ExtractSignature(server))
    ensures r.Some? ==> forall j :: 0 <= j < r.value ==> !LegacyCandidate(installed[j], server, ExtractSignature(server))
    ensures CommandKnown(ExtractSignature(server)) ==>
              (r.None? <==> forall i :: 0 <= i < |installed| ==> !LegacyCandidate(installed[i], server, ExtractSignature(server)))
  {
    var expected := ExtractSignature(server);
    if !CommandKnown(expected) then None
    else FindIndex(installed, s => LegacyCandidate(s, server, expected))
  }

  /** `findLegacyInstalledCandidate`: the record at the first legacy index. */
  function FindLegacyInstalledCandidate(server: Json, installed: seq<McpServer>): (r: Option<McpServer>)
    ensures r.Some? <==> FindLegacyIndex(server, installed).Some?
    ensures r.Some? ==> r.value in installed && !Truthy(MarketplaceId(r.value))
    ensures r.Some? ==> r.value == installed[FindLegacyIndex(server, installed).value]
  {
    match FindLegacyIndex(server, installed)
    case None => None
    case Some(i) => Some(installed[i])
  }

  /** Whatever the legacy search finds also makes the entry count as installed. */
  /** A lone record without `marketplaceId` that matches heuristically is the candidate, and the entry counts as installed. */
  lemma LoneCandidateFound(server: Json, s: McpServer)
    requires CommandKnown(ExtractSignature(server)) && LegacyCandidate(s, server, ExtractSignature(server))
    ensures FindLegacyInstalledCandidate(server, [s]) == Some(s)
    ensures IsMarketplaceInstalled(server, [s])
  {
    CandidateIsInstalled(server, [s]);
  }

  lemma CandidateIsInstalled(server: Json, installed: seq<McpServer>)
    ensures FindLegacyInstalledCandidate(server, installed).Some? ==> IsMarketplaceInstalled(server, installed)
  {
    var r := FindLegacyIndex(server, installed);
    if r.Some? {
      assert HeuristicMatch(installed[r.value], server, ExtractSignature(server));
    }
  }
}

=== FILE: repository.dfy ===
/**
 * The server repository of the main process (`MarketplaceService`), as
 * transitions over the `servers` collection. The collection is a sequence of
 * documents in insertion order; a document is its `_id` (the 24-digit
 * lower-case hex text of its ObjectId) and its other fields. Every operation
 * first runs the connection prologue of the `Connection` module; the current
 * time and the id the driver generates for a new document are parameters.
 */
module Repository {
  import opened Basics
  import opened Json
  import opened Connection

  /**
   * A stored `MarketplaceServerDoc`: `oid` is `_id`, then the fields the
   * service knows (`Undefined` when absent), and in `extra` any other field a
   * request has set.
   */
  datatype Doc = Doc(
    oid: Option<string>,
    name: Json, description: Json, version: Json, author: Json, config: Json,
    createdAt: Json, updatedAt: Json, ownerId: Json, ownerEmail: Json, ownerName: Json,
    isPublic: Json, videoUrl: Json, instructions: Json, category: Json, website: Json,
    supportEmail: Json, developerInfo: Json, rating: Json, installCount: Json,
    repository: Json, tags: Json, readme: Json,
    extra: Fields)

  /** The names of the fields `Doc` keeps apart from `extra`. */
  const DocKeys: seq<string> :=
    ["name", "description", "version", "author", "config", "createdAt", "updatedAt", "ownerId", "ownerEmail",
     "ownerName", "isPublic", "videoUrl", "instructions", "category", "website", "supportEmail", "developerInfo",
     "rating", "installCount", "repository", "tags", "readme"]

  /** The fields `Doc` keeps apart, as a type of their own. */
  datatype Field =
    Name | Description | Version | Author | Config | CreatedAt | UpdatedAt | OwnerId | OwnerEmail |
    OwnerName | IsPublic | VideoUrl | Instructions | Category | Website | SupportEmail | DeveloperInfo |
    Rating | InstallCount | Repository | Tags | Readme

  /** The name a field has in the collection and in a request body. */
  function FieldName(f: Field): (r: string)
    ensures r in DocKeys
  {
    match f
    case Name => "name"
    case Description => "description"
    case Version => "version"
    case Author => "author"
    case Config => "config"
    case CreatedAt => "createdAt"
    case UpdatedAt => "updatedAt"
    case OwnerId => "ownerId"
    case OwnerEmail => "ownerEmail"
    case OwnerName => "ownerName"
    case IsPublic => "isPublic"
    case VideoUrl => "videoUrl"
    case Instructions => "instructions"
    case Category => "category"
    case Website => "website"
    case SupportEmail => "supportEmail"
    case DeveloperInfo => "developerInfo"
    case Rating => "rating"
    case InstallCount => "installCount"
    case Repository => "repository"
    case Tags => "tags"
    case Readme => "readme"
  }

  /** `doc[FieldName(f)]` */
  function Get(d: Doc, f: Field): Json {
    match f
    case Name => d.name
    case Description => d.description
    case Version => d.version
    case Author => d.author
    case Config => d.config
    case CreatedAt => d.createdAt
    case UpdatedAt => d.updatedAt
    case OwnerId => d.ownerId
    case OwnerEmail => d.ownerEmail
    case OwnerName => d.ownerName
    case IsPublic => d.isPublic
    case VideoUrl => d.videoUrl
    case Instructions => d.instructions
    case Category => d.category
    case Website => d.website
    case SupportEmail => d.supportEmail
    case DeveloperInfo => d.developerInfo
    case Rating => d.rating
    case InstallCount => d.installCount
    case Repository => d.repository
    case Tags => d.tags
    case Readme => d.readme
  }

  type Docs = seq<Doc>

  /** The service: its connection flags and the collection behind them. */
  datatype Service = Service(conn: Conn, docs: Docs)

  /** The service after an operation, and what the operation returned or threw. */
  datatype Reply<+T> = Reply(svc: Service, out: Result<T>)

  // ---------------------------------------------------------------------------
  // Document ids
  // ---------------------------------------------------------------------------

  predicate IsHexDigit(c: char) {
    '0' <= c <= '9' || 'a' <= c <= 'f' || 'A' <= c <= 'F'
  }

  /** The strings `new ObjectId(s)` accepts: 24 hexadecimal digits. */
  predicate IsObjectIdText(s: string) {
    |s| == 24 && forall i :: 0 <= i < |s| ==> IsHexDigit(s[i])
  }

  function LowerChar(c: char): char {
    if 'A' <= c <= 'Z' then (c as int + 32) as char else c
  }

  /** The hex text of the ObjectId a valid id string denotes: its digits in lower case. */
  function ToLower(s: string): (r: string)
    ensures |r| == |s|
    ensures forall i :: 0 <= i < |s| ==> r[i] == LowerChar(s[i])
  {
    seq(|s|, i requires 0 <= i < |s| => LowerChar(s[i]))
  }

  /** The form `_id.toString()` takes: 24 lower-case hexadecimal digits. */
  predicate IsCanonicalId(s: string) {
    IsObjectIdText(s) && ToLower(s) == s
  }

  /** A stored document: a canonical id, and extra fields with distinct names that `Doc` does not keep apart. */
  predicate WellFormedDoc(d: Doc) {
    && d.oid.Some? && IsCanonicalId(d.oid.value)
    && DistinctKeys(d.extra)
    && forall k :: HasKey(d.extra, k) ==> k !in DocKeys
  }

  /** What the collection guarantees: well-formed documents with unique ids. */
  predicate WellFormed(docs: Docs) {
    && (forall i :: 0 <= i < |docs| ==> WellFormedDoc(docs[i]))
    && (forall i, j :: 0 <= i < j < |docs| ==> docs[i].oid != docs[j].oid)
  }

  /** `findOne({ _id: new ObjectId(serverId) })` for a valid `serverId`: the position of that document. */
  function Find(docs: Docs, serverId: string): (r: Option<nat>)
    ensures r.Some? ==> r.value < |docs| && docs[r.value].oid == Some(ToLower(serverId))
    ensures r.Some? ==> forall j :: 0 <= j < r.value ==> docs[j].oid != Some(ToLower(serverId))
    ensures r.None? <==> forall i :: 0 <= i < |docs| ==> docs[i].oid != Some(ToLower(serverId))
  {
    FindIndex(docs, (d: Doc) => d.oid == Some(ToLower(serverId)))
  }

  /** In a well-formed collection a document is found exactly by its own id, in either case. */
  lemma FindOwnId(docs: Docs, i: nat, serverId: string)
    requires WellFormed(docs) && i < |docs| && Some(ToLower(serverId)) == docs[i].oid
    ensures Find(docs, serverId) == Some(i)
  {
  }

  // ---------------------------------------------------------------------------
  // Sorting on `createdAt`, newest first
  // ---------------------------------------------------------------------------

  /**
   * Where a `createdAt` value falls in MongoDB's sort order: first by BSON
   * type (missing and `null`, numbers, strings, objects, arrays, booleans),
   * then by value. Strings compare by code point, which is the order of
   * their UTF-8 bytes. Objects and arrays are not compared by content: all
   * objects share one key, and so do all arrays.
   */
  datatype SortKey = SortKey(rank: nat, num: int, text: string)

  function KeyOf(v: Json): SortKey {
    match v
    case Undefined => SortKey(0, 0, "")
    case Null => SortKey(0, 0, "")
    case Num(n) => SortKey(1, n, "")
    case Str(s) => SortKey(2, 0, s)
    case Obj(_) => SortKey(3, 0, "")
    case Arr(_) => SortKey(4, 0, "")
    case Bool(b) => SortKey(5, if b then 1 else 0, "")
  }

  function CreatedKey(d: Doc): SortKey {
    KeyOf(d.createdAt)
  }

  /** Lexicographic order on strings. */
  predicate TextLe(a: string, b: string)
    decreases |a|
  {
    |a| == 0 || (|b| > 0 && (a[0] < b[0] || (a[0] == b[0] && TextLe(a[1..], b[1..]))))
  }

  lemma {:induction false} TextLeTotal(a: string, b: string)
    ensures TextLe(a, b) || TextLe(b, a)
    decreases |a|
  {
    if |a| > 0 && |b| > 0 && a[0] == b[0] {
      TextLeTotal(a[1..], b[1..]);
    }
  }

  lemma {:induction false} TextLeTrans(a: string, b: string, c: string)
    requires TextLe(a, b) && TextLe(b, c)
    ensures TextLe(a, c)
    decreases |a|
  {
    if |a| > 0 && a[0] == b[0] && b[0] == c[0] {
      TextLeTrans(a[1..], b[1..], c[1..]);
    }
  }

  predicate KeyLe(a: SortKey, b: SortKey) {
    a.rank < b.rank || (a.rank == b.rank && (a.num < b.num || (a.num == b.num && TextLe(a.text, b.text))))
  }

  lemma KeyLeTotal(a: SortKey, b: SortKey)
    ensures KeyLe(a, b) || KeyLe(b, a)
  {
    TextLeTotal(a.text, b.text);
  }

  lemma KeyLeTrans(a: SortKey, b: SortKey, c: SortKey)
    requires KeyLe(a, b) && KeyLe(b, c)
    ensures KeyLe(a, c)
  {
    if a.rank == b.rank == c.rank && a.num == b.num == c.num {
      TextLeTrans(a.text, b.text, c.text);
    }
  }

  /** `sort({ createdAt: -1 })` has been applied: no document is newer than one before it. */
  predicate NewestFirst(docs: Docs) {
    forall i, j :: 0 <= i < j < |docs| ==> KeyLe(CreatedKey(docs[j]), CreatedKey(docs[i]))
  }

  /** Every document of `s` is at most as new as `d`. */
  predicate NoneNewer(s: Docs, d: Doc) {
    forall x :: x in s ==> KeyLe(CreatedKey(x), CreatedKey(d))
  }

  lemma ConsNewestFirst(d: Doc, s: Docs)
    requires NewestFirst(s) && NoneNewer(s, d)
    ensures NewestFirst([d] + s)
  {
    var r := [d] + s;
    forall i, j | 0 <= i < j < |r| ensures KeyLe(CreatedKey(r[j]), CreatedKey(r[i])) {
      assert r[j] == s[j - 1];
      if i > 0 {
        assert r[i] == s[i - 1];
      }
    }
  }

  lemma TailNewestFirst(s: Docs)
    requires |s| > 0 && NewestFirst(s)
    ensures NewestFirst(s[1..]) && NoneNewer(s[1..], s[0])
  {
    var t := s[1..];
    forall i, j | 0 <= i < j < |t| ensures KeyLe(CreatedKey(t[j]), CreatedKey(t[i])) {
      assert t[i] == s[i + 1] && t[j] == s[j + 1];
    }
    forall x | x in t ensures KeyLe(CreatedKey(x), CreatedKey(s[0])) {
      var k :| 0 <= k < |t| && t[k] == x;
      assert s[k + 1] == x;
    }
  }

  /** Puts `d` before the first document that is not strictly newer. */
  function InsertByAge(d: Doc, s: Docs): (r: Docs)
    ensures multiset(r) == multiset(s) + multiset{d}
  {
    if |s| == 0 then [d]
    else if KeyLe(CreatedKey(s[0]), CreatedKey(d)) then [d] + s
    else
      assert s == [s[0]] + s[1..];
      [s[0]] + InsertByAge(d, s[1..])
  }

  lemma {:induction false} InsertKeepsOrder(d: Doc, s: Docs)
    requires NewestFirst(s)
    ensures NewestFirst(InsertByAge(d, s))
  {
    if |s| == 0 {
    } else if KeyLe(CreatedKey(s[0]), CreatedKey(d)) {
      TailNewestFirst(s);
      forall x | x in s ensures KeyLe(CreatedKey(x), CreatedKey(d)) {
        if x != s[0] {
          assert x in s[1..] by {
            var k :| 0 <= k < |s| && s[k] == x;
            assert s[1..][k - 1] == x;
          }
          KeyLeTrans(CreatedKey(x), CreatedKey(s[0]), CreatedKey(d));
        }
      }
      ConsNewestFirst(d, s);
    } else {
      KeyLeTotal(CreatedKey(s[0]), CreatedKey(d));
      TailNewestFirst(s);
      InsertKeepsOrder(d, s[1..]);
      var rest := InsertByAge(d, s[1..]);
      forall x | x in rest ensures KeyLe(CreatedKey(x), CreatedKey(s[0])) {
        assert x in multiset(rest);
      }
      ConsNewestFirst(s[0], rest);
    }
  }

  /** `sort({ createdAt: -1 })`, keeping documents with equal keys in collection order. */
  function SortNewest(docs: Docs): (r: Docs)
    ensures multiset(r) == multiset(docs)
    ensures |r| == |docs|
    ensures NewestFirst(r)
  {
    if |docs| == 0 then []
    else
      var rest := SortNewest(docs[1..]);
      assert docs == [docs[0]] + docs[1..];
      InsertKeepsOrder(docs[0], rest);
      var r := InsertByAge(docs[0], rest);
      assert |r| == |multiset(r)|;
      r
  }

  // ---------------------------------------------------------------------------
  // docToServer
  // ---------------------------------------------------------------------------

  /** A `MarketplaceServer`, as the API returns it. */
  datatype Server = Server(
    id: string,
    name: Json, description: Json, version: Json, author: Json, config: Json,
    createdAt: Json, updatedAt: Json, ownerId: Json, ownerEmail: Json, ownerName: Json,
    isPublic: Json, videoUrl: Json, instructions: Json, category: Json, website: Json,
    supportEmail: Json, developerInfo: Json, rating: Json, installCount: Json,
    repository: Json, tags: Json, readme: Json)

  /** `doc._id?.toString() || ''` */
  function IdText(oid: Option<string>): string {
    match oid
    case Some(s) => s
    case None => ""
  }

  /**
   * `docToServer`: the id as text (empty without `_id`), `isPublic`
   * defaulting to true and `installCount` to 0, the other known fields
   * copied, and nothing of the fields it does not know.
   */
  function DocToServer(d: Doc): (r: Server)
    ensures r.id == IdText(d.oid)
    ensures d.oid.None? ==> r.id == ""
    ensures r.isPublic == Nullish(d.isPublic, Bool(true)) && !IsNullish(r.isPublic)
    ensures r.installCount == Nullish(d.installCount, Num(0)) && !IsNullish(r.installCount)
    ensures r.createdAt == d.createdAt && r.ownerId == d.ownerId && r.name == d.name && r.config == d.config
    ensures r.description == d.description && r.version == d.version && r.author == d.author
    ensures r.updatedAt == d.updatedAt && r.ownerEmail == d.ownerEmail && r.ownerName == d.ownerName
    ensures r.videoUrl == d.videoUrl && r.instructions == d.instructions && r.category == d.category
    ensures r.website == d.website && r.supportEmail == d.supportEmail && r.developerInfo == d.developerInfo
    ensures r.rating == d.rating && r.repository == d.repository && r.tags == d.tags && r.readme == d.readme
  {
    Server(
      IdText(d.oid), d.name, d.description, d.version, d.author, d.config,
      d.createdAt, d.updatedAt, d.ownerId, d.ownerEmail, d.ownerName,
      Nullish(d.isPublic, Bool(true)), d.videoUrl, d.instructions, d.category, d.website,
      d.supportEmail, d.developerInfo, d.rating, Nullish(d.installCount, Num(0)),
      d.repository, d.tags, d.readme)
  }

  /** Fields outside the known ones never reach a client. */
  lemma ExtraFieldsHidden(d: Doc, extra: Fields)
    ensures DocToServer(d.(extra := extra)) == DocToServer(d)
  {
  }

  /** A newest-first list of servers. */
  predicate ServersNewestFirst(servers: seq<Server>) {
    forall i, j :: 0 <= i < j < |servers| ==> KeyLe(KeyOf(servers[j].createdAt), KeyOf(servers[i].createdAt))
  }

  /** `docs.map(doc => this.docToServer(doc))`, which keeps a newest-first order. */
  function ToServers(docs: Docs): (r: seq<Server>)
    ensures |r| == |docs|
    ensures forall i :: 0 <= i < |docs| ==> r[i] == DocToServer(docs[i])
    ensures NewestFirst(docs) ==> ServersNewestFirst(r)
  {
    Map(docs, DocToServer)
  }

  // ---------------------------------------------------------------------------
  // Queries
  // ---------------------------------------------------------------------------

  /** `{ isPublic: { $ne: false } }`: every document whose `isPublic` is not `false`, missing included. */
  predicate IsListed(d: Doc) {
    d.isPublic != Bool(false)
  }

  /** `{ ownerId }` */
  predicate OwnedBy(d: Doc, ownerId: string) {
    d.ownerId == Str(ownerId)
  }

  lemma ListedNone(docs: Docs)
    ensures |Filter(docs, IsListed)| == 0 <==> forall i :: 0 <= i < |docs| ==> !IsListed(docs[i])
  {
    var listed := Filter(docs, IsListed);
    if |listed| > 0 {
      assert listed[0] in docs;
    }
    if exists i :: 0 <= i < |docs| && IsListed(docs[i]) {
      var i :| 0 <= i < |docs| && IsListed(docs[i]);
      assert docs[i] in listed;
    }
  }

  /**
   * The documents `getAllServers` returns, newest first: the listed ones, or
   * every document when none is listed.
   */
  function PublicDocs(docs: Docs): (r: Docs)
    ensures NewestFirst(r)
    ensures (exists i :: 0 <= i < |docs| && IsListed(docs[i])) ==>
              forall d :: multiset(r)[d] == if IsListed(d) then multiset(docs)[d] else 0
    ensures (forall i :: 0 <= i < |docs| ==> !IsListed(docs[i])) ==> multiset(r) == multiset(docs)
  {
    var listed := Filter(docs, IsListed);
    ListedNone(docs);
    if |listed| == 0 && |docs| > 0 then SortNewest(docs) else SortNewest(listed)
  }

  /** `getAllServers` */
  function GetAllServers(svc: Service, drv: Driver): (r: Reply<seq<Server>>)
    ensures r.svc == Service(Ready(svc.conn, drv).0, svc.docs)
    ensures r.out.Err? <==> Ready(svc.conn, drv).1.Err?
    ensures r.out.Ok? ==> r.out.value == ToServers(PublicDocs(svc.docs)) && ServersNewestFirst(r.out.value)
  {
    var (conn, ready) := Ready(svc.conn, drv);
    if ready.Err? then Reply(Service(conn, svc.docs), Err(ready.message))
    else Reply(Service(conn, svc.docs), Ok(ToServers(PublicDocs(svc.docs))))
  }

  /** The documents `getMyServers(ownerId)` returns: exactly the owner's, newest first. */
  function OwnedDocs(docs: Docs, ownerId: string): (r: Docs)
    ensures NewestFirst(r)
    ensures forall d :: multiset(r)[d] == if OwnedBy(d, ownerId) then multiset(docs)[d] else 0
  {
    SortNewest(Filter(docs, (d: Doc) => OwnedBy(d, ownerId)))
  }

  /** `getMyServers` */
  function GetMyServers(svc: Service, drv: Driver, ownerId: string): (r: Reply<seq<Server>>)
    ensures r.svc == Service(Ready(svc.conn, drv).0, svc.docs)
    ensures r.out.Err? <==> Ready(svc.conn, drv).1.Err?
    ensures r.out.Ok? ==> r.out.value == ToServers(OwnedDocs(svc.docs, ownerId)) && ServersNewestFirst(r.out.value)
  {
    var (conn, ready) := Ready(svc.conn, drv);
    if ready.Err? then Reply(Service(conn, svc.docs), Err(ready.message))
    else Reply(Service(conn, svc.docs), Ok(ToServers(OwnedDocs(svc.docs, ownerId))))
  }

  const FetchFailedPrefix: string := "Failed to fetch server: "

  /** `getServerById`: `None` is the `null` for an unknown id; a malformed id throws. */
  function GetServerById(svc: Service, drv: Driver, serverId: string): (r: Reply<Option<Server>>)
    ensures r.svc == Service(Ready(svc.conn, drv).0, svc.docs)
    ensures Ready(svc.conn, drv).1.Err? ==> r.out == Ready(svc.conn, drv).1.PropagateFailure()
    ensures Ready(svc.conn, drv).1.Ok? && !IsObjectIdText(serverId) ==> r.out == Err(FetchFailedPrefix + drv.idError)
    ensures r.out.Ok? <==> Ready(svc.conn, drv).1.Ok? && IsObjectIdText(serverId)
    ensures r.out.Ok? && r.out.value.None? ==> forall i :: 0 <= i < |svc.docs| ==> svc.docs[i].oid != Some(ToLower(serverId))
    ensures r.out.Ok? && r.out.value.Some? ==>
              exists i :: 0 <= i < |svc.docs| && svc.docs[i].oid == Some(ToLower(serverId))
                          && r.out.value.value == DocToServer(svc.docs[i])
  {
    var (conn, ready) := Ready(svc.conn, drv);
    if ready.Err? then Reply(Service(conn, svc.docs), Err(ready.message))
    else if !IsObjectIdText(serverId) then Reply(Service(conn, svc.docs), Err(FetchFailedPrefix + drv.idError))
    else
      match Find(svc.docs, serverId)
      case None => Reply(Service(conn, svc.docs), Ok(None))
      case Some(i) => Reply(Service(conn, svc.docs), Ok(Some(DocToServer(svc.docs[i]))))
  }

  // ---------------------------------------------------------------------------
  // createServer
  // ---------------------------------------------------------------------------

  /** BSON has no `undefined`: the driver stores a field holding it as `null`. */
  function Stored(v: Json): (r: Json)
    ensures r != Undefined
    ensures v != Undefined ==> r == v
  {
    if v == Undefined then Null else v
  }

  /**
   * The document `createServer` inserts under the id the driver generated:
   * creation and update time `now`, no installs, public unless the request
   * says otherwise, a name and a config even when the request has none, the
   * owner from the caller, and only the listed fields of the request (not
   * its `rating`, nor any field the service does not know).
   */
  function NewDocument(data: Fields, ownerId: string, ownerEmail: Json, ownerName: Json, now: string, newId: string): (d: Doc)
    ensures d.oid == Some(newId)
    ensures d.createdAt == Str(now) && d.updatedAt == Str(now)
    ensures d.installCount == Num(0)
    ensures d.ownerId == Str(ownerId)
    ensures d.isPublic == Nullish(Lookup(data, "isPublic"), Bool(true))
    ensures d.name == Or(Lookup(data, "name"), Str("")) && d.config == Or(Lookup(data, "config"), Obj([]))
    ensures d.ownerEmail == Stored(ownerEmail) && d.ownerName == Stored(ownerName)
    ensures d.description == Stored(Lookup(data, "description"))
    ensures d.version == Stored(Lookup(data, "version")) && d.author == Stored(Lookup(data, "author"))
    ensures d.videoUrl == Stored(Lookup(data, "videoUrl")) && d.instructions == Stored(Lookup(data, "instructions"))
    ensures d.category == Stored(Lookup(data, "category")) && d.website == Stored(Lookup(data, "website"))
    ensures d.supportEmail == Stored(Lookup(data, "supportEmail"))
    ensures d.developerInfo == Stored(Lookup(data, "developerInfo"))
    ensures d.repository == Stored(Lookup(data, "repository")) && d.tags == Stored(Lookup(data, "tags"))
    ensures d.readme == Stored(Lookup(data, "readme"))
    ensures d.rating == Undefined && d.extra == []
  {
    Doc(
      Some(newId),
      Or(Lookup(data, "name"), Str("")),
      Stored(Lookup(data, "description")),
      Stored(Lookup(data, "version")),
      Stored(Lookup(data, "author")),
      Or(Lookup(data, "config"), Obj([])),
      Str(now), Str(now),
      Str(ownerId), Stored(ownerEmail), Stored(ownerName),
      Nullish(Lookup(data, "isPublic"), Bool(true)),
      Stored(Lookup(data, "videoUrl")),
      Stored(Lookup(data, "instructions")),
      Stored(Lookup(data, "category")),
      Stored(Lookup(data, "website")),
      Stored(Lookup(data, "supportEmail")),
      Stored(Lookup(data, "developerInfo")),
      Undefined,
      Num(0),
      Stored(Lookup(data, "repository")),
      Stored(Lookup(data, "tags")),
      Stored(Lookup(data, "readme")),
      [])
  }

  /** `createServer`: inserts the new document and returns it as a server. */
  function CreateServer(svc: Service, drv: Driver, data: Fields, ownerId: string, ownerEmail: Json, ownerName: Json,
                        now: string, newId: string): (r: Reply<Server>)
    requires IsCanonicalId(newId) && forall i :: 0 <= i < |svc.docs| ==> svc.docs[i].oid != Some(newId)
    ensures r.svc.conn == Ready(svc.conn, drv).0
    ensures r.out.Err? <==> Ready(svc.conn, drv).1.Err?
    ensures r.out.Err? ==> r.svc.docs == svc.docs
    ensures r.out.Ok? ==>
              var d := NewDocument(data, ownerId, ownerEmail, ownerName, now, newId);
              r.svc.docs == svc.docs + [d] && r.out.value == DocToServer(d)
  {
    var (conn, ready) := Ready(svc.conn, drv);
    if ready.Err? then Reply(Service(conn, svc.docs), Err(ready.message))
    else
      var d := NewDocument(data, ownerId, ownerEmail, ownerName, now, newId);
      Reply(Service(conn, svc.docs + [d]), Ok(DocToServer(d)))
  }

  /** What a client sees of a server it has just created. */
  lemma CreatedServerView(data: Fields, ownerId: string, ownerEmail: Json, ownerName: Json, now: string, newId: string)
    ensures var v := DocToServer(NewDocument(data, ownerId, ownerEmail, ownerName, now, newId));
            && v.id == newId
            && v.installCount == Num(0)
            && v.ownerId == Str(ownerId)
            && v.createdAt == Str(now) && v.updatedAt == Str(now)
            && v.isPublic == Nullish(Lookup(data, "isPublic"), Bool(true))
            && v.name == Or(Lookup(data, "name"), Str("")) && v.config == Or(Lookup(data, "config"), Obj([]))
            && v.ownerEmail == Stored(ownerEmail) && v.ownerName == Stored(ownerName)
            && v.description == Stored(Lookup(data, "description"))
            && v.rating == Undefined
  {
  }

  // ---------------------------------------------------------------------------
  // updateServer and deleteServer
  // ---------------------------------------------------------------------------

  const NotFoundMessage: string := "Server not found"
  const UpdateFailedPrefix: string := "Failed to update server: "
  const UpdateDeniedMessage: string := "You do not have permission to update this server"
  const DeleteFailedPrefix: string := "Failed to delete server: "
  const DeleteDeniedMessage: string := "You do not have permission to delete this server"

  /** `existing.ownerId && existing.ownerId !== ownerId` is false: ownerless, or owned by the caller. */
  predicate MayChange(d: Doc, caller: string) {
    !Truthy(d.ownerId) || d.ownerId == Str(caller)
  }

  /** The fields of a request that `Doc` does not keep apart, without the undefined ones. */
  function ExtraOf(patch: Fields): (r: Fields)
    ensures forall k :: HasKey(r, k) ==> HasKey(patch, k) && k !in DocKeys
    ensures forall k :: HasKey(r, k) <==> Lookup(r, k) != Undefined
    ensures DistinctKeys(patch) ==> DistinctKeys(r)
    ensures DistinctKeys(patch) ==> forall k :: Lookup(r, k) == if k in DocKeys then Undefined else Lookup(patch, k)
  {
    if |patch| == 0 then []
    else
      var rest := ExtraOf(patch[1..]);
      var keep := patch[0].0 !in DocKeys && patch[0].1 != Undefined;
      var r := if keep then [patch[0]] + rest else rest;
      assert forall k :: HasKey(r, k) ==> HasKey(patch, k) && k !in DocKeys by {
        forall k | HasKey(r, k) ensures HasKey(patch, k) && k !in DocKeys {
          HasKeyCons(patch, k);
          if keep {
            HasKeyCons(r, k);
            assert r[1..] == rest;
          }
        }
      }
      assert forall k :: HasKey(r, k) <==> Lookup(r, k) != Undefined by {
        forall k ensures HasKey(r, k) <==> Lookup(r, k) != Undefined {
          if keep {
            HasKeyCons(r, k);
            assert r[1..] == rest;
          }
        }
      }
      assert DistinctKeys(patch) ==> DistinctKeys(r) && forall k :: Lookup(r, k) == if k in DocKeys then Undefined else Lookup(patch, k) by {
        if DistinctKeys(patch) {
          DistinctTail(patch);
          if keep {
            DistinctCons(patch[0], rest);
            assert r[1..] == rest;
          }
        }
      }
      r
  }

  /** The value `$set` leaves in a field: the request's, when it defines one. */
  function Patched(patch: Fields, k: string, current: Json): Json {
    if Lookup(patch, k) != Undefined then Lookup(patch, k) else current
  }

  /**
   * `$set` with `{ ...serverData, updatedAt }` minus its undefined fields:
   * `updatedAt` becomes `now`, every field the request defines takes the
   * request's value, and every other field is kept.
   */
  function UpdatedDoc(d: Doc, patch: Fields, now: string): (r: Doc)
    requires DistinctKeys(patch)
    ensures r.oid == d.oid
    ensures r.updatedAt == Str(now)
  {
    var extra := ExtraOf(patch);
    d.(
      name := Patched(patch, "name", d.name),
      description := Patched(patch, "description", d.description),
      version := Patched(patch, "version", d.version),
      author := Patched(patch, "author", d.author),
      config := Patched(patch, "config", d.config),
      createdAt := Patched(patch, "createdAt", d.createdAt),
      updatedAt := Str(now),
      ownerId := Patched(patch, "ownerId", d.ownerId),
      ownerEmail := Patched(patch, "ownerEmail", d.ownerEmail),
      ownerName := Patched(patch, "ownerName", d.ownerName),
      isPublic := Patched(patch, "isPublic", d.isPublic),
      videoUrl := Patched(patch, "videoUrl", d.videoUrl),
      instructions := Patched(patch, "instructions", d.instructions),
      category := Patched(patch, "category", d.category),
      website := Patched(patch, "website", d.website),
      supportEmail := Patched(patch, "supportEmail", d.supportEmail),
      developerInfo := Patched(patch, "developerInfo", d.developerInfo),
      rating := Patched(patch, "rating", d.rating),
      installCount := Patched(patch, "installCount", d.installCount),
      repository := Patched(patch, "repository", d.repository),
      tags := Patched(patch, "tags", d.tags),
      readme := Patched(patch, "readme", d.readme),
      extra := Merge(d.extra, extra))
  }

  /** Every known field the request defines takes its value; every other one is kept, except `updatedAt`. */
  lemma UpdatedFields(d: Doc, patch: Fields, now: string)
    requires DistinctKeys(patch)
    ensures forall f :: Get(UpdatedDoc(d, patch, now), f) == if f == UpdatedAt then Str(now) else Patched(patch, FieldName(f), Get(d, f))
  {
    var r := UpdatedDoc(d, patch, now);
    forall f ensures Get(r, f) == if f == UpdatedAt then Str(now) else Patched(patch, FieldName(f), Get(d, f)) {
      match f
      case Name =>
      case Description =>
      case Version =>
      case Author =>
      case Config =>
      case CreatedAt =>
      case UpdatedAt =>
      case OwnerId =>
      case OwnerEmail =>
      case OwnerName =>
      case IsPublic =>
      case VideoUrl =>
      case Instructions =>
      case Category =>
      case Website =>
      case SupportEmail =>
      case DeveloperInfo =>
      case Rating =>
      case InstallCount =>
      case Repository =>
      case Tags =>
      case Readme =>
    }
  }

  /** The same for the fields `Doc` does not keep apart: the request's value when it defines one, else the old one. */
  lemma UpdatedExtra(d: Doc, patch: Fields, now: string)
    requires DistinctKeys(patch)
    ensures forall k :: k !in DocKeys ==> Lookup(UpdatedDoc(d, patch, now).extra, k) == Patched(patch, k, Lookup(d.extra, k))
  {
    var extra := ExtraOf(patch);
    assert UpdatedDoc(d, patch, now).extra == Merge(d.extra, extra);
  }

  /** `updateServer` on the collection itself, once connected. */
  function Update(docs: Docs, serverId: string, patch: Fields, caller: string, now: string, idError: string): (r: (Docs, Result<Server>))
    requires DistinctKeys(patch)
    ensures !IsObjectIdText(serverId) ==> r == (docs, Err(UpdateFailedPrefix + idError))
    ensures IsObjectIdText(serverId) && Find(docs, serverId).None? ==> r == (docs, Err(UpdateFailedPrefix + NotFoundMessage))
    ensures IsObjectIdText(serverId) && Find(docs, serverId).Some? && !MayChange(docs[Find(docs, serverId).value], caller) ==>
              r == (docs, Err(UpdateFailedPrefix + UpdateDeniedMessage))
    ensures r.1.Ok? <==>
              IsObjectIdText(serverId) && Find(docs, serverId).Some? && MayChange(docs[Find(docs, serverId).value], caller)
    ensures r.1.Err? ==> r.0 == docs
    ensures r.1.Ok? ==>
              var i := Find(docs, serverId).value;
              var d := UpdatedDoc(docs[i], patch, now);
              r.0 == docs[i := d] && r.1.value == DocToServer(d)
  {
    if !IsObjectIdText(serverId) then (docs, Err(UpdateFailedPrefix + idError))
    else
      match Find(docs, serverId)
      case None => (docs, Err(UpdateFailedPrefix + NotFoundMessage))
      case Some(i) =>
        if !MayChange(docs[i], caller) then (docs, Err(UpdateFailedPrefix + UpdateDeniedMessage))
        else
          var d := UpdatedDoc(docs[i], patch, now);
          (docs[i := d], Ok(DocToServer(d)))
  }

  /** `updateServer` */
  function UpdateServer(svc: Service, drv: Driver, serverId: string, patch: Fields, caller: string, now: string): (r: Reply<Server>)
    requires DistinctKeys(patch)
    ensures r.svc.conn == Ready(svc.conn, drv).0
    ensures Ready(svc.conn, drv).1.Err? ==> r.svc.docs == svc.docs && r.out == Ready(svc.conn, drv).1.PropagateFailure()
    ensures Ready(svc.conn, drv).1.Ok? ==> (r.svc.docs, r.out) == Update(svc.docs, serverId, patch, caller, now, drv.idError)
  {
    var (conn, ready) := Ready(svc.conn, drv);
    if ready.Err? then Reply(Service(conn, svc.docs), Err(ready.message))
    else
      var (docs, out) := Update(svc.docs, serverId, patch, caller, now, drv.idError);
      Reply(Service(conn, docs), out)
  }

  /**
   * The request body replaces `ownerId` like any other field: whoever may
   * change a server can hand it to anyone.
   */
  lemma UpdateCanChangeOwner(docs: Docs, serverId: string, caller: string, now: string, newOwner: string, idError: string)
    requires IsObjectIdText(serverId) && Find(docs, serverId).Some?
    requires MayChange(docs[Find(docs, serverId).value], caller)
    ensures var r := Update(docs, serverId, [("ownerId", Str(newOwner))], caller, now, idError);
            && r.1.Ok?
            && r.0[Find(docs, serverId).value].ownerId == Str(newOwner)
  {
    var patch := [("ownerId", Str(newOwner))];
    assert Lookup(patch, "ownerId") == Str(newOwner);
  }

  /** `deleteServer` on the collection itself, once connected. */
  function Delete(docs: Docs, serverId: string, caller: string, idError: string): (r: (Docs, Result<()>))
    ensures !IsObjectIdText(serverId) ==> r == (docs, Err(DeleteFailedPrefix + idError))
    ensures IsObjectIdText(serverId) && Find(docs, serverId).None? ==> r == (docs, Err(DeleteFailedPrefix + NotFoundMessage))
    ensures IsObjectIdText(serverId) && Find(docs, serverId).Some? && !MayChange(docs[Find(docs, serverId).value], caller) ==>
              r == (docs, Err(DeleteFailedPrefix + DeleteDeniedMessage))
    ensures r.1.Ok? <==>
              IsObjectIdText(serverId) && Find(docs, serverId).Some? && MayChange(docs[Find(docs, serverId).value], caller)
    ensures r.1.Ok? ==>
              var i := Find(docs, serverId).value;
              r.0 == docs[..i] + docs[i + 1..]
  {
    if !IsObjectIdText(serverId) then (docs, Err(DeleteFailedPrefix + idError))
    else
      match Find(docs, serverId)
      case None => (docs, Err(DeleteFailedPrefix + NotFoundMessage))
      case Some(i) =>
        if !MayChange(docs[i], caller) then (docs, Err(DeleteFailedPrefix + DeleteDeniedMessage))
        else (docs[..i] + docs[i + 1..], Ok(()))
  }

  /** `deleteServer` */
  function DeleteServer(svc: Service, drv: Driver, serverId: string, caller: string): (r: Reply<()>)
    ensures r.svc.conn == Ready(svc.conn, drv).0
    ensures Ready(svc.conn, drv).1.Err? ==> r.svc.docs == svc.docs && r.out == Ready(svc.conn, drv).1.PropagateFailure()
    ensures Ready(svc.conn, drv).1.Ok? ==> (r.svc.docs, r.out) == Delete(svc.docs, serverId, caller, drv.idError)
  {
    var (conn, ready) := Ready(svc.conn, drv);
    if ready.Err? then Reply(Service(conn, svc.docs), Err(ready.message))
    else
      var (docs, out) := Delete(svc.docs, serverId, caller, drv.idError);
      Reply(Service(conn, docs), out)
  }

  /** Removing one position keeps the ids of a collection unique and its documents well formed. */
  lemma RemoveKeepsWellFormed(docs: Docs, i: nat)
    requires WellFormed(docs) && i < |docs|
    ensures WellFormed(docs[..i] + docs[i + 1..])
  {
    var r := docs[..i] + docs[i + 1..];
    forall a | 0 <= a < |r| ensures r[a] == docs[if a < i then a else a + 1] {
    }
  }

  /** A successful delete removes exactly the document with that id and keeps the others. */
  lemma DeleteRemovesOnlyThatId(docs: Docs, serverId: string, caller: string, idError: string)
    requires WellFormed(docs)
    requires Delete(docs, serverId, caller, idError).1.Ok?
    ensures var r := Delete(docs, serverId, caller, idError).0;
            && |r| == |docs| - 1
            && (forall j :: 0 <= j < |r| ==> r[j].oid != Some(ToLower(serverId)))
            && (forall d :: d in docs && d.oid != Some(ToLower(serverId)) ==> d in r)
            && WellFormed(r)
  {
    var i := Find(docs, serverId).value;
    var r := docs[..i] + docs[i + 1..];
    RemoveKeepsWellFormed(docs, i);
    forall j | 0 <= j < |r| ensures r[j].oid != Some(ToLower(serverId)) {
      assert r[j] == docs[if j < i then j else j + 1];
    }
    forall d | d in docs && d.oid != Some(ToLower(serverId)) ensures d in r {
      var k :| 0 <= k < |docs| && docs[k] == d;
      assert r[if k < i then k else k - 1] == d;
    }
  }

  // ---------------------------------------------------------------------------
  // trackInstall and trackUninstall
  // ---------------------------------------------------------------------------

  /**
   * `$inc: { installCount: delta }` on one document: a missing counter starts
   * from 0, a number moves by `delta` with no lower bound, and any other
   * value makes the update fail, which the service ignores.
   */
  function IncrementDoc(d: Doc, delta: int): (r: Doc)
    ensures d.installCount.Num? ==> r == d.(installCount := Num(d.installCount.n + delta))
    ensures d.installCount == Undefined ==> r == d.(installCount := Num(delta))
    ensures !d.installCount.Num? && d.installCount != Undefined ==> r == d
  {
    match d.installCount
    case Undefined => d.(installCount := Num(delta))
    case Num(n) => d.(installCount := Num(n + delta))
    case _ => d
  }

  /** The counter update on the collection: a malformed or unknown id changes nothing. */
  function Increment(docs: Docs, serverId: string, delta: int): (r: Docs)
    ensures !IsObjectIdText(serverId) || Find(docs, serverId).None? ==> r == docs
    ensures IsObjectIdText(serverId) && Find(docs, serverId).Some? ==>
              var i := Find(docs, serverId).value;
              r == docs[i := IncrementDoc(docs[i], delta)]
  {
    if !IsObjectIdText(serverId) then docs
    else
      match Find(docs, serverId)
      case None => docs
      case Some(i) => docs[i := IncrementDoc(docs[i], delta)]
  }

  /** `trackInstall` (`delta` 1) and `trackUninstall` (`delta` -1): only a connection failure escapes. */
  function Track(svc: Service, drv: Driver, serverId: string, delta: int): (r: Reply<()>)
    ensures r.svc.conn == Ready(svc.conn, drv).0
    ensures r.out.Err? <==> Ready(svc.conn, drv).1.Err?
    ensures r.out.Err? ==> r.svc.docs == svc.docs
    ensures r.out.Ok? ==> r.svc.docs == Increment(svc.docs, serverId, delta)
  {
    var (conn, ready) := Ready(svc.conn, drv);
    if ready.Err? then Reply(Service(conn, svc.docs), Err(ready.message))
    else Reply(Service(conn, Increment(svc.docs, serverId, delta)), Ok(()))
  }

  /** The counter update keeps every id in place. */
  lemma IncrementKeepsIds(docs: Docs, serverId: string, delta: int)
    ensures |Increment(docs, serverId, delta)| == |docs|
    ensures forall i :: 0 <= i < |docs| ==> Increment(docs, serverId, delta)[i].oid == docs[i].oid
  {
  }

  /** `Find` looks at ids only. */
  lemma FindSameIds(a: Docs, b: Docs, serverId: string)
    requires |a| == |b| && forall i :: 0 <= i < |a| ==> a[i].oid == b[i].oid
    ensures Find(a, serverId) == Find(b, serverId)
  {
  }

  /** The counter has no floor: uninstalling a server nobody has installed makes it negative. */
  lemma CountHasNoFloor(d: Doc)
    requires d.installCount == Num(0)
    ensures IncrementDoc(d, -1).installCount == Num(-1)
    ensures DocToServer(IncrementDoc(d, -1)).installCount == Num(-1)
  {
  }

  /**
   * An uninstall followed by an install restores the collection when the
   * counter is a number (or there is no such document); in every case the
   * count a client sees is restored.
   */
  lemma UninstallThenInstall(docs: Docs, serverId: string)
    ensures var r := Increment(Increment(docs, serverId, -1), serverId, 1);
            && |r| == |docs|
            && (forall i :: 0 <= i < |docs| ==> DocToServer(r[i]) == DocToServer(docs[i]))
            && (forall i :: 0 <= i < |docs| && !(docs[i].installCount == Undefined) ==> r[i] == docs[i])
  {
    var once := Increment(docs, serverId, -1);
    FindSameIds(docs, once, serverId);
    var r := Increment(once, serverId, 1);
    if IsObjectIdText(serverId) && Find(docs, serverId).Some? {
      var i := Find(docs, serverId).value;
      DocUninstallThenInstall(docs[i]);
      assert r == docs[i := IncrementDoc(IncrementDoc(docs[i], -1), 1)];
    }
  }

  /** The same for one document. */
  lemma DocUninstallThenInstall(d: Doc)
    ensures var e := IncrementDoc(IncrementDoc(d, -1), 1);
            && DocToServer(e) == DocToServer(d)
            && (d.installCount != Undefined ==> e == d)
  {
    var e := IncrementDoc(IncrementDoc(d, -1), 1);
    if d.installCount == Undefined {
      assert e == d.(installCount := Num(0));
    }
  }

  // ---------------------------------------------------------------------------
  // The collection stays well formed
  // ---------------------------------------------------------------------------

  lemma ReplaceKeepsWellFormed(docs: Docs, i: nat, d: Doc)
    requires WellFormed(docs) && i < |docs| && WellFormedDoc(d) && d.oid == docs[i].oid
    ensures WellFormed(docs[i := d])
  {
  }

  /** An update keeps a document well formed. */
  lemma UpdatedDocWellFormed(d: Doc, patch: Fields, now: string)
    requires WellFormedDoc(d) && DistinctKeys(patch)
    ensures WellFormedDoc(UpdatedDoc(d, patch, now))
  {
    assert UpdatedDoc(d, patch, now).extra == Merge(d.extra, ExtraOf(patch));
  }

  lemma AppendKeepsWellFormed(docs: Docs, d: Doc)
    requires WellFormed(docs) && WellFormedDoc(d) && forall i :: 0 <= i < |docs| ==> docs[i].oid != d.oid
    ensures WellFormed(docs + [d])
  {
    var grown := docs + [d];
    assert forall a :: 0 <= a < |docs| ==> grown[a] == docs[a];
  }

  /** Updating keeps the collection well formed. */
  lemma UpdateKeepsWellFormed(svc: Service, drv: Driver, serverId: string, patch: Fields, caller: string, now: string)
    requires WellFormed(svc.docs) && DistinctKeys(patch)
    ensures WellFormed(UpdateServer(svc, drv, serverId, patch, caller, now).svc.docs)
  {
    var docs := svc.docs;
    if Ready(svc.conn, drv).1.Ok? {
      var u := Update(docs, serverId, patch, caller, now, drv.idError);
      if u.1.Ok? {
        var i := Find(docs, serverId).value;
        UpdatedDocWellFormed(docs[i], patch, now);
        ReplaceKeepsWellFormed(docs, i, UpdatedDoc(docs[i], patch, now));
      }
    }
  }

  /** Deleting keeps the collection well formed. */
  lemma DeleteKeepsWellFormed(svc: Service, drv: Driver, serverId: string, caller: string)
    requires WellFormed(svc.docs)
    ensures WellFormed(DeleteServer(svc, drv, serverId, caller).svc.docs)
  {
    var docs := svc.docs;
    if Ready(svc.conn, drv).1.Ok? && IsObjectIdText(serverId) && Find(docs, serverId).Some? {
      RemoveKeepsWellFormed(docs, Find(docs, serverId).value);
    }
  }

  /** Counting keeps the collection well formed. */
  lemma TrackKeepsWellFormed(svc: Service, drv: Driver, serverId: string, delta: int)
    requires WellFormed(svc.docs)
    ensures WellFormed(Track(svc, drv, serverId, delta).svc.docs)
  {
    var docs := svc.docs;
    if Ready(svc.conn, drv).1.Ok? && IsObjectIdText(serverId) && Find(docs, serverId).Some? {
      var i := Find(docs, serverId).value;
      ReplaceKeepsWellFormed(docs, i, IncrementDoc(docs[i], delta));
    }
  }

  /** Creating under a fresh canonical id keeps the collection well formed. */
  lemma CreateKeepsWellFormed(svc: Service, drv: Driver, data: Fields, ownerId: string, ownerEmail: Json, ownerName: Json,
                              now: string, newId: string)
    requires WellFormed(svc.docs)
    requires IsCanonicalId(newId) && forall i :: 0 <= i < |svc.docs| ==> svc.docs[i].oid != Some(newId)
    ensures WellFormed(CreateServer(svc, drv, data, ownerId, ownerEmail, ownerName, now, newId).svc.docs)
  {
    if Ready(svc.conn, drv).1.Ok? {
      var d := NewDocument(data, ownerId, ownerEmail, ownerName, now, newId);
      assert DistinctKeys(d.extra) && forall k :: !HasKey(d.extra, k);
      AppendKeepsWellFormed(svc.docs, d);
    }
  }
}

=== FILE: routes.dfy ===
/**
 * The HTTP routes of the marketplace API (`/api/marketplace`), as functions
 * from the service, the driver and a request to the service afterwards and
 * the response: a status code and the JSON body `res.json` sends.
 *
 * Express itself is reduced to the order in which the routes are registered;
 * path segments arrive already split and decoded.
 */
module Routes {
  import opened Basics
  import opened Text
  import opened Json
  import opened Connection
  import opened Repository

  // ---------------------------------------------------------------------------
  // The caller
  // ---------------------------------------------------------------------------

  /** Request headers by lower-case name, as Node delivers them. */
  type Headers = map<string, string>

  /** `req.headers[name]`: `Undefined` when the header is missing. */
  function Header(h: Headers, name: string): Json {
    if name in h then Str(h[name]) else Undefined
  }

  /** The caller `getUserFromRequest` finds; `email` and `name` are `Undefined` without their header. */
  datatype User = User(id: string, email: Json, name: Json)

  /**
   * `getUserFromRequest`: a caller exactly when `x-user-id` is a non-empty
   * header. Nothing checks the header against a session or a token.
   */
  function UserFromRequest(h: Headers): (r: Option<User>)
    ensures r.None? <==> !Truthy(Header(h, "x-user-id"))
    ensures r.Some? ==> Header(h, "x-user-id") == Str(r.value.id) && r.value.id != ""
    ensures r.Some? ==> r.value.email == Header(h, "x-user-email") && r.value.name == Header(h, "x-user-name")
  {
    if "x-user-id" in h && h["x-user-id"] != "" then
      Some(User(h["x-user-id"], Header(h, "x-user-email"), Header(h, "x-user-name")))
    else None
  }

  /** Whoever can set a header can act as any user. */
  lemma AnyoneCanClaimAnId(h: Headers, id: string)
    requires id != ""
    ensures UserFromRequest(h["x-user-id" := id]).Some?
    ensures UserFromRequest(h["x-user-id" := id]).value.id == id
  {
  }

  // ---------------------------------------------------------------------------
  // Responses
  // ---------------------------------------------------------------------------

  datatype Response = Response(status: nat, body: Json)

  /** `res.status(status).json({ success: false, error: message })` */
  function Failure(status: nat, message: string): Response {
    Response(status, Obj([("success", Bool(false)), ("error", Str(message))]))
  }

  /** `res.status(status).json({ success: true, data })` */
  function Success(status: nat, data: Json): Response {
    Response(status, Obj([("success", Bool(true)), ("data", data)]))
  }

  /** `res.json({ success: true })` */
  const Acknowledged: Response := Response(200, Obj([("success", Bool(true))]))

  const AuthRequiredMessage: string := "Authentication required"

  /** `error.message || fallback` */
  function MessageOr(message: string, fallback: string): (r: string)
    ensures r != ""  || fallback == ""
    ensures message != "" ==> r == message
  {
    if message != "" then message else fallback
  }

  /** The status the update and delete routes give a thrown message. */
  function StatusFor(message: string): (r: nat)
    ensures r == 403 <==> Contains(message, "permission")
    ensures r == 404 <==> !Contains(message, "permission") && Contains(message, "not found")
    ensures r == 500 <==> !Contains(message, "permission") && !Contains(message, "not found")
  {
    if Contains(message, "permission") then 403
    else if Contains(message, "not found") then 404
    else 500
  }

  /** `JSON.stringify` of a server: the fields that are not `undefined`. */
  function ServerJson(s: Server): Json {
    Obj(DropUndefined([
      ("id", Str(s.id)), ("name", s.name), ("description", s.description), ("version", s.version),
      ("author", s.author), ("config", s.config), ("createdAt", s.createdAt), ("updatedAt", s.updatedAt),
      ("ownerId", s.ownerId), ("ownerEmail", s.ownerEmail), ("ownerName", s.ownerName),
      ("isPublic", s.isPublic), ("videoUrl", s.videoUrl), ("instructions", s.instructions),
      ("category", s.category), ("website", s.website), ("supportEmail", s.supportEmail),
      ("developerInfo", s.developerInfo), ("rating", s.rating), ("installCount", s.installCount),
      ("repository", s.repository), ("tags", s.tags), ("readme", s.readme)]))
  }

  function ServersJson(servers: seq<Server>): Json {
    Arr(Map(servers, ServerJson))
  }

  // ---------------------------------------------------------------------------
  // Handlers
  // ---------------------------------------------------------------------------

  /** The service after a handler, and what the handler sent. */
  datatype Handled = Handled(svc: Service, res: Response)

  /** `GET /servers`: the public servers, or 500 with the service's message. */
  function HandleList(svc: Service, drv: Driver): (r: Handled)
    ensures r.svc == GetAllServers(svc, drv).svc
    ensures r.res.status == 200 <==> Ready(svc.conn, drv).1.Ok?
    ensures r.res.status == 200 ==> r.res == Success(200, ServersJson(ToServers(PublicDocs(svc.docs))))
    ensures r.res.status != 200 ==> r.res == Failure(500, Ready(svc.conn, drv).1.message)
  {
    var reply := GetAllServers(svc, drv);
    match reply.out
    case Ok(servers) => Handled(reply.svc, Success(200, ServersJson(servers)))
    case Err(m) => Handled(reply.svc, Failure(500, MessageOr(m, "Failed to fetch servers")))
  }

  /** `GET /servers/my`: 401 without a caller, else the caller's servers. */
  function HandleMine(svc: Service, drv: Driver, h: Headers): (r: Handled)
    ensures UserFromRequest(h).None? ==> r == Handled(svc, Failure(401, AuthRequiredMessage))
    ensures UserFromRequest(h).Some? ==>
              && r.svc == GetMyServers(svc, drv, UserFromRequest(h).value.id).svc
              && (r.res.status == 200 <==> Ready(svc.conn, drv).1.Ok?)
              && (r.res.status == 200 ==>
                    r.res == Success(200, ServersJson(ToServers(OwnedDocs(svc.docs, UserFromRequest(h).value.id)))))
              && (r.res.status != 200 ==> r.res == Failure(500, Ready(svc.conn, drv).1.message))
  {
    match UserFromRequest(h)
    case None => Handled(svc, Failure(401, AuthRequiredMessage))
    case Some(user) =>
      var reply := GetMyServers(svc, drv, user.id);
      match reply.out
      case Ok(servers) => Handled(reply.svc, Success(200, ServersJson(servers)))
      case Err(m) => Handled(reply.svc, Failure(500, MessageOr(m, "Failed to fetch your servers")))
  }

  /** `GET /servers/:serverId`: 404 for an unknown id, 500 for a malformed one. */
  function HandleGet(svc: Service, drv: Driver, serverId: string): (r: Handled)
    ensures r.svc == GetServerById(svc, drv, serverId).svc
    ensures r.res.status == 200 <==>
              Ready(svc.conn, drv).1.Ok? && IsObjectIdText(serverId) && Find(svc.docs, serverId).Some?
    ensures r.res.status == 404 <==>
              Ready(svc.conn, drv).1.Ok? && IsObjectIdText(serverId) && Find(svc.docs, serverId).None?
    ensures r.res.status == 200 ==>
              r.res == Success(200, ServerJson(DocToServer(svc.docs[Find(svc.docs, serverId).value])))
    ensures r.res.status == 404 ==> r.res == Failure(404, NotFoundMessage)
    ensures r.res.status != 200 && r.res.status != 404 ==> r.res.status == 500
  {
    var reply := GetServerById(svc, drv, serverId);
    match reply.out
    case Ok(None) => Handled(reply.svc, Failure(404, NotFoundMessage))
    case Ok(Some(server)) => Handled(reply.svc, Success(200, ServerJson(server)))
    case Err(m) => Handled(reply.svc, Failure(500, MessageOr(m, "Failed to fetch server")))
  }

  /** `POST /servers`: 401 without a caller, else 201 with the created server. */
  function HandleCreate(svc: Service, drv: Driver, h: Headers, body: Fields, now: string, newId: string): (r: Handled)
    requires IsCanonicalId(newId) && forall i :: 0 <= i < |svc.docs| ==> svc.docs[i].oid != Some(newId)
    ensures UserFromRequest(h).None? ==> r == Handled(svc, Failure(401, AuthRequiredMessage))
    ensures UserFromRequest(h).Some? ==>
              var u := UserFromRequest(h).value;
              var d := NewDocument(body, u.id, u.email, u.name, now, newId);
              && r.svc.conn == Ready(svc.conn, drv).0
              && (r.res.status == 201 <==> Ready(svc.conn, drv).1.Ok?)
              && (r.res.status == 201 ==> r.svc.docs == svc.docs + [d] && r.res == Success(201, ServerJson(DocToServer(d))))
              && (r.res.status != 201 ==> r.svc.docs == svc.docs && r.res == Failure(500, Ready(svc.conn, drv).1.message))
  {
    match UserFromRequest(h)
    case None => Handled(svc, Failure(401, AuthRequiredMessage))
    case Some(user) =>
      var reply := CreateServer(svc, drv, body, user.id, user.email, user.name, now, newId);
      match reply.out
      case Ok(server) => Handled(reply.svc, Success(201, ServerJson(server)))
      case Err(m) => Handled(reply.svc, Failure(500, MessageOr(m, "Failed to create server")))
  }

  /** `PUT /servers/:serverId`: 401 without a caller; a thrown message decides between 403, 404 and 500. */
  function HandleUpdate(svc: Service, drv: Driver, h: Headers, serverId: string, body: Fields, now: string): (r: Handled)
    requires DistinctKeys(body)
    ensures UserFromRequest(h).None? ==> r == Handled(svc, Failure(401, AuthRequiredMessage))
    ensures UserFromRequest(h).Some? ==>
              var reply := UpdateServer(svc, drv, serverId, body, UserFromRequest(h).value.id, now);
              && r.svc == reply.svc
              && (reply.out.Ok? ==> r.res == Success(200, ServerJson(reply.out.value)))
              && (reply.out.Err? ==> r.res == Failure(StatusFor(reply.out.message), reply.out.message))
  {
    match UserFromRequest(h)
    case None => Handled(svc, Failure(401, AuthRequiredMessage))
    case Some(user) =>
      var reply := UpdateServer(svc, drv, serverId, body, user.id, now);
      match reply.out
      case Ok(server) => Handled(reply.svc, Success(200, ServerJson(server)))
      case Err(m) => Handled(reply.svc, Failure(StatusFor(m), MessageOr(m, "Failed to update server")))
  }

  /** `DELETE /servers/:serverId`: as the update route, with a bare `{ success: true }` on success. */
  function HandleDelete(svc: Service, drv: Driver, h: Headers, serverId: string): (r: Handled)
    ensures UserFromRequest(h).None? ==> r == Handled(svc, Failure(401, AuthRequiredMessage))
    ensures UserFromRequest(h).Some? ==>
              var reply := DeleteServer(svc, drv, serverId, UserFromRequest(h).value.id);
              && r.svc == reply.svc
              && (reply.out.Ok? ==> r.res == Acknowledged)
              && (reply.out.Err? ==> r.res == Failure(StatusFor(reply.out.message), reply.out.message))
  {
    match UserFromRequest(h)
    case None => Handled(svc, Failure(401, AuthRequiredMessage))
    case Some(user) =>
      var reply := DeleteServer(svc, drv, serverId, user.id);
      match reply.out
      case Ok(_) => Handled(reply.svc, Acknowledged)
      case Err(m) => Handled(reply.svc, Failure(StatusFor(m), MessageOr(m, "Failed to delete server")))
  }

  /** `POST /servers/:serverId/install` (`delta` 1) and `.../uninstall` (`delta` -1): always `{ success: true }`. */
  function HandleTrack(svc: Service, drv: Driver, serverId: string, delta: int): (r: Handled)
    ensures r.res == Acknowledged
    ensures r.svc == Track(svc, drv, serverId, delta).svc
  {
    Handled(Track(svc, drv, serverId, delta).svc, Acknowledged)
  }

  // ---------------------------------------------------------------------------
  // What the thrown messages map to
  // ---------------------------------------------------------------------------

  /** A message `prefix + m` whose prefix cannot contribute `p`. */
  lemma PrefixedAvoids(head: string, m: string, p: string)
    requires |p| > 0 && p[0] != ' ' && !Contains(head, p) && !Contains(m, p)
    requires forall k :: 0 <= k < |p| ==> p[k] != ':'
    ensures !Contains(head + ": " + m, p)
  {
    var tail := " " + m;
    assert tail[1..] == m;
    assert !OccursAt(tail, p, 0) by {
      if |p| <= |tail| {
        assert tail[0..|p|][0] == ' ';
      }
    }
    NoOccurrenceAfterShift(tail, p);
    NoOccurrenceAcross(head, ':', tail, p);
    assert head + [':'] + tail == head + ": " + m;
  }

  /** The texts that are neither a permission failure nor a missing document. */
  predicate Unclassified(m: string) {
    !Contains(m, "permission") && !Contains(m, "not found")
  }

  predicate Lacks(s: string, c: char) {
    forall i :: 0 <= i < |s| ==> s[i] != c
  }

  lemma LacksConcat(a: string, b: string, c: char)
    requires Lacks(a, c) && Lacks(b, c)
    ensures Lacks(a + b, c)
  {
    forall i | 0 <= i < |a + b| ensures (a + b)[i] != c {
      if i >= |a| {
        assert (a + b)[i] == b[i - |a|];
      }
    }
  }

  /** `Server not found` behind a prefix without an `m` reads as a missing document. */
  lemma NotFoundIs404(head: string)
    requires Lacks(head, 'm')
    ensures StatusFor(head + ": " + NotFoundMessage) == 404
  {
    assert OccursAt(NotFoundMessage, "not found", 7);
    OccursAfter(head + ": ", NotFoundMessage, "not found", 7);
    LacksConcat(head, ": ", 'm');
    LacksConcat(head + ": ", NotFoundMessage, 'm');
    AbsentChar(head + ": " + NotFoundMessage, "permission", 3);
  }

  lemma OccursBetween(a: string, p: string, b: string)
    ensures OccursAt(a + p + b, p, |a|)
  {
    assert (a + p + b)[|a|..|a| + |p|] == p;
  }

  /** Both refusals mention `permission`. */
  lemma UpdateRefusalMentionsPermission()
    ensures OccursAt(UpdateDeniedMessage, "permission", 16)
  {
    assert UpdateDeniedMessage == "You do not have " + "permission" + " to update this server";
    OccursBetween("You do not have ", "permission", " to update this server");
  }

  lemma DeleteRefusalMentionsPermission()
    ensures OccursAt(DeleteDeniedMessage, "permission", 16)
  {
    assert DeleteDeniedMessage == "You do not have " + "permission" + " to delete this server";
    OccursBetween("You do not have ", "permission", " to delete this server");
  }

  lemma RefusalIs403(prefix: string, denied: string)
    requires OccursAt(denied, "permission", 16)
    ensures StatusFor(prefix + denied) == 403
  {
    OccursAfter(prefix, denied, "permission", 16);
  }

  /** A message naming neither case stays unclassified behind a prefix without an `m` or an `f`. */
  lemma UnclassifiedIs500(head: string, m: string)
    requires Lacks(head, 'm') && Lacks(head, 'f') && Unclassified(m)
    ensures StatusFor(head + ": " + m) == 500
  {
    AbsentChar(head, "permission", 3);
    AbsentChar(head, "not found", 4);
    PrefixedAvoids(head, m, "permission");
    PrefixedAvoids(head, m, "not found");
  }

  lemma UpdateMessagesClassified(idError: string)
    requires Unclassified(idError)
    ensures StatusFor(UpdateFailedPrefix + NotFoundMessage) == 404
    ensures StatusFor(UpdateFailedPrefix + UpdateDeniedMessage) == 403
    ensures StatusFor(UpdateFailedPrefix + idError) == 500
  {
    var head := "Failed to update server";
    assert UpdateFailedPrefix == head + ": ";
    assert Lacks(head, 'm') && Lacks(head, 'f');
    NotFoundIs404(head);
    UpdateRefusalMentionsPermission();
    RefusalIs403(UpdateFailedPrefix, UpdateDeniedMessage);
    UnclassifiedIs500(head, idError);
  }

  lemma DeleteMessagesClassified(idError: string)
    requires Unclassified(idError)
    ensures StatusFor(DeleteFailedPrefix + NotFoundMessage) == 404
    ensures StatusFor(DeleteFailedPrefix + DeleteDeniedMessage) == 403
    ensures StatusFor(DeleteFailedPrefix + idError) == 500
  {
    var head := "Failed to delete server";
    assert DeleteFailedPrefix == head + ": ";
    assert Lacks(head, 'm') && Lacks(head, 'f');
    NotFoundIs404(head);
    DeleteRefusalMentionsPermission();
    RefusalIs403(DeleteFailedPrefix, DeleteDeniedMessage);
    UnclassifiedIs500(head, idError);
  }

  /**
   * Once connected, a caller's update answers 200 when they may change the
   * server, 403 when someone else owns it, 404 when there is no such server
   * and 500 for a malformed id (whose BSON message names neither case).
   */
  lemma UpdateStatusCodes(svc: Service, drv: Driver, h: Headers, serverId: string, body: Fields, now: string)
    requires DistinctKeys(body) && UserFromRequest(h).Some? && Ready(svc.conn, drv).1.Ok? && Unclassified(drv.idError)
    ensures var status := HandleUpdate(svc, drv, h, serverId, body, now).res.status;
            var found := IsObjectIdText(serverId) && Find(svc.docs, serverId).Some?;
            && (status == 200 <==> found && MayChange(svc.docs[Find(svc.docs, serverId).value], UserFromRequest(h).value.id))
            && (status == 403 <==> found && !MayChange(svc.docs[Find(svc.docs, serverId).value], UserFromRequest(h).value.id))
            && (status == 404 <==> IsObjectIdText(serverId) && Find(svc.docs, serverId).None?)
            && (status == 500 <==> !IsObjectIdText(serverId))
  {
    UpdateMessagesClassified(drv.idError);
  }

  /** The same four outcomes for a delete. */
  lemma DeleteStatusCodes(svc: Service, drv: Driver, h: Headers, serverId: string)
    requires UserFromRequest(h).Some? && Ready(svc.conn, drv).1.Ok? && Unclassified(drv.idError)
    ensures var status := HandleDelete(svc, drv, h, serverId).res.status;
            var found := IsObjectIdText(serverId) && Find(svc.docs, serverId).Some?;
            && (status == 200 <==> found && MayChange(svc.docs[Find(svc.docs, serverId).value], UserFromRequest(h).value.id))
            && (status == 403 <==> found && !MayChange(svc.docs[Find(svc.docs, serverId).value], UserFromRequest(h).value.id))
            && (status == 404 <==> IsObjectIdText(serverId) && Find(svc.docs, serverId).None?)
            && (status == 500 <==> !IsObjectIdText(serverId))
  {
    DeleteMessagesClassified(drv.idError);
  }

  // ---------------------------------------------------------------------------
  // Routing
  // ---------------------------------------------------------------------------

  datatype Method = HttpGet | HttpPost | HttpPut | HttpDelete

  datatype Route =
    | ListAll
    | ListMine
    | GetOne(serverId: string)
    | CreateOne
    | UpdateOne(serverId: string)
    | DeleteOne(serverId: string)
    | InstallOne(serverId: string)
    | UninstallOne(serverId: string)

  /** The method and path segments a route is registered under, with the parameter filled in. */
  function PathOf(route: Route): (Method, seq<string>) {
    match route
    case ListAll => (HttpGet, ["servers"])
    case ListMine => (HttpGet, ["servers", "my"])
    case GetOne(id) => (HttpGet, ["servers", id])
    case CreateOne => (HttpPost, ["servers"])
    case UpdateOne(id) => (HttpPut, ["servers", id])
    case DeleteOne(id) => (HttpDelete, ["servers", id])
    case InstallOne(id) => (HttpPost, ["servers", id, "install"])
    case UninstallOne(id) => (HttpPost, ["servers", id, "uninstall"])
  }

  /**
   * The first registered route a request matches, in registration order:
   * `/servers/my` comes before `/servers/:serverId`, and a parameter matches
   * any non-empty segment.
   */
  function Match(m: Method, path: seq<string>): (r: Option<Route>)
    ensures r.Some? ==> PathOf(r.value) == (m, path)
    ensures r != Some(GetOne("my"))
  {
    assert |path| == 1 ==> path == [path[0]];
    assert |path| == 2 ==> path == [path[0], path[1]];
    assert |path| == 3 ==> path == [path[0], path[1], path[2]];
    if |path| == 0 || path[0] != "servers" then None
    else if |path| == 1 then
      if m == HttpGet then Some(ListAll) else if m == HttpPost then Some(CreateOne) else None
    else if path[1] == "" then None
    else if |path| == 2 then
      match m
      case HttpGet => if path[1] == "my" then Some(ListMine) else Some(GetOne(path[1]))
      case HttpPut => Some(UpdateOne(path[1]))
      case HttpDelete => Some(DeleteOne(path[1]))
      case HttpPost => None
    else if |path| == 3 && m == HttpPost && path[2] == "install" then Some(InstallOne(path[1]))
    else if |path| == 3 && m == HttpPost && path[2] == "uninstall" then Some(UninstallOne(path[1]))
    else None
  }

  /** The routes a request can reach: every one with a non-empty id, except reading a server whose id is `my`. */
  predicate Reachable(route: Route) {
    match route
    case GetOne(id) => id != "" && id != "my"
    case UpdateOne(id) => id != ""
    case DeleteOne(id) => id != ""
    case InstallOne(id) => id != ""
    case UninstallOne(id) => id != ""
    case _ => true
  }

  /** Matching inverts `PathOf` on exactly the reachable routes. */
  lemma MatchPathOf(route: Route)
    ensures Match(PathOf(route).0, PathOf(route).1) == Some(route) <==> Reachable(route)
  {
  }

  /** An HTTP request: the verb, the path below `/api/marketplace`, the headers and the parsed JSON body. */
  datatype Request = Request(verb: Method, path: seq<string>, headers: Headers, body: Fields)

  /** The router: `None` for a request no marketplace route matches. */
  function Serve(svc: Service, drv: Driver, req: Request, now: string, newId: string): (r: Option<Handled>)
    requires IsCanonicalId(newId) && forall i :: 0 <= i < |svc.docs| ==> svc.docs[i].oid != Some(newId)
    requires DistinctKeys(req.body)
    ensures r.None? <==> Match(req.verb, req.path).None?
    ensures req.verb == HttpGet && req.path == ["servers", "my"] ==> r == Some(HandleMine(svc, drv, req.headers))
    ensures Match(req.verb, req.path).Some? && (Match(req.verb, req.path).value.InstallOne? || Match(req.verb, req.path).value.UninstallOne?) ==>
              r.value.res == Acknowledged
    ensures Match(req.verb, req.path).Some? && UserFromRequest(req.headers).None?
            && (req.verb != HttpGet || Match(req.verb, req.path).value == ListMine)
            && !Match(req.verb, req.path).value.InstallOne? && !Match(req.verb, req.path).value.UninstallOne? ==>
              r == Some(Handled(svc, Failure(401, AuthRequiredMessage)))
  {
    MatchOwnList();
    match Match(req.verb, req.path)
    case None => None
    case Some(route) => Some(Dispatch(svc, drv, route, req, now, newId))
  }

  /** `GET /servers/my` is the own list. */
  lemma MatchOwnList()
    ensures Match(HttpGet, ["servers", "my"]) == Some(ListMine)
  {
  }

  /** The handler a matched route runs. */
  function Dispatch(svc: Service, drv: Driver, route: Route, req: Request, now: string, newId: string): (r: Handled)
    requires IsCanonicalId(newId) && forall i :: 0 <= i < |svc.docs| ==> svc.docs[i].oid != Some(newId)
    requires DistinctKeys(req.body)
    ensures route == ListMine ==> r == HandleMine(svc, drv, req.headers)
    ensures route.InstallOne? || route.UninstallOne? ==> r.res == Acknowledged
    ensures UserFromRequest(req.headers).None? && (route == ListMine || route.CreateOne? || route.UpdateOne? || route.DeleteOne?) ==>
              r == Handled(svc, Failure(401, AuthRequiredMessage))
  {
    match route
    case ListAll => HandleList(svc, drv)
    case ListMine => HandleMine(svc, drv, req.headers)
    case GetOne(id) => HandleGet(svc, drv, id)
    case CreateOne => HandleCreate(svc, drv, req.headers, req.body, now, newId)
    case UpdateOne(id) => HandleUpdate(svc, drv, req.headers, id, req.body, now)
    case DeleteOne(id) => HandleDelete(svc, drv, req.headers, id)
    case InstallOne(id) => HandleTrack(svc, drv, id, 1)
    case UninstallOne(id) => HandleTrack(svc, drv, id, -1)
  }
}

=== FILE: server_form.dfy ===
/**
 * The full entry editor (`components/marketplace/EnhancedServerForm.tsx`):
 * filling the form from an existing entry, and turning the submitted form
 * back into the entry payload. Arguments travel as one space-separated line
 * and environment variables as `KEY=value` lines joined by a separator.
 *
 * The separator the source uses is the two-character text backslash-`n`
 * (`'\\n'` in TypeScript), not a line break; the model is written for any
 * separator and instantiated with that one.
 */
module ServerForm {
  import opened Basics
  import opened Text
  import opened Json

  /** The two characters `\` and `n`, which the source joins and splits environment lines on. */
  const EnvSeparator: string := ['\\', 'n']

  /** A real line break, which the placeholder text and the "one variable per line" hint ask for. */
  const LineBreak: string := "\n"

  /** The form's fields. Values are JavaScript values because the form library passes through what it holds. */
  datatype FormValues = FormValues(
    name: Json,
    description: Json,
    version: Json,
    author: Json,
    category: Json,
    instructions: Json,
    website: Json,
    supportEmail: Json,
    repository: Json,
    videoUrl: Json,
    developerName: Json,
    developerEmail: Json,
    developerWebsite: Json,
    developerCompany: Json,
    configCommand: Json,
    configArgs: Json,
    configEnv: Json)

  /** `developerInfo` of the payload: always present, with the four fields as entered. */
  datatype DeveloperInfo = DeveloperInfo(name: Json, email: Json, website: Json, company: Json)

  /** `config` of the payload; `env` is `None` where the source writes `undefined`. */
  datatype SubmittedConfig = SubmittedConfig(command: Json, args: seq<string>, env: Option<Fields>)

  /** The object `handleSubmit` hands to `onSubmit`. */
  datatype ServerData = ServerData(
    name: Json,
    description: Json,
    version: Json,
    author: Json,
    category: Json,
    instructions: Json,
    website: Json,
    supportEmail: Json,
    repository: Json,
    videoUrl: Json,
    developerInfo: DeveloperInfo,
    config: SubmittedConfig)

  // ---------------------------------------------------------------------------
  // Populate
  // ---------------------------------------------------------------------------

  /** `Object.entries(v)`: the fields of an object, the indexed elements of an array or the characters of a string. */
  function Entries(v: Json): (r: seq<(string, Json)>)
    ensures v.Obj? ==> r == v.fields
    ensures !v.Obj? && !v.Arr? && !v.Str? ==> r == []
  {
    match v
    case Obj(fs) => fs
    case Arr(items) => seq(|items|, i requires 0 <= i < |items| => (NatToString(i), items[i]))
    case Str(s) => seq(|s|, i requires 0 <= i < |s| => (NatToString(i), Str([s[i]])))
    case _ => []
  }

  /** `${key}=${value}` */
  function EnvLine(e: (string, Json)): string {
    e.0 + "=" + ToJsString(e.1)
  }

  function EnvLines(entries: seq<(string, Json)>): (r: seq<string>)
    ensures |r| == |entries| && forall i :: 0 <= i < |entries| ==> r[i] == EnvLine(entries[i])
  {
    seq(|entries|, i requires 0 <= i < |entries| => EnvLine(entries[i]))
  }

  /** The form filled from an existing entry, joining environment lines with `sep`. */
  function PopulateWith(server: Json, sep: string): (f: FormValues)
    ensures f.name == Prop(server, "name")
    ensures f.description == Or(Prop(server, "description"), Str(""))
    ensures f.version == Or(Prop(server, "version"), Str(""))
    ensures f.author == Or(Prop(server, "author"), Str(""))
    ensures f.category == Or(Prop(server, "category"), Str(""))
    ensures f.instructions == Or(Prop(server, "instructions"), Str(""))
    ensures f.website == Or(Prop(server, "website"), Str(""))
    ensures f.supportEmail == Or(Prop(server, "supportEmail"), Str(""))
    ensures f.repository == Or(Prop(server, "repository"), Str(""))
    ensures f.videoUrl == Or(Prop(server, "videoUrl"), Str(""))
    ensures f.developerName == Or(Prop(Prop(server, "developerInfo"), "name"), Str(""))
    ensures f.developerEmail == Or(Prop(Prop(server, "developerInfo"), "email"), Str(""))
    ensures f.developerWebsite == Or(Prop(Prop(server, "developerInfo"), "website"), Str(""))
    ensures f.developerCompany == Or(Prop(Prop(server, "developerInfo"), "company"), Str(""))
    ensures f.configCommand == Or(Prop(Prop(server, "config"), "command"), Str(""))
    ensures f.configArgs.Str? && f.configEnv.Str?
    ensures !Prop(Prop(server, "config"), "args").Arr? ==> f.configArgs == Str("")
    ensures Prop(Prop(server, "config"), "args").Arr? ==>
              f.configArgs == Str(JoinValues(Prop(Prop(server, "config"), "args").items, " "))
    ensures !Truthy(Prop(Prop(server, "config"), "env")) ==> f.configEnv == Str("")
    ensures Truthy(Prop(Prop(server, "config"), "env")) ==>
              f.configEnv == Str(Join(EnvLines(Entries(Prop(Prop(server, "config"), "env"))), sep))
  {
    var cfg := Prop(server, "config");
    var dev := Prop(server, "developerInfo");
    var args := Prop(cfg, "args");
    var env := Prop(cfg, "env");
    FormValues(
      name := Prop(server, "name"),
      description := Or(Prop(server, "description"), Str("")),
      version := Or(Prop(server, "version"), Str("")),
      author := Or(Prop(server, "author"), Str("")),
      category := Or(Prop(server, "category"), Str("")),
      instructions := Or(Prop(server, "instructions"), Str("")),
      website := Or(Prop(server, "website"), Str("")),
      supportEmail := Or(Prop(server, "supportEmail"), Str("")),
      repository := Or(Prop(server, "repository"), Str("")),
      videoUrl := Or(Prop(server, "videoUrl"), Str("")),
      developerName := Or(Prop(dev, "name"), Str("")),
      developerEmail := Or(Prop(dev, "email"), Str("")),
      developerWebsite := Or(Prop(dev, "website"), Str("")),
      developerCompany := Or(Prop(dev, "company"), Str("")),
      configCommand := Or(Prop(cfg, "command"), Str("")),
      configArgs := if args.Arr? then Str(JoinValues(args.items, " ")) else Str(""),
      configEnv := if Truthy(env) then Str(Join(EnvLines(Entries(env)), sep)) else Str(""))
  }

  /** The populate mapping as written. */
  function Populate(server: Json): FormValues {
    PopulateWith(server, EnvSeparator)
  }

  // ---------------------------------------------------------------------------
  // Submit: arguments
  // ---------------------------------------------------------------------------

  predicate NonEmpty(s: string) {
    s != ""
  }

  /** `.filter(Boolean)` on words: the non-empty ones, in order and with their multiplicity. */
  function NonEmptyWords(words: seq<string>): (r: seq<string>)
    ensures forall i :: 0 <= i < |r| ==> r[i] != ""
    ensures forall w :: w in r <==> w in words && w != ""
    ensures forall w :: multiset(r)[w] == if w != "" then multiset(words)[w] else 0
    ensures var ix := Kept(words, NonEmpty, 0);
            |r| == |ix| && forall k :: 0 <= k < |r| ==> r[k] == words[ix[k]]
  {
    FilterInOrder(words, NonEmpty);
    Filter(words, NonEmpty)
  }

  /**
   * `configArgs.split(' ').filter(Boolean)`: the non-empty space-separated
   * words, in order and with their multiplicity.
   */
  function ParseArgs(line: string): (r: seq<string>)
    ensures forall i :: 0 <= i < |r| ==> r[i] != "" && !Contains(r[i], " ")
    ensures forall w :: w in r <==> w in Split(line, " ") && w != ""
    ensures forall w :: multiset(r)[w] == if w != "" then multiset(Split(line, " "))[w] else 0
    ensures var words := Split(line, " ");
            var ix := Kept(words, NonEmpty, 0);
            |r| == |ix| && forall k :: 0 <= k < |r| ==> r[k] == words[ix[k]]
  {
    var words := Split(line, " ");
    SplitPiecesAvoid(line, " ");
    NonEmptyWords(words)
  }

  /** Arguments without spaces survive populate and submit unchanged. */
  lemma ArgsRoundTrip(args: seq<string>)
    requires forall i :: 0 <= i < |args| ==> args[i] != "" && !Contains(args[i], " ")
    ensures ParseArgs(JoinValues(Map(args, a => Str(a)), " ")) == args
  {
    var items := Map(args, a => Str(a));
    var texts := seq(|items|, i requires 0 <= i < |items| => if IsNullish(items[i]) then "" else ToJsString(items[i]));
    assert texts == args;
    if |args| == 0 {
      assert Split("", " ") == [""];
    } else {
      SplitJoin(args, " ");
    }
  }

  // ---------------------------------------------------------------------------
  // Submit: environment
  // ---------------------------------------------------------------------------

  /**
   * One `KEY=value` line: kept when it holds an `=` with something before the
   * first one; the key is the trimmed text before the first `=`, the value the
   * trimmed text after it (later `=` signs included).
   */
  function ParseEnvLine(line: string): (r: Option<(string, string)>)
    ensures r.Some? <==> exists i: nat :: IndexOf(line, "=") == Some(i) && i > 0
    ensures r.Some? ==> var i := IndexOf(line, "=").value;
              r.value == (Trim(line[..i]), Trim(line[i + 1..]))
  {
    var parts := Split(line, "=");
    match IndexOf(line, "=")
    case None => None
    case Some(i) =>
      var rest := Split(line[i + 1..], "=");
      assert parts == [line[..i]] + rest;
      assert parts[1..] == rest;
      if parts[0] != "" && |parts| > 1 then Some((Trim(parts[0]), Trim(Join(parts[1..], "=")))) else None
  }

  /** `env[key.trim()] = value.trim()` for a line that parses. */
  function ApplyLine(env: Fields, line: string): Fields {
    match ParseEnvLine(line)
    case None => env
    case Some((k, v)) => Assign(env, k, Str(v))
  }

  /** The `forEach` over the lines, from left to right. */
  function ApplyLines(env: Fields, lines: seq<string>): Fields
    decreases |lines|
  {
    if |lines| == 0 then env else ApplyLines(ApplyLine(env, lines[0]), lines[1..])
  }

  /** The value the last parsing line for key `k` gives, read from the end: the reference for "later lines win". */
  function LastValue(lines: seq<string>, k: string): Option<string>
    decreases |lines|
  {
    if |lines| == 0 then None
    else
      var last := ParseEnvLine(lines[|lines| - 1]);
      if last.Some? && last.value.0 == k then Some(last.value.1)
      else LastValue(lines[..|lines| - 1], k)
  }

  lemma {:induction false} ApplyLinesSnoc(env: Fields, lines: seq<string>)
    requires |lines| > 0
    ensures ApplyLines(env, lines) == ApplyLine(ApplyLines(env, lines[..|lines| - 1]), lines[|lines| - 1])
    decreases |lines|
  {
    if |lines| > 1 {
      var tail := lines[1..];
      ApplyLinesSnoc(ApplyLine(env, lines[0]), tail);
      assert tail[..|tail| - 1] == lines[..|lines| - 1][1..];
    }
  }

  /** Each key ends up with the value of the last line that sets it; other keys keep their value. */
  lemma {:induction false} ApplyLinesLookup(env: Fields, lines: seq<string>, k: string)
    ensures Lookup(ApplyLines(env, lines), k) == match LastValue(lines, k) case Some(v) => Str(v) case None => Lookup(env, k)
    decreases |lines|
  {
    if |lines| > 0 {
      ApplyLinesSnoc(env, lines);
      ApplyLinesLookup(env, lines[..|lines| - 1], k);
    }
  }

  /** The parsed environment is empty exactly when no line parses (and there was nothing before). */
  lemma {:induction false} ApplyLinesEmpty(env: Fields, lines: seq<string>)
    ensures |ApplyLines(env, lines)| == 0 <==> |env| == 0 && forall i :: 0 <= i < |lines| ==> ParseEnvLine(lines[i]).None?
    decreases |lines|
  {
    if |lines| > 0 {
      var next := ApplyLine(env, lines[0]);
      ApplyLinesEmpty(next, lines[1..]);
      assert forall i :: 1 <= i < |lines| ==> lines[i] == lines[1..][i - 1];
      match ParseEnvLine(lines[0])
      case None =>
      case Some((k, v)) =>
        assert Lookup(next, k) == Str(v);
        assert |next| > 0;
    }
  }

  /** `ApplyLines` keeps keys distinct. */
  lemma {:induction false} ApplyLinesDistinct(env: Fields, lines: seq<string>)
    requires DistinctKeys(env)
    ensures DistinctKeys(ApplyLines(env, lines))
    decreases |lines|
  {
    if |lines| > 0 {
      var line := ParseEnvLine(lines[0]);
      if line.Some? {
        AssignKeys(env, line.value.0, Str(line.value.1));
      }
      ApplyLinesDistinct(ApplyLine(env, lines[0]), lines[1..]);
    }
  }

  /** The environment the lines of the textarea produce; `None` (`undefined`) when no line yields a variable. */
  function EnvFromLines(lines: seq<string>): (r: Option<Fields>)
    ensures r.None? <==> forall i :: 0 <= i < |lines| ==> ParseEnvLine(lines[i]).None?
    ensures r.Some? ==> DistinctKeys(r.value)
    ensures r.Some? ==> forall k :: Lookup(r.value, k) == match LastValue(lines, k) case Some(v) => Str(v) case None => Undefined
  {
    var env := ApplyLines([], lines);
    ApplyLinesEmpty([], lines);
    ApplyLinesDistinct([], lines);
    assert forall k :: Lookup(env, k) == match LastValue(lines, k) case Some(v) => Str(v) case None => Undefined by {
      forall k ensures Lookup(env, k) == match LastValue(lines, k) case Some(v) => Str(v) case None => Undefined {
        ApplyLinesLookup([], lines, k);
      }
    }
    if |env| > 0 then Some(env) else None
  }

  /** `configEnv.split(sep)` followed by the line parsing. */
  function ParseEnv(text: string, sep: string): Option<Fields>
    requires |sep| > 0
  {
    EnvFromLines(Split(text, sep))
  }

  // ---------------------------------------------------------------------------
  // Submit
  // ---------------------------------------------------------------------------

  /** `v ? v.split(...) : ...` on a form value: falsy gives `None`, a string its text, anything else throws. */
  function TextOf(v: Json, field: string): (r: Result<Option<string>>)
    ensures !Truthy(v) ==> r == Ok(None)
    ensures v.Str? && v.s != "" ==> r == Ok(Some(v.s))
    ensures r.Err? <==> Truthy(v) && !v.Str?
  {
    if !Truthy(v) then Ok(None)
    else if v.Str? then Ok(Some(v.s))
    else Err("values." + field + ".split is not a function")
  }

  /** `handleSubmit` with environment lines split on `sep`. */
  function SubmitWith(values: FormValues, sep: string): (r: Result<ServerData>)
    requires |sep| > 0
    ensures r.Ok? ==> r.value.name == values.name && r.value.author == values.author
    ensures r.Ok? ==> (r.value.developerInfo ==
              DeveloperInfo(values.developerName, values.developerEmail, values.developerWebsite, values.developerCompany))
    ensures r.Ok? ==> r.value.description == values.description && r.value.version == values.version
    ensures r.Ok? ==> r.value.category == values.category && r.value.instructions == values.instructions
    ensures r.Ok? ==> r.value.website == values.website && r.value.supportEmail == values.supportEmail
    ensures r.Ok? ==> r.value.repository == values.repository && r.value.videoUrl == values.videoUrl
    ensures r.Ok? ==> r.value.config.command == values.configCommand
    ensures r.Ok? ==> r.value.config.args == if values.configArgs.Str? then ParseArgs(values.configArgs.s) else []
    ensures r.Ok? ==> r.value.config.env == if values.configEnv.Str? then ParseEnv(values.configEnv.s, sep) else None
    ensures r.Err? <==> (Truthy(values.configArgs) && !values.configArgs.Str?) || (Truthy(values.configEnv) && !values.configEnv.Str?)
  {
    var argsText :- TextOf(values.configArgs, "configArgs");
    var envText :- TextOf(values.configEnv, "configEnv");
    var args := match argsText case Some(t) => ParseArgs(t) case None => [];
    var env := match envText case Some(t) => ParseEnv(t, sep) case None => None;
    assert values.configArgs == Str("") ==> ParseArgs("") == [] by {
      assert Split("", " ") == [""];
    }
    assert values.configEnv == Str("") ==> ParseEnv("", sep).None? by {
      EmptyEnvText(sep);
    }
    Ok(ServerData(
      name := values.name,
      description := values.description,
      version := values.version,
      author := values.author,
      category := values.category,
      instructions := values.instructions,
      website := values.website,
      supportEmail := values.supportEmail,
      repository := values.repository,
      videoUrl := values.videoUrl,
      developerInfo := DeveloperInfo(values.developerName, values.developerEmail, values.developerWebsite, values.developerCompany),
      config := SubmittedConfig(values.configCommand, args, env)))
  }

  /** An empty textarea yields no variables. */
  lemma EmptyEnvText(sep: string)
    requires |sep| > 0
    ensures ParseEnv("", sep).None?
  {
    assert Split("", sep) == [""];
    assert IndexOf("", "=").None?;
  }

  /** `handleSubmit` as written. */
  function Submit(values: FormValues): Result<ServerData> {
    SubmitWith(values, EnvSeparator)
  }

  // ---------------------------------------------------------------------------
  // Round trip
  // ---------------------------------------------------------------------------

  /** `sep` holds no `=`, so no line can be cut at its `=`. */
  predicate NoEquals(sep: string) {
    forall k :: 0 <= k < |sep| ==> sep[k] != '='
  }

  /** An environment entry the form can carry: a trimmed key without `=` and a trimmed string value, neither holding `sep`. */
  predicate CarriableEntry(e: (string, Json), sep: string) {
    && e.0 != "" && Trimmed(e.0) && !Contains(e.0, "=") && !Contains(e.0, sep)
    && e.1.Str? && Trimmed(e.1.s) && !Contains(e.1.s, sep)
  }

  /** A carriable line parses back to its key and value. */
  lemma EnvLineRoundTrip(e: (string, Json), sep: string)
    requires CarriableEntry(e, sep)
    ensures ParseEnvLine(EnvLine(e)) == Some((e.0, e.1.s))
  {
    var line := EnvLine(e);
    var n := |e.0|;
    assert line == e.0 + "=" + e.1.s;
    assert line[n..n + 1] == "=";
    forall j: nat | j < n ensures !OccursAt(line, "=", j) {
      assert !OccursAt(e.0, "=", j);
      assert line[j..j + 1] == e.0[j..j + 1];
    }
    IndexOfIs(line, "=", n);
    assert line[..n] == e.0;
    assert line[n + 1..] == e.1.s;
  }

  /** The string value of a key, when it has one. */
  function EnvValue(fs: Fields, k: string): Option<string> {
    if HasKey(fs, k) && Lookup(fs, k).Str? then Some(Lookup(fs, k).s) else None
  }

  /** In a list of carriable entries with distinct keys, the last line for a key is that entry's own line. */
  lemma {:induction false} LastValueOfEntries(entries: seq<(string, Json)>, sep: string, k: string)
    requires DistinctKeys(entries)
    requires forall i :: 0 <= i < |entries| ==> CarriableEntry(entries[i], sep)
    ensures LastValue(EnvLines(entries), k) == EnvValue(entries, k)
    decreases |entries|
  {
    if |entries| > 0 {
      var n := |entries| - 1;
      var init := entries[..n];
      assert CarriableEntry(entries[n], sep);
      LastLineOfEntries(entries, sep, k);
      assert DistinctKeys(init);
      assert forall i :: 0 <= i < |init| ==> init[i] == entries[i];
      LastValueOfEntries(init, sep, k);
      EnvValueLast(entries, k);
    }
  }

  lemma LastLineOfEntries(entries: seq<(string, Json)>, sep: string, k: string)
    requires |entries| > 0 && CarriableEntry(entries[|entries| - 1], sep)
    ensures var n := |entries| - 1;
            LastValue(EnvLines(entries), k) == if entries[n].0 == k then Some(entries[n].1.s) else LastValue(EnvLines(entries[..n]), k)
  {
    var n := |entries| - 1;
    var lines := EnvLines(entries);
    assert lines[..n] == EnvLines(entries[..n]);
    EnvLineRoundTrip(entries[n], sep);
  }

  lemma EnvValueLast(fs: Fields, k: string)
    requires DistinctKeys(fs) && |fs| > 0
    ensures var n := |fs| - 1;
            EnvValue(fs, k) == if fs[n].0 == k then (if fs[n].1.Str? then Some(fs[n].1.s) else None) else EnvValue(fs[..n], k)
  {
    LookupLast(fs, k);
  }

  /** Looking a key up in distinct-keyed fields is looking at the last entry or else the rest. */
  lemma {:induction false} LookupLast(fs: Fields, k: string)
    requires DistinctKeys(fs) && |fs| > 0
    ensures var n := |fs| - 1;
            && (HasKey(fs, k) <==> fs[n].0 == k || HasKey(fs[..n], k))
            && Lookup(fs, k) == if fs[n].0 == k then fs[n].1 else Lookup(fs[..n], k)
    decreases |fs|
  {
    var n := |fs| - 1;
    HasKeyCons(fs, k);
    if n > 0 {
      DistinctTail(fs);
      LookupLast(fs[1..], k);
      assert fs[1..][..n - 1] == fs[..n][1..];
      HasKeyCons(fs[..n], k);
      if fs[n].0 == k {
        assert fs[0].0 != k;
      }
    }
  }

  /** For carriable entries, `EnvValue` is the lookup itself. */
  lemma EnvValueOfCarriable(entries: seq<(string, Json)>, sep: string, k: string)
    requires forall i :: 0 <= i < |entries| ==> CarriableEntry(entries[i], sep)
    ensures (match EnvValue(entries, k) case Some(v) => Str(v) case None => Undefined) == Lookup(entries, k)
  {
    if HasKey(entries, k) {
      var i :| 0 <= i < |entries| && entries[i] == (k, Lookup(entries, k));
      assert CarriableEntry(entries[i], sep);
    }
  }

  /**
   * Populate then submit gives back an environment of carriable entries
   * key for key, for any separator that cannot overlap itself and holds no
   * `=`; an empty environment comes back as `undefined`.
   */
  lemma EnvRoundTrip(entries: seq<(string, Json)>, sep: string)
    requires |sep| > 0 && Unbordered(sep) && NoEquals(sep)
    requires DistinctKeys(entries)
    requires forall i :: 0 <= i < |entries| ==> CarriableEntry(entries[i], sep)
    ensures |entries| == 0 ==> ParseEnv(Join(EnvLines(entries), sep), sep).None?
    ensures |entries| > 0 ==> ParseEnv(Join(EnvLines(entries), sep), sep).Some?
    ensures |entries| > 0 ==> forall k :: Lookup(ParseEnv(Join(EnvLines(entries), sep), sep).value, k) == Lookup(entries, k)
  {
    var lines := EnvLines(entries);
    if |entries| == 0 {
      EmptyEnvText(sep);
    } else {
      forall i | 0 <= i < |lines| ensures !Contains(lines[i], sep) {
        assert lines[i] == entries[i].0 + ['='] + entries[i].1.s;
        NoOccurrenceAcross(entries[i].0, '=', entries[i].1.s, sep);
      }
      SplitJoin(lines, sep);
      EnvLineRoundTrip(entries[0], sep);
      var env := EnvFromLines(lines);
      assert env.Some?;
      forall k ensures Lookup(env.value, k) == Lookup(entries, k) {
        LastValueOfEntries(entries, sep, k);
        EnvValueOfCarriable(entries, sep, k);
      }
    }
  }

  /**
   * Populating the form from an entry and submitting it unchanged gives back
   * the entry's command, its arguments when they are non-empty and
   * space-free, and its environment key for key when the entries are
   * carriable; an empty environment object comes back as `undefined`.
   */
  lemma PopulateThenSubmit(server: Json, sep: string, args: seq<string>, entries: Fields)
    requires |sep| > 0 && Unbordered(sep) && NoEquals(sep)
    requires Prop(Prop(server, "config"), "args") == Arr(Map(args, a => Str(a)))
    requires forall i :: 0 <= i < |args| ==> args[i] != "" && !Contains(args[i], " ")
    requires Prop(Prop(server, "config"), "env") == Obj(entries)
    requires DistinctKeys(entries) && forall i :: 0 <= i < |entries| ==> CarriableEntry(entries[i], sep)
    ensures var r := SubmitWith(PopulateWith(server, sep), sep);
            && r.Ok?
            && r.value.name == Prop(server, "name")
            && r.value.config.command == Or(Prop(Prop(server, "config"), "command"), Str(""))
            && r.value.config.args == args
            && (|entries| == 0 <==> r.value.config.env.None?)
            && (r.value.config.env.Some? ==> forall k :: Lookup(r.value.config.env.value, k) == Lookup(entries, k))
  {
    var f := PopulateWith(server, sep);
    var argsLine := JoinValues(Map(args, a => Str(a)), " ");
    var envText := Join(EnvLines(entries), sep);
    assert f.configArgs == Str(argsLine);
    assert f.configEnv == Str(envText);
    ArgsRoundTrip(args);
    EnvRoundTrip(entries, sep);
    var r := SubmitWith(f, sep);
    assert r.Ok?;
    assert r.value.config.args == ParseArgs(argsLine) == args;
    assert r.value.config.env == ParseEnv(envText, sep);
  }

  /** The backslash-`n` separator and the line break both qualify for the round trip. */
  lemma SeparatorsQualify()
    ensures Unbordered(EnvSeparator) && NoEquals(EnvSeparator)
    ensures Unbordered(LineBreak) && NoEquals(LineBreak)
  {
    assert EnvSeparator[..1][0] != EnvSeparator[1..][0];
  }

  // ---------------------------------------------------------------------------
  // The separator mismatch
  // ---------------------------------------------------------------------------

  /** `c` does not occur in `s`. */
  predicate Lacks(s: string, c: char) {
    forall i :: 0 <= i < |s| ==> s[i] != c
  }

  /** A key a user would type: non-empty, trimmed, without `=`, backslash or line break. */
  predicate TypedKey(k: string) {
    k != "" && Trimmed(k) && Lacks(k, '=') && Lacks(k, '\\') && Lacks(k, '\n')
  }

  /** A value a user would type: non-empty, trimmed, without backslash or line break. */
  predicate TypedValue(v: string) {
    v != "" && Trimmed(v) && Lacks(v, '\\') && Lacks(v, '\n')
  }

  /** Two variables typed on two lines, as the placeholder shows them. */
  function TwoLines(k1: string, v1: string, k2: string, v2: string): string {
    k1 + "=" + v1 + LineBreak + k2 + "=" + v2
  }

  lemma LacksConcat(a: string, b: string, c: char)
    requires Lacks(a, c) && Lacks(b, c)
    ensures Lacks(a + b, c)
  {
    forall i | 0 <= i < |a + b| ensures (a + b)[i] != c {
      if i >= |a| { assert (a + b)[i] == b[i - |a|]; }
    }
  }

  /** The text before the first `=` of `k + "=" + rest` is `k` when `k` has no `=`. */
  lemma FirstEquals(k: string, rest: string)
    requires Lacks(k, '=')
    ensures IndexOf(k + "=" + rest, "=") == Some(|k|)
  {
    var line := k + "=" + rest;
    assert line[|k|..|k| + 1] == "=";
    forall j: nat | j < |k| ensures !OccursAt(line, "=", j) {
      assert line[j..j + 1][0] == k[j];
    }
    IndexOfIs(line, "=", |k|);
  }

  /** `k=v` with a typed key and a trimmed value parses to `(k, v)`. */
  lemma TypedLine(k: string, v: string)
    requires TypedKey(k) && Trimmed(v)
    ensures ParseEnvLine(k + "=" + v) == Some((k, v))
  {
    var line := k + "=" + v;
    FirstEquals(k, v);
    assert line[..|k|] == k && line[|k| + 1..] == v;
  }

  /** One parsing line gives exactly its variable. */
  lemma OneLineEnv(line: string, k: string, v: string)
    requires ParseEnvLine(line) == Some((k, v))
    ensures EnvFromLines([line]) == Some([(k, Str(v))])
  {
    assert ApplyLines([], [line]) == ApplyLine([], line);
  }

  /** The `forEach` over two lines applies the first, then the second. */
  lemma ApplyTwoLines(env: Fields, l1: string, l2: string)
    ensures ApplyLines(env, [l1, l2]) == ApplyLine(ApplyLine(env, l1), l2)
  {
    var x := ApplyLine(env, l1);
    assert [l1, l2][0] == l1;
    assert [l1, l2][1..] == [l2];
    assert ApplyLines(env, [l1, l2]) == ApplyLines(x, [l2]);
    assert [l2][0] == l2;
    assert [l2][1..] == [];
    assert ApplyLines(x, [l2]) == ApplyLines(ApplyLine(x, l2), []);
  }

  /** Assigning a second, different key to a one-variable environment appends it. */
  lemma AssignSecond(k1: string, v1: Json, k2: string, v2: Json)
    requires k1 != k2
    ensures Assign([(k1, v1)], k2, v2) == [(k1, v1), (k2, v2)]
  {
    var first := [(k1, v1)];
    assert first[1..] == [];
    assert Assign(first, k2, v2) == [first[0]] + Assign([], k2, v2);
  }

  /** Two parsing lines with different keys give both variables, in order. */
  lemma TwoLineEnv(l1: string, k1: string, v1: string, l2: string, k2: string, v2: string)
    requires ParseEnvLine(l1) == Some((k1, v1)) && ParseEnvLine(l2) == Some((k2, v2)) && k1 != k2
    ensures EnvFromLines([l1, l2]) == Some([(k1, Str(v1)), (k2, Str(v2))])
  {
    var first := [(k1, Str(v1))];
    assert ApplyLine([], l1) == first;
    AssignSecond(k1, Str(v1), k2, Str(v2));
    assert ApplyLine(first, l2) == [(k1, Str(v1)), (k2, Str(v2))];
    ApplyTwoLines([], l1, l2);
  }

  /**
   * As written, two typed lines reach the parser as one line (there is no
   * backslash-`n` in them), so they come back as a single variable named by
   * the first key, whose value swallows the line break and the second
   * assignment: `PORT=3000` and `DEBUG=true` on two lines give only `PORT`.
   */
  lemma TypedLinesMergeAsWritten(k1: string, v1: string, k2: string, v2: string)
    requires TypedKey(k1) && TypedKey(k2) && TypedValue(v1) && TypedValue(v2)
    ensures ParseEnv(TwoLines(k1, v1, k2, v2), EnvSeparator) == Some([(k1, Str(v1 + LineBreak + k2 + "=" + v2))])
  {
    var t := TwoLines(k1, v1, k2, v2);
    var rest := v1 + LineBreak + k2 + "=" + v2;
    assert t == k1 + "=" + rest;
    LacksConcat(k1, "=", '\\');
    LacksConcat(k1 + "=", v1, '\\');
    LacksConcat(k1 + "=" + v1, LineBreak, '\\');
    LacksConcat(k1 + "=" + v1 + LineBreak, k2, '\\');
    LacksConcat(k1 + "=" + v1 + LineBreak + k2, "=", '\\');
    LacksConcat(k1 + "=" + v1 + LineBreak + k2 + "=", v2, '\\');
    AbsentFirstChar(t, EnvSeparator);
    assert Split(t, EnvSeparator) == [t];
    assert Trimmed(rest) by {
      assert rest[0] == v1[0] && rest[|rest| - 1] == v2[|v2| - 1];
    }
    TypedLine(k1, rest);
    OneLineEnv(t, k1, rest);
  }

  /** `handleSubmit` as evidently intended: environment lines split on line breaks. */
  function SubmitIntended(values: FormValues): (r: Result<ServerData>)
    ensures r.Ok? ==> r.value.config.env == if values.configEnv.Str? then ParseEnv(values.configEnv.s, LineBreak) else None
  {
    SubmitWith(values, LineBreak)
  }

  /** Split on line breaks, two typed lines with different keys give the two variables the user meant. */
  lemma TypedLinesSplitWhenIntended(k1: string, v1: string, k2: string, v2: string)
    requires TypedKey(k1) && TypedKey(k2) && TypedValue(v1) && TypedValue(v2) && k1 != k2
    ensures ParseEnv(TwoLines(k1, v1, k2, v2), LineBreak) == Some([(k1, Str(v1)), (k2, Str(v2))])
  {
    var a := k1 + "=" + v1;
    var b := k2 + "=" + v2;
    assert TwoLines(k1, v1, k2, v2) == Join([a, b], LineBreak);
    LacksConcat(k1, "=", '\n');
    LacksConcat(k1 + "=", v1, '\n');
    LacksConcat(k2, "=", '\n');
    LacksConcat(k2 + "=", v2, '\n');
    AbsentFirstChar(a, LineBreak);
    AbsentFirstChar(b, LineBreak);
    SplitJoin([a, b], LineBreak);
    TypedLine(k1, v1);
    TypedLine(k2, v2);
    TwoLineEnv(a, k1, v1, b, k2, v2);
  }
}

=== FILE: store.dfy ===
/**
 * The renderer's marketplace store (`MarketplaceContext.tsx`): the lists of
 * servers the screens show, their loading and error flags, and the create,
 * update and delete operations that refetch both lists afterwards.
 *
 * React's `setState(prev => …)` becomes a function from the state before to
 * the state after. What an API call resolved to is a parameter; the calls a
 * `Promise.all` runs together are applied one after the other, which
 * `RefreshOrderIrrelevant` shows makes no difference.
 */
module Store {
  import opened Basics
  import opened Text
  import opened Json
  import opened Auth
  import opened ApiClient

  /** `MarketplaceState`; a missing error is `Null`. */
  datatype MarketplaceState = MarketplaceState(
    servers: seq<Json>,
    serversLoading: bool,
    serversError: Json,
    myServers: seq<Json>,
    myServersLoading: bool,
    myServersError: Json,
    creating: bool,
    updating: bool,
    deleting: bool)

  const Initial: MarketplaceState := MarketplaceState([], false, Null, [], false, Null, false, false, false)

  /** Nothing is loading and no operation is running. */
  predicate Idle(st: MarketplaceState) {
    !st.serversLoading && !st.myServersLoading && !st.creating && !st.updating && !st.deleting
  }

  /** How an awaited API call settled: the client's record, or a rejection with the error's `message`, if any. */
  datatype Reply = Resolved(response: ApiResponse) | Rejected(message: Option<string>)

  const FetchServersFailedMessage: string := "Failed to fetch servers"
  const FetchMyServersFailedMessage: string := "Failed to fetch your servers"
  const ApiDownMessage: string := "API server is not running. Please enable it in Settings → API Server."
  const ServersNetworkMessage: string := "Network error while fetching servers"
  const MyServersNetworkMessage: string := "Network error while fetching your servers"

  /** `Array.isArray(data) ? data : []` */
  function ListOf(data: Json): (r: seq<Json>)
    ensures data.Arr? ==> r == data.items
    ensures !data.Arr? ==> r == []
  {
    if data.Arr? then data.items else []
  }

  /** The error message of a caught exception names a failed connection. */
  predicate IsConnectionError(message: Option<string>) {
    message.Some? &&
    (Contains(message.value, "Failed to fetch") || Contains(message.value, "ERR_CONNECTION_REFUSED")
     || Contains(message.value, "Network error"))
  }

  // ---------------------------------------------------------------------------
  // Fetching the lists
  // ---------------------------------------------------------------------------

  /** Only the fields of the public list differ between `a` and `b`. */
  predicate OnlyServersDiffer(a: MarketplaceState, b: MarketplaceState) {
    a.(servers := b.servers, serversLoading := b.serversLoading, serversError := b.serversError) == b
  }

  /** Only the fields of the user's own list differ between `a` and `b`. */
  predicate OnlyMyServersDiffer(a: MarketplaceState, b: MarketplaceState) {
    a.(myServers := b.myServers, myServersLoading := b.myServersLoading, myServersError := b.myServersError) == b
  }

  /**
   * `fetchServers`: the list is marked loading with no error, then a
   * successful response replaces it with the response's array (or an empty
   * list), a failed one keeps the list and records the response's error or
   * a fallback, and a rejection records a message chosen by whether it looks
   * like a failed connection.
   */
  function FetchServers(st: MarketplaceState, reply: Reply): (r: MarketplaceState)
    ensures OnlyServersDiffer(st, r) && !r.serversLoading
    ensures reply.Resolved? && Truthy(reply.response.success) ==> r.servers == ListOf(reply.response.data) && r.serversError == Null
    ensures !(reply.Resolved? && Truthy(reply.response.success)) ==> r.servers == st.servers && Truthy(r.serversError)
    ensures reply.Resolved? && !Truthy(reply.response.success) ==>
              r.serversError == Or(reply.response.error, Str(FetchServersFailedMessage))
    ensures reply.Rejected? ==> (r.serversError == Str(ApiDownMessage) <==> IsConnectionError(reply.message))
  {
    var started := st.(serversLoading := true, serversError := Null);
    match reply
    case Resolved(response) =>
      if Truthy(response.success) then started.(servers := ListOf(response.data), serversLoading := false)
      else started.(serversError := Or(response.error, Str(FetchServersFailedMessage)), serversLoading := false)
    case Rejected(m) =>
      started.(serversError := Str(if IsConnectionError(m) then ApiDownMessage else ServersNetworkMessage),
               serversLoading := false)
  }

  /**
   * `fetchMyServers`: signed out, the list is emptied without a request (its
   * error is left as it was); signed in, it behaves like `FetchServers` on
   * the user's own list, with its own fallback messages.
   */
  function FetchMyServers(st: MarketplaceState, isAuthenticated: bool, reply: Reply): (r: MarketplaceState)
    ensures OnlyMyServersDiffer(st, r) && !r.myServersLoading
    ensures !isAuthenticated ==> r.myServers == [] && r.myServersError == st.myServersError
    ensures isAuthenticated && reply.Resolved? && Truthy(reply.response.success) ==>
              r.myServers == ListOf(reply.response.data) && r.myServersError == Null
    ensures isAuthenticated && !(reply.Resolved? && Truthy(reply.response.success)) ==>
              r.myServers == st.myServers && Truthy(r.myServersError)
    ensures isAuthenticated && reply.Resolved? && !Truthy(reply.response.success) ==>
              r.myServersError == Or(reply.response.error, Str(FetchMyServersFailedMessage))
    ensures isAuthenticated && reply.Rejected? ==> r.myServersError == Str(MyServersNetworkMessage)
  {
    if !isAuthenticated then st.(myServers := [], myServersLoading := false)
    else
      var started := st.(myServersLoading := true, myServersError := Null);
      match reply
      case Resolved(response) =>
        if Truthy(response.success) then started.(myServers := ListOf(response.data), myServersLoading := false)
        else started.(myServersError := Or(response.error, Str(FetchMyServersFailedMessage)), myServersLoading := false)
      case Rejected(_) => started.(myServersError := Str(MyServersNetworkMessage), myServersLoading := false)
  }

  /** The two replies a refresh of both lists settles with. */
  datatype Refetch = Refetch(servers: Reply, mine: Reply)

  /** `refreshAll` and the refetch after every successful operation: both lists. */
  function Refresh(st: MarketplaceState, isAuthenticated: bool, again: Refetch): MarketplaceState {
    FetchMyServers(FetchServers(st, again.servers), isAuthenticated, again.mine)
  }

  /** The two fetches touch disjoint fields, so the order a `Promise.all` settles them in does not matter. */
  lemma RefreshOrderIrrelevant(st: MarketplaceState, isAuthenticated: bool, again: Refetch)
    ensures Refresh(st, isAuthenticated, again)
            == FetchServers(FetchMyServers(st, isAuthenticated, again.mine), again.servers)
  {
  }

  /** Fetching with the same reply twice is the same as fetching once. */
  lemma FetchIdempotent(st: MarketplaceState, isAuthenticated: bool, reply: Reply)
    ensures FetchServers(FetchServers(st, reply), reply) == FetchServers(st, reply)
    ensures FetchMyServers(FetchMyServers(st, isAuthenticated, reply), isAuthenticated, reply)
            == FetchMyServers(st, isAuthenticated, reply)
  {
  }

  /**
   * The effect that runs on mount and whenever the sign-in state changes:
   * the public list is fetched, and the user's list is fetched when signed
   * in or emptied otherwise.
   */
  function OnSessionChange(st: MarketplaceState, isAuthenticated: bool, again: Refetch): (r: MarketplaceState)
    ensures r.servers == FetchServers(st, again.servers).servers
    ensures !isAuthenticated ==> r.myServers == []
    ensures isAuthenticated ==> r == Refresh(st, true, again)
  {
    var fetched := FetchServers(st, again.servers);
    if isAuthenticated then FetchMyServers(fetched, true, again.mine)
    else fetched.(myServers := [])
  }

  /**
   * As written, the client catches every failure itself, so a refused
   * connection reaches `fetchServers` as a resolved failure carrying the
   * browser's own `Failed to fetch`; the branch that would recognise that
   * message and explain that the API server is off never runs.
   */
  lemma ConnectionRefusedShownRaw(st: MarketplaceState, retry: Fetched)
    ensures FetchServers(st, Resolved(Request(Threw("Failed to fetch"), retry).response)).serversError == Str("Failed to fetch")
    ensures IsConnectionError(Some("Failed to fetch"))
  {
    assert OccursAt("Failed to fetch", "Failed to fetch", 0);
  }

  /** `fetchServers` as evidently intended: a failed response that names a failed connection is explained like a rejection. */
  function FetchServersIntended(st: MarketplaceState, reply: Reply): (r: MarketplaceState)
    ensures OnlyServersDiffer(st, r) && !r.serversLoading
    ensures reply.Resolved? && Truthy(reply.response.success) ==> r == FetchServers(st, reply)
    ensures (reply.Resolved? && !Truthy(reply.response.success) && reply.response.error.Str?
             && IsConnectionError(Some(reply.response.error.s))) ==> r.serversError == Str(ApiDownMessage)
    ensures reply.Rejected? ==> r == FetchServers(st, reply)
  {
    match reply
    case Resolved(response) =>
      if !Truthy(response.success) && response.error.Str? && IsConnectionError(Some(response.error.s)) then
        FetchServers(st, Rejected(Some(response.error.s)))
      else FetchServers(st, reply)
    case Rejected(_) => FetchServers(st, reply)
  }

  /** The client's generic network message names a failed connection too. */
  lemma NetworkMessageIsConnectionError()
    ensures IsConnectionError(Some(NetworkErrorMessage))
  {
    assert OccursAt(NetworkErrorMessage, "Network error", 0);
  }

  /** As intended, a refused connection, or a failure without a message, tells the user the API server is off. */
  lemma ConnectionRefusedExplainedWhenIntended(st: MarketplaceState, m: string, retry: Fetched)
    requires m == "" || IsConnectionError(Some(m))
    ensures FetchServersIntended(st, Resolved(Request(Threw(m), retry).response)).serversError == Str(ApiDownMessage)
  {
    NetworkMessageIsConnectionError();
  }

  // ---------------------------------------------------------------------------
  // Operations
  // ---------------------------------------------------------------------------

  /** `createServer`: a successful response refetches both lists; the flag is cleared and the response returned either way. */
  function CreateServer(st: MarketplaceState, isAuthenticated: bool, response: ApiResponse, again: Refetch): (r: (MarketplaceState, ApiResponse))
    ensures r.1 == response && !r.0.creating
    ensures !Truthy(response.success) ==> r.0 == st.(creating := false)
    ensures Truthy(response.success) ==> r.0 == Refresh(st.(creating := true), isAuthenticated, again).(creating := false)
  {
    var busy := st.(creating := true);
    var after := if Truthy(response.success) then Refresh(busy, isAuthenticated, again) else busy;
    (after.(creating := false), response)
  }

  /** `updateServer`: as `CreateServer`, with the `updating` flag. */
  function UpdateServer(st: MarketplaceState, isAuthenticated: bool, response: ApiResponse, again: Refetch): (r: (MarketplaceState, ApiResponse))
    ensures r.1 == response && !r.0.updating
    ensures !Truthy(response.success) ==> r.0 == st.(updating := false)
    ensures Truthy(response.success) ==> r.0 == Refresh(st.(updating := true), isAuthenticated, again).(updating := false)
  {
    var busy := st.(updating := true);
    var after := if Truthy(response.success) then Refresh(busy, isAuthenticated, again) else busy;
    (after.(updating := false), response)
  }

  /** `s.id !== serverId` */
  predicate NotThatServer(s: Json, serverId: Json) {
    Prop(s, "id") != serverId
  }

  /** The filter callback of `deleteServer`. */
  function OtherThan(serverId: Json): Json -> bool {
    (s: Json) => NotThatServer(s, serverId)
  }

  /**
   * The listed servers other than `serverId`, in their order and with their
   * multiplicity: the elements at exactly the positions whose id differs.
   */
  function Without(list: seq<Json>, serverId: Json): (r: seq<Json>)
    ensures forall i :: 0 <= i < |r| ==> NotThatServer(r[i], serverId)
    ensures forall s :: s in r <==> s in list && NotThatServer(s, serverId)
    ensures forall s :: multiset(r)[s] == if NotThatServer(s, serverId) then multiset(list)[s] else 0
    ensures var ix := Kept(list, OtherThan(serverId), 0);
            |r| == |ix| && forall k :: 0 <= k < |r| ==> r[k] == list[ix[k]]
  {
    FilterInOrder(list, OtherThan(serverId));
    Filter(list, OtherThan(serverId))
  }

  /** The optimistic step of `deleteServer`: the server leaves both lists at once. */
  function RemoveListed(st: MarketplaceState, serverId: Json): (r: MarketplaceState)
    ensures forall s :: s in r.servers <==> s in st.servers && NotThatServer(s, serverId)
    ensures forall s :: s in r.myServers <==> s in st.myServers && NotThatServer(s, serverId)
    ensures r.(servers := st.servers, myServers := st.myServers) == st
  {
    st.(servers := Without(st.servers, serverId), myServers := Without(st.myServers, serverId))
  }

  /**
   * `deleteServer`: a successful response removes the server from both lists
   * and then refetches them; the flag is cleared and the response returned
   * either way.
   */
  function DeleteServer(st: MarketplaceState, isAuthenticated: bool, serverId: Json, response: ApiResponse, again: Refetch): (r: (MarketplaceState, ApiResponse))
    ensures r.1 == response && !r.0.deleting
    ensures !Truthy(response.success) ==> r.0 == st.(deleting := false)
    ensures Truthy(response.success) ==>
              r.0 == Refresh(RemoveListed(st.(deleting := true), serverId), isAuthenticated, again).(deleting := false)
  {
    var busy := st.(deleting := true);
    var after := if Truthy(response.success) then Refresh(RemoveListed(busy, serverId), isAuthenticated, again) else busy;
    (after.(deleting := false), response)
  }

  /** A deleted server stays out of every list whose refetch failed: a failed refresh cannot bring it back. */
  lemma DeletedStaysGone(st: MarketplaceState, isAuthenticated: bool, serverId: Json, response: ApiResponse, again: Refetch)
    requires Truthy(response.success)
    ensures var r := DeleteServer(st, isAuthenticated, serverId, response, again).0;
            (!(again.servers.Resolved? && Truthy(again.servers.response.success)) ==>
               forall i :: 0 <= i < |r.servers| ==> NotThatServer(r.servers[i], serverId))
            && (!(again.mine.Resolved? && Truthy(again.mine.response.success)) ==>
               forall i :: 0 <= i < |r.myServers| ==> NotThatServer(r.myServers[i], serverId))
  {
  }

  /** Every operation leaves an idle store idle, whatever its response and refetches. */
  lemma OperationsSettle(st: MarketplaceState, isAuthenticated: bool, serverId: Json, response: ApiResponse, again: Refetch)
    requires Idle(st)
    ensures Idle(CreateServer(st, isAuthenticated, response, again).0)
    ensures Idle(UpdateServer(st, isAuthenticated, response, again).0)
    ensures Idle(DeleteServer(st, isAuthenticated, serverId, response, again).0)
    ensures Idle(Refresh(st, isAuthenticated, again)) && Idle(OnSessionChange(st, isAuthenticated, again))
  {
  }

  /** A failed operation touches nothing but its own flag, which it leaves cleared. */
  lemma FailedOperationChangesNothing(st: MarketplaceState, isAuthenticated: bool, serverId: Json, response: ApiResponse, again: Refetch)
    requires Idle(st) && !Truthy(response.success)
    ensures CreateServer(st, isAuthenticated, response, again).0 == st
    ensures UpdateServer(st, isAuthenticated, response, again).0 == st
    ensures DeleteServer(st, isAuthenticated, serverId, response, again).0 == st
  {
  }

  // ---------------------------------------------------------------------------
  // Ownership
  // ---------------------------------------------------------------------------

  /** The server carries a boolean `isOwner` flag from the backend. */
  predicate HasOwnerFlag(server: Json) {
    Prop(server, "isOwner").Bool?
  }

  /**
   * The id the store compares with `ownerId`: `sub || googleId || id` on the
   * signed-in user. The stored user has neither `sub` nor `googleId`, so the
   * chain comes down to its `id`.
   */
  function UserIdOf(u: AuthUser): Json {
    u.id
  }

  /** `isOwner`: a truthy server's boolean flag when it has one, else a signed-in user whose non-empty id is the `ownerId`. */
  function IsOwner(server: Json, user: Option<AuthUser>): (r: bool)
    ensures !Truthy(server) ==> !r
    ensures Truthy(server) && HasOwnerFlag(server) ==> r == Prop(server, "isOwner").b
    ensures Truthy(server) && !HasOwnerFlag(server) ==>
              (r <==> user.Some? && Truthy(UserIdOf(user.value)) && Prop(server, "ownerId") == UserIdOf(user.value))
  {
    if !Truthy(server) then false
    else if HasOwnerFlag(server) then Prop(server, "isOwner").b
    else match user
         case None => false
         case Some(u) => Truthy(UserIdOf(u)) && Prop(server, "ownerId") == UserIdOf(u)
  }

  /** `canEdit`: signed in and a truthy server; then the flag, else an ownerless server, else ownership. */
  function CanEdit(isAuthenticated: bool, server: Json, user: Option<AuthUser>): (r: bool)
    ensures r ==> isAuthenticated && Truthy(server)
    ensures isAuthenticated && Truthy(server) && HasOwnerFlag(server) ==> r == Prop(server, "isOwner").b
  {
    if !isAuthenticated || !Truthy(server) then false
    else if HasOwnerFlag(server) then Prop(server, "isOwner").b
    else if !Truthy(Prop(server, "ownerId")) then true
    else match user
         case None => false
         case Some(u) => Truthy(UserIdOf(u)) && Prop(server, "ownerId") == UserIdOf(u)
  }

  /** Editing is owning, plus any ownerless server without a flag, for a signed-in user. */
  lemma CanEditIsOwnerOrOwnerless(isAuthenticated: bool, server: Json, user: Option<AuthUser>)
    ensures CanEdit(isAuthenticated, server, user) <==>
              isAuthenticated && (IsOwner(server, user)
                                  || (Truthy(server) && !HasOwnerFlag(server) && !Truthy(Prop(server, "ownerId"))))
  {
  }

  /** Without a backend flag, the store decides editing exactly as the sign-in service's `canEditServer` does. */
  lemma CanEditAgreesWithSession(s: AuthState, server: Json)
    requires !HasOwnerFlag(server)
    ensures CanEdit(s.isAuthenticated, server, s.user) == CanEditServer(s, server)
    ensures IsOwner(server, s.user) == IsServerOwner(s, server)
  {
  }

  /** A backend flag overrides the `ownerId` comparison in both directions. */
  lemma OwnerFlagWins(server: Json, user: Option<AuthUser>)
    requires Truthy(server) && user.Some? && Truthy(user.value.id) && Prop(server, "ownerId") == user.value.id
    requires Prop(server, "isOwner") == Bool(false)
    ensures !IsOwner(server, user) && !CanEdit(true, server, user)
  {
  }
}

=== FILE: text.dfy ===
/**
 * The JavaScript string operations the marketplace code relies on:
 * `includes`, `startsWith`, `indexOf`, `split`/`join` with a string separator,
 * `trim`, `replace` with a global pattern, and number-to-decimal conversion.
 */
module Text {
  import opened Basics

  /** `p` occurs in `s` starting at index `i`. */
  predicate OccursAt(s: string, p: string, i: nat) {
    i + |p| <= |s| && s[i..i + |p|] == p
  }

  /** JavaScript `s.includes(p)`. */
  predicate Contains(s: string, p: string) {
    exists i: nat :: i <= |s| && OccursAt(s, p, i)
  }

  /** JavaScript `s.startsWith(p)`. */
  predicate StartsWith(s: string, p: string) {
    OccursAt(s, p, 0)
  }

  lemma OccursShift(s: string, p: string, i: nat)
    requires |s| > 0
    ensures OccursAt(s[1..], p, i) <==> OccursAt(s, p, i + 1)
  {
    if i + 1 + |p| <= |s| {
      assert s[1..][i..i + |p|] == s[i + 1..i + 1 + |p|];
    }
  }

  lemma NoOccurrenceAfterShift(s: string, p: string)
    requires |s| > 0 && !OccursAt(s, p, 0) && !Contains(s[1..], p)
    ensures !Contains(s, p)
  {
    forall i: nat ensures !OccursAt(s, p, i) {
      if i > 0 {
        OccursShift(s, p, i - 1);
      }
    }
  }

  lemma FirstOccurrenceAfterShift(s: string, p: string, k: nat)
    requires |s| > 0 && !OccursAt(s, p, 0) && OccursAt(s[1..], p, k)
    requires forall j: nat :: j < k ==> !OccursAt(s[1..], p, j)
    ensures OccursAt(s, p, k + 1)
    ensures forall j: nat :: j < k + 1 ==> !OccursAt(s, p, j)
  {
    OccursShift(s, p, k);
    forall j: nat | j < k + 1 ensures !OccursAt(s, p, j) {
      if j > 0 {
        OccursShift(s, p, j - 1);
      }
    }
  }

  /** JavaScript `s.indexOf(p)`, with "not found" as `None`: the first occurrence. */
  function IndexOf(s: string, p: string): (r: Option<nat>)
    ensures r.Some? ==> OccursAt(s, p, r.value)
    ensures r.Some? ==> forall j: nat :: j < r.value ==> !OccursAt(s, p, j)
    ensures r.None? <==> !Contains(s, p)
    decreases |s|
  {
    if |s| < |p| then
      None
    else if s[..|p|] == p then
      Some(0)
    else
      match IndexOf(s[1..], p)
      case None => NoOccurrenceAfterShift(s, p); None
      case Some(k) => FirstOccurrenceAfterShift(s, p, k); Some(k + 1)
  }

  /** An occurrence of `p` at `i` and none earlier: `i` is what `indexOf` returns. */
  lemma IndexOfIs(s: string, p: string, i: nat)
    requires OccursAt(s, p, i)
    requires forall j: nat :: j < i ==> !OccursAt(s, p, j)
    ensures IndexOf(s, p) == Some(i)
  {
    var r := IndexOf(s, p);
    assert Contains(s, p);
    assert !(r.value < i);
  }

  /** A string without the first character of `p` holds no occurrence of `p`. */
  lemma AbsentFirstChar(s: string, p: string)
    requires |p| > 0 && forall i :: 0 <= i < |s| ==> s[i] != p[0]
    ensures !Contains(s, p)
  {
    forall j: nat | j <= |s| ensures !OccursAt(s, p, j) {
      if j + |p| <= |s| {
        assert s[j..j + |p|][0] == s[j];
      }
    }
  }

  /** A string without some character of `p` holds no occurrence of `p`. */
  lemma AbsentChar(s: string, p: string, k: nat)
    requires k < |p| && forall i :: 0 <= i < |s| ==> s[i] != p[k]
    ensures !Contains(s, p)
  {
    forall j: nat | j <= |s| ensures !OccursAt(s, p, j) {
      if j + |p| <= |s| {
        assert s[j..j + |p|][k] == s[j + k];
      }
    }
  }

  /** An occurrence in `b` is one in `a + b`. */
  lemma OccursAfter(a: string, b: string, p: string, i: nat)
    requires OccursAt(b, p, i)
    ensures OccursAt(a + b, p, |a| + i)
    ensures Contains(a + b, p)
  {
    var w: nat := |a| + i;
    assert (a + b)[w..w + |p|] == b[i..i + |p|];
    assert w <= |a + b| && OccursAt(a + b, p, w);
  }

  /** A prefix that ends before the first occurrence of `p` holds no occurrence of `p`. */
  lemma PrefixBeforeFirst(s: string, p: string, i: nat)
    requires i <= |s| && |p| > 0
    requires forall j: nat :: j < i ==> !OccursAt(s, p, j)
    ensures !Contains(s[..i], p)
  {
    forall j: nat | j <= i ensures !OccursAt(s[..i], p, j) {
      if j + |p| <= i {
        assert !OccursAt(s, p, j);
        assert s[..i][j..j + |p|] == s[j..j + |p|];
      }
    }
  }

  /** An occurrence of `p` in `a + [c] + b` with `c` not in `p` lies inside `a` or inside `b`. */
  lemma NoOccurrenceAcross(a: string, c: char, b: string, p: string)
    requires |p| > 0 && !Contains(a, p) && !Contains(b, p)
    requires forall k :: 0 <= k < |p| ==> p[k] != c
    ensures !Contains(a + [c] + b, p)
  {
    var s := a + [c] + b;
    forall j: nat | j <= |s| ensures !OccursAt(s, p, j) {
      if j + |p| <= |a| {
        assert s[j..j + |p|] == a[j..j + |p|];
        assert !OccursAt(a, p, j);
      } else if j > |a| {
        if j + |p| <= |s| {
          assert s[j..j + |p|] == b[j - |a| - 1..j - |a| - 1 + |p|];
          assert !OccursAt(b, p, j - |a| - 1);
        }
      } else if j + |p| <= |s| {
        assert s[j..j + |p|][|a| - j] == c;
      }
    }
  }

  /** JavaScript `parts.join(sep)`. */
  function Join(parts: seq<string>, sep: string): string
  {
    if |parts| == 0 then ""
    else if |parts| == 1 then parts[0]
    else parts[0] + sep + Join(parts[1..], sep)
  }

  /**
   * JavaScript `s.split(sep)` for a non-empty string separator: the pieces
   * between successive leftmost non-overlapping occurrences of `sep`.
   * Joining the pieces with the same separator gives back `s`.
   */
  function Split(s: string, sep: string): (parts: seq<string>)
    requires |sep| > 0
    ensures |parts| >= 1
    ensures Join(parts, sep) == s
    decreases |s|
  {
    match IndexOf(s, sep)
    case None => [s]
    case Some(i) =>
      var rest := Split(s[i + |sep|..], sep);
      assert s == s[..i] + sep + s[i + |sep|..];
      [s[..i]] + rest
  }

  /** No piece of a split holds the separator. */
  lemma {:induction false} SplitPiecesAvoid(s: string, sep: string)
    requires |sep| > 0
    ensures forall i :: 0 <= i < |Split(s, sep)| ==> !Contains(Split(s, sep)[i], sep)
    decreases |s|
  {
    match IndexOf(s, sep)
    case None =>
    case Some(i) =>
      var rest := Split(s[i + |sep|..], sep);
      SplitPiecesAvoid(s[i + |sep|..], sep);
      PrefixBeforeFirst(s, sep, i);
      assert Split(s, sep) == [s[..i]] + rest;
  }

  /** No proper prefix of `sep` is also a suffix of it, so two occurrences can never overlap. */
  predicate Unbordered(sep: string) {
    forall k :: 0 < k < |sep| ==> sep[..k] != sep[|sep| - k..]
  }

  lemma NoEarlyOccurrence(a: string, sep: string, b: string, j: nat)
    requires |sep| > 0 && Unbordered(sep) && !Contains(a, sep) && j < |a|
    ensures !OccursAt(a + sep + b, sep, j)
  {
    var s := a + sep + b;
    if j + |sep| <= |a| {
      assert s[j..j + |sep|] == a[j..j + |sep|];
      assert !OccursAt(a, sep, j);
    } else {
      var w := s[j..j + |sep|];
      var k := j + |sep| - |a|;
      assert 0 < k < |sep|;
      assert w[|a| - j..] == sep[..k];
      assert sep[..k] != sep[|sep| - k..];
    }
  }

  lemma FirstOccurrenceAtJoinPoint(a: string, sep: string, b: string)
    requires |sep| > 0 && Unbordered(sep) && !Contains(a, sep)
    ensures IndexOf(a + sep + b, sep) == Some(|a|)
  {
    var s := a + sep + b;
    assert s[|a|..|a| + |sep|] == sep;
    assert OccursAt(s, sep, |a|);
    var r := IndexOf(s, sep);
    if r.value < |a| {
      NoEarlyOccurrence(a, sep, b, r.value);
    }
  }

  /**
   * Splitting a joined list gives the list back, provided no piece contains the
   * separator and the separator cannot overlap itself.
   */
  lemma {:induction false} SplitJoin(parts: seq<string>, sep: string)
    requires |sep| > 0 && Unbordered(sep) && |parts| >= 1
    requires forall i :: 0 <= i < |parts| ==> !Contains(parts[i], sep)
    ensures Split(Join(parts, sep), sep) == parts
  {
    if |parts| > 1 {
      var rest := Join(parts[1..], sep);
      FirstOccurrenceAtJoinPoint(parts[0], sep, rest);
      var s := parts[0] + sep + rest;
      assert s[..|parts[0]|] == parts[0];
      assert s[|parts[0]| + |sep|..] == rest;
      SplitJoin(parts[1..], sep);
      assert parts == [parts[0]] + parts[1..];
    }
  }

  /** The characters JavaScript's `String.prototype.trim` removes (white space and line terminators). */
  predicate IsJsSpace(c: char) {
    || c == ' ' || c == '\t' || c == '\n' || c == '\r'
    || c == '\U{000B}' || c == '\U{000C}' || c == '\U{00A0}' || c == '\U{FEFF}'
    || c == '\U{1680}' || ('\U{2000}' <= c <= '\U{200A}')
    || c == '\U{2028}' || c == '\U{2029}' || c == '\U{202F}' || c == '\U{205F}' || c == '\U{3000}'
  }

  /** Neither end of `s` is white space. */
  predicate Trimmed(s: string) {
    |s| == 0 || (!IsJsSpace(s[0]) && !IsJsSpace(s[|s| - 1]))
  }

  function TrimStart(s: string): (r: string)
    ensures |r| <= |s| && r == s[|s| - |r|..]
    ensures |r| > 0 ==> !IsJsSpace(r[0])
    ensures forall i :: 0 <= i < |s| - |r| ==> IsJsSpace(s[i])
  {
    if |s| > 0 && IsJsSpace(s[0]) then TrimStart(s[1..]) else s
  }

  function TrimEnd(s: string): (r: string)
    ensures |r| <= |s| && r == s[..|r|]
    ensures |r| > 0 ==> !IsJsSpace(r[|r| - 1])
    ensures forall i :: |r| <= i < |s| ==> IsJsSpace(s[i])
  {
    if |s| > 0 && IsJsSpace(s[|s| - 1]) then TrimEnd(s[..|s| - 1]) else s
  }

  /**
   * JavaScript `s.trim()`: `s` without its leading and trailing white space.
   * The result is trimmed, and a string that is already trimmed is returned as is.
   */
  function Trim(s: string): (r: string)
    ensures Trimmed(r)
    ensures exists i, j :: 0 <= i <= j <= |s| && r == s[i..j]
    ensures Trimmed(s) ==> r == s
  {
    var t := TrimStart(s);
    var r := TrimEnd(t);
    assert r == s[|s| - |t|..][..|r|] == s[|s| - |t|..|s| - |t| + |r|];
    r
  }

  /** JavaScript `s.replace(/pat/g, rep)` for a literal pattern and a replacement without `$` patterns. */
  function ReplaceAll(s: string, pat: string, rep: string): (r: string)
    requires |pat| > 0
    ensures !Contains(s, pat) ==> r == s
    decreases |s|
  {
    match IndexOf(s, pat)
    case None => s
    case Some(i) => s[..i] + rep + ReplaceAll(s[i + |pat|..], pat, rep)
  }

  /**
   * One step of `ReplaceAll`: when no occurrence of `pat` starts inside `a`
   * (no occurrence in `a` followed by all but the last character of `pat`),
   * the first match is the one right after `a`, and the scan carries on in `b`.
   */
  lemma {:induction false} ReplaceAllStep(a: string, pat: string, b: string, rep: string)
    requires |pat| > 0
    requires !Contains(a + pat[..|pat| - 1], pat)
    ensures ReplaceAll(a + pat + b, pat, rep) == a + rep + ReplaceAll(b, pat, rep)
  {
    var s := a + pat + b;
    NoMatchBefore(a, pat, b);
    MatchAfter(a, pat, b);
    IndexOfIs(s, pat, |a|);
  }

  /** No occurrence of `pat` in `a + pat + b` starts inside `a`. */
  lemma NoMatchBefore(a: string, pat: string, b: string)
    requires |pat| > 0
    requires !Contains(a + pat[..|pat| - 1], pat)
    ensures forall j: nat :: j < |a| ==> !OccursAt(a + pat + b, pat, j)
  {
    var s := a + pat + b;
    var head := a + pat[..|pat| - 1];
    assert head == s[..|head|];
    forall j: nat | j < |a|
      ensures !OccursAt(s, pat, j)
    {
      assert s[..|head|][j..j + |pat|] == s[j..j + |pat|];
      assert !OccursAt(head, pat, j);
    }
  }

  /** `a + pat + b` holds `pat` right after `a`, with `a` before it and `b` after it. */
  lemma MatchAfter(a: string, pat: string, b: string)
    ensures OccursAt(a + pat + b, pat, |a|)
    ensures (a + pat + b)[..|a|] == a && (a + pat + b)[|a| + |pat|..] == b
  {
  }

  function DigitChar(d: nat): char
    requires d < 10
  {
    "0123456789"[d]
  }

  /** The decimal text of a natural number (JavaScript `String(n)` for an integral `n >= 0`). */
  function NatToString(n: nat): (r: string)
    ensures |r| >= 1
    ensures forall i :: 0 <= i < |r| ==> '0' <= r[i] <= '9'
    ensures ParseDecimal(r) == n
    decreases n
  {
    if n < 10 then
      [DigitChar(n)]
    else
      var r := NatToString(n / 10) + [DigitChar(n % 10)];
      assert r[..|r| - 1] == NatToString(n / 10);
      r
  }

  /** Reads a string of decimal digits back as a number. */
  function ParseDecimal(s: string): nat
  {
    if |s| == 0 then 0
    else
      var c := s[|s| - 1];
      var d := if '0' <= c <= '9' then (c as int) - ('0' as int) else 0;
      ParseDecimal(s[..|s| - 1]) * 10 + d
  }

  /** JavaScript `String(n)` for an integer. */
  function IntToString(n: int): string
  {
    if n < 0 then "-" + NatToString(-n) else NatToString(n)
  }
}
